=== FILE: README.md ===
# Wedding planner: a Dafny model of the client-side logic

The wedding planner is a single-page client over a hosted relational store.
A couple signs up and creates their wedding in a two-step wizard. They then
keep a guest list (typed in, or imported from a spreadsheet), a task list, a
budget of items grouped by category, a vendor list and a wedding-day
timeline. A dashboard summarises all of it.

Almost all of the client's behaviour is rendering and store calls. This
project models the pure logic inside the components:

- the spreadsheet guest import: header aliases, row validation, the preview
  counts, the single batch insert, the dialog state and the template rows;
- the add forms of guests, tasks, vendors, budget items and timeline events:
  the required-field guards, and "trim, and an empty result becomes null"
  for optional fields;
- the list operations: the RSVP and status filters, RSVP updates, the task
  checkbox, the vendor contract toggle and deletions;
- the figures on the pages and the dashboard cards: the budget totals and
  grouping, the progress counts, and the five earliest pending tasks;
- the onboarding wizard, the wedding provider's load and create flows, and
  the application frame's language switch, initials and navigation
  highlighting.

Store calls are parameters: a query's rows, whether an insert was accepted,
the row it returned. Translations appear as message keys (`Label.Message`).
Dates and `parseFloat` are parameters too. Money is in whole currency units,
and percentages are exact `real` ratios.

Modules:

- `Wrappers`: `Option` and `Result`.
- `Seqs`: filter, count, sum, map, take and subsequence facts.
- `Text`: JavaScript `trim`, white space, case mapping, `split`, `parseInt`
  and the integer-to-text conversion.
- `Records`: the table rows, the three enumerations, and the shared form
  conventions.
- One module per page or component: `GuestImport`, `GuestsPage`,
  `TasksPage`, `TimelinePage`, `VendorsPage`, `BudgetPage`,
  `BudgetOverview`, `GuestsPreview`, `ProgressOverview`, `TasksPreview`,
  `Onboarding`, `WeddingContext` and `AppLayout`.

## Model

| member | source | states |
|---|---|---|
| GuestImport.Resolve | src/components/wedding/GuestImport.tsx:121-127 | the field takes the value of the first alias, in list order, whose cell is truthy; an empty or missing cell falls through; with no truthy alias the field is `''` |
| GuestImport.OptionalField | src/components/wedding/GuestImport.tsx:146-151 | an optional field is absent exactly when its resolved value is falsy, and otherwise holds its trimmed text |
| GuestImport.RowErrors | src/components/wedding/GuestImport.tsx:129-137 | name-required is reported iff the name is blank after trimming; invalid-email iff an email is given and fails the pattern; at most two errors, name first |
| GuestImport.EmailShapeMatchesRegex | src/components/wedding/GuestImport.tsx:135 | the position-based email scan accepts exactly the strings `^[^\s@]+@[^\s@]+\.[^\s@]+$` accepts |
| GuestImport.LeadingSpaceFailsEmail | src/components/wedding/GuestImport.tsx:135 | an email whose first character is white space never matches the pattern |
| GuestImport.ParseRow | src/components/wedding/GuestImport.tsx:117-155 | a row whose resolved name is a number or boolean throws (no result); otherwise every output field is the trimmed resolved value, plus-one is the token test, and `isValid` iff there are no errors |
| GuestImport.ParseRows | src/components/wedding/GuestImport.tsx:117-161 | the rows parse iff every row parses, one preview row per input row in order; one throwing row fails the whole file |
| GuestImport.ParseFile | src/components/wedding/GuestImport.tsx:107-165 | a workbook the decoder rejects fails; otherwise the result is the row mapping |
| GuestImport.ValidIffNoErrors | src/components/wedding/GuestImport.tsx:130-152 | `isValid` is exactly "the error list is empty", so the extra `fullName.trim() !== ''` conjunct never decides anything |
| GuestImport.ValidityCharacterised | src/components/wedding/GuestImport.tsx:129-152 | a row is valid iff its name is not blank and its email, when truthy, matches the pattern |
| GuestImport.BlankNameIsInvalid | src/components/wedding/GuestImport.tsx:130-145 | a white-space-only name makes the row invalid with the name error and an empty stored name |
| GuestImport.LeadingSpaceEmailIsInvalid | src/components/wedding/GuestImport.tsx:135-146 | the email is checked before it is trimmed, so leading white space makes the row invalid |
| GuestImport.NoEmailNoEmailError | src/components/wedding/GuestImport.tsx:122-146 | a sheet with no email column gives no email error and no email |
| GuestImport.PlusOneExamples | src/components/wedding/GuestImport.tsx:140-142 | "Sí", "SI ", "yes", "TRUE", "1", "x", the number 1 and `true` mean yes; "No", "", "2" mean no |
| GuestImport.ValidCount | src/components/wedding/GuestImport.tsx:229 | the valid count is the number of rows that the import sends |
| GuestImport.InvalidCount | src/components/wedding/GuestImport.tsx:230 | the invalid count is at most the number of rows and is zero exactly when every row is valid |
| GuestImport.CountsPartition | src/components/wedding/GuestImport.tsx:229-230 | valid count plus invalid count equals the number of preview rows |
| GuestImport.ValidGuests | src/components/wedding/GuestImport.tsx:191 | a row is kept for import iff it is in the preview and valid |
| GuestImport.NullIfEmpty | src/components/wedding/GuestImport.tsx:203-208 | `x \|\| null`: absent or empty becomes null, anything else is kept |
| GuestImport.ToInsert | src/components/wedding/GuestImport.tsx:200-210 | each payload carries the dialog's wedding id, status `pending`, the parsed name and the plus-one flag; each of email, phone, companion name, dietary preferences and table is null when the parsed field is absent or empty and otherwise that field |
| GuestImport.Reset | src/components/wedding/GuestImport.tsx:54-60 | no file, no rows, upload step, both busy flags off; both counts 0 |
| GuestImport.LoadFile | src/components/wedding/GuestImport.tsx:107-173 | the file is remembered; a parsed file replaces the rows and shows the preview; a failed parse keeps the old rows and step and reports the parse error |
| GuestImport.Drop | src/components/wedding/GuestImport.tsx:175-184 | a dropped file is loaded iff its name ends in `.xlsx` or `.xls` (case-sensitive); otherwise only the format error is raised |
| GuestImport.Import | src/components/wedding/GuestImport.tsx:190-227 | no valid row: nothing sent and the no-valid-guests error; otherwise one batch of the valid rows' payloads in preview order; success reloads the page's data, closes and resets; failure leaves the dialog as it was except that the busy flag is cleared; the reload happens iff the store accepts |
| GuestImport.BatchIsValidRowsInOrder | src/components/wedding/GuestImport.tsx:191-212 | every valid row is sent, nothing else is, and the batch keeps the preview's order |
| GuestImport.Close | src/components/wedding/GuestImport.tsx:62-65 | closing resets the dialog state |
| GuestImport.TemplateHeadersAreRecognised | src/components/wedding/GuestImport.tsx:68-127 | the template's columns are exactly the first alias of each field |
| GuestImport.TemplateNameAccepted | src/components/wedding/GuestImport.tsx:178 | the template's file name passes the drop check |
| GuestImport.TemplateRow1RoundTrip | src/components/wedding/GuestImport.tsx:69-155 | the first template row parses as a valid guest with a companion, email and table |
| GuestImport.TemplateRow2RoundTrip | src/components/wedding/GuestImport.tsx:78-155 | the second template row parses as a valid guest without a companion, its blank cells left out |
| GuestImport.NameOnlyRowParses | src/components/wedding/GuestImport.tsx:121-155 | a sheet with only the name column yields valid guests without email or companion |
| GuestImport.BadEmailRow | src/components/wedding/GuestImport.tsx:121-137 | a malformed email is a row's only error and makes it invalid |
| GuestsPage.FilterGuests | src/pages/Guests.tsx:54-57 | `all` gives the whole list; a status gives exactly the guests with that status, each as often as on the list |
| GuestsPage.FilterGuestsKeepsOrder | src/pages/Guests.tsx:54-57 | the filtered list keeps the list's order |
| GuestsPage.GuestStats | src/pages/Guests.tsx:59-64 | the total is the list length; each count is the size of that status's filter; their sum is at most the total |
| GuestsPage.StatsShortfall | src/pages/Guests.tsx:59-64 | the shortfall from the total is exactly the `maybe` guests plus those with no status |
| GuestsPage.BlankGuestForm | src/pages/Guests.tsx:86-94 | the reset form has a blank name and no plus-one |
| GuestsPage.CreateGuestRequest | src/pages/Guests.tsx:68-80 | no insert iff the trimmed name is empty or there is no wedding; the name is trimmed, plus-one copied, and each optional field is null exactly when it is blank and otherwise the typed text with its surrounding white space removed |
| GuestsPage.GuestPayloadRoundTrip | src/pages/Guests.tsx:71-80 | typing a sent payload back into the form sends the same payload |
| GuestsPage.PlusOneNameSentWithoutPlusOne | src/pages/Guests.tsx:76-77 | a companion's name is sent even when the plus-one box is unticked |
| GuestsPage.SubmitGuest | src/pages/Guests.tsx:66-99 | a guarded submit changes nothing; success resets the form, closes the dialog and refreshes; failure keeps both and reports it |
| GuestsPage.UpdateRsvp | src/pages/Guests.tsx:101-105 | only the status of the rows with that id changes, to the chosen status |
| GuestsPage.UpdateRsvpIdempotent | src/pages/Guests.tsx:101-105 | choosing the same answer again changes nothing |
| GuestsPage.UpdatedGuestIsListed | src/pages/Guests.tsx:101-105 | after the update the guest is listed under the chosen filter |
| GuestsPage.DeleteGuest | src/pages/Guests.tsx:114-115 | the rows left are exactly those with another id |
| GuestsPage.DeleteMissingGuest | src/pages/Guests.tsx:114-115 | deleting an unknown id changes nothing |
| GuestsPage.FilterLabel | src/pages/Guests.tsx:131-139 | the four filter keys get their messages, `not_attending` reading as "declined"; anything else is shown as written |
| GuestsPage.RsvpLabel | src/pages/Guests.tsx:141-149 | a known status gets its message; an unknown one is shown as written |
| GuestsPage.BadgeIsTranslated | src/pages/Guests.tsx:310 | every stored status has a translated badge, and no status reads as pending |
| GuestsPage.BadgeLabel | src/pages/Guests.tsx:310 | the badge is the translated message of the guest's status, and the message for pending when there is no status |
| GuestsPage.UnknownStatusShownVerbatim | src/pages/Guests.tsx:148 | an example of the verbatim fallback: the status `declined`, which the map lacks, is shown as typed |
| TasksPage.FilterTasks | src/pages/Tasks.tsx:54-57 | `all` gives every task; a status gives exactly the tasks with that status, each as often as on the list |
| TasksPage.FilterTasksKeepsOrder | src/pages/Tasks.tsx:54-57 | the filtered list keeps the list's order |
| TasksPage.HeaderProgress | src/pages/Tasks.tsx:150 | the completed count is the size of the `completed` filter and never exceeds the task count |
| TasksPage.BlankTaskForm | src/pages/Tasks.tsx:40-77 | the fresh form has a blank title and medium priority |
| TasksPage.CreateTaskRequest | src/pages/Tasks.tsx:61-71 | no insert iff the trimmed title is empty or there is no wedding; the title is trimmed; the description is null iff blank and otherwise trimmed; the category and due date are null iff empty and otherwise copied |
| TasksPage.DefaultPriorityIsMedium | src/pages/Tasks.tsx:44 | a task created from a fresh form has medium priority |
| TasksPage.TaskPayloadRoundTrip | src/pages/Tasks.tsx:64-71 | typing a sent payload back into the form sends the same payload |
| TasksPage.SubmitTask | src/pages/Tasks.tsx:59-82 | a guarded submit changes nothing; success resets the form, closes the dialog and refreshes; failure keeps both |
| TasksPage.NextStatus | src/pages/Tasks.tsx:85 | the new status is `completed` iff the current one is not; `completed` goes back to pending |
| TasksPage.CurrentStatus | src/pages/Tasks.tsx:271 | a missing status is passed as pending |
| TasksPage.NullStatusTogglesAsPending | src/pages/Tasks.tsx:271 | a task without status is ticked to completed, like a pending one |
| TasksPage.ToggleTwice | src/pages/Tasks.tsx:85 | two ticks restore pending and completed, but turn in-progress into pending |
| TasksPage.ToggleUpdate | src/pages/Tasks.tsx:85-91 | the completion time is set, to the clock reading, iff the new status is `completed` |
| TasksPage.ApplyTaskUpdate | src/pages/Tasks.tsx:86-92 | only the rows with that id change, and only in status and completion time |
| TasksPage.ToggledTaskCompletedIffTimestamped | src/pages/Tasks.tsx:84-92 | after a tick a task is completed iff it has a completion time iff it was not completed before |
| TasksPage.DeleteTask | src/pages/Tasks.tsx:101-102 | the rows left are exactly those with another id |
| TasksPage.DeleteMissingTask | src/pages/Tasks.tsx:101-102 | deleting an unknown id changes nothing |
| TasksPage.StatusLabel | src/pages/Tasks.tsx:123-131 | the four known keys get their messages; anything else is shown as written |
| TasksPage.PriorityLabel | src/pages/Tasks.tsx:133-140 | the three known priorities get their messages; anything else is shown as written |
| TasksPage.StoredValuesAreTranslated | src/pages/Tasks.tsx:123-140 | every stored status and priority has a translated label |
| TimelinePage.JsRem12 | src/pages/Timeline.tsx:106 | JavaScript's `%`: agrees with the mathematical remainder for a non-negative hour and takes the hour's sign otherwise |
| TimelinePage.Hour12 | src/pages/Timeline.tsx:106 | `hour % 12 \|\| 12`: a non-negative hour maps into 1..12, congruent to the hour modulo 12; `NaN` gives 12 |
| TimelinePage.Suffix | src/pages/Timeline.tsx:105 | `PM` iff the hour is a number of at least 12 |
| TimelinePage.ClockHourInverse | src/pages/Timeline.tsx:105-106 | the 12-hour reading with its suffix determines the hour of the day |
| TimelinePage.ClockTimeFields | src/pages/Timeline.tsx:103 | splitting `hh:mm` or `hh:mm:ss` on `:` gives the hour field and then the minutes field |
| TimelinePage.FormatTimeOfClock | src/pages/Timeline.tsx:102-108 | for a time of day with hour h, the text is the 12-hour reading of h, the minutes copied verbatim, and `AM`/`PM` by h ≥ 12; a seconds field is dropped |
| TimelinePage.FormatTime | src/pages/Timeline.tsx:102-108 | the text ends in ` PM` exactly when the hour field parses to a number of at least 12, and in ` AM` otherwise |
| TimelinePage.MidnightExample | src/pages/Timeline.tsx:102-108 | `00:30` reads `12:30 AM` |
| TimelinePage.NoonExample | src/pages/Timeline.tsx:102-108 | `12:00:00` reads `12:00 PM` |
| TimelinePage.AfternoonExample | src/pages/Timeline.tsx:102-108 | `13:05` reads `1:05 PM` |
| TimelinePage.NoMinutesExample | src/pages/Timeline.tsx:103-107 | a time without a colon prints `undefined` for the minutes |
| TimelinePage.BlankEventForm | src/pages/Timeline.tsx:78-85 | the reset form has a blank title and no start time |
| TimelinePage.CreateEventRequest | src/pages/Timeline.tsx:61-72 | no insert iff the trimmed title is empty, the start time is empty or there is no wedding; the start time is copied; the end time is null iff empty and otherwise copied; description, location and assignee are null iff blank and otherwise trimmed |
| TimelinePage.EventPayloadRoundTrip | src/pages/Timeline.tsx:64-72 | typing a sent payload back into the form sends the same payload |
| TimelinePage.SubmitEvent | src/pages/Timeline.tsx:59-90 | success resets the form, closes the dialog and reloads the events; otherwise the form and dialog stay |
| VendorsPage.BlankVendorForm | src/pages/Vendors.tsx:72-81 | the reset form has a blank name and the contract unsigned |
| VendorsPage.CreateVendorRequest | src/pages/Vendors.tsx:53-66 | no insert iff the trimmed name is empty or there is no wedding; the contract flag is copied; the category is null iff empty and otherwise copied; contact, email, phone, website and notes are null iff blank and otherwise trimmed |
| VendorsPage.VendorPayloadRoundTrip | src/pages/Vendors.tsx:56-66 | typing a sent payload back into the form sends the same payload |
| VendorsPage.SubmitVendor | src/pages/Vendors.tsx:51-86 | success resets the form, closes the dialog and refreshes; otherwise both stay |
| VendorsPage.ToggledContract | src/pages/Vendors.tsx:261 | the value written is true iff the contract is not recorded as signed (null counts as unsigned) |
| VendorsPage.SetContract | src/pages/Vendors.tsx:88-92 | only the contract flag of the rows with that id changes |
| VendorsPage.ToggleContractTwice | src/pages/Vendors.tsx:88-92 | two presses restore a recorded value; a null one ends up false |
| VendorsPage.DeleteVendor | src/pages/Vendors.tsx:101-102 | the rows left are exactly those with another id |
| VendorsPage.DeleteMissingVendor | src/pages/Vendors.tsx:101-102 | deleting an unknown id changes nothing |
| BudgetPage.TotalBudget | src/pages/Budget.tsx:51 | the wedding's budget, or 0 when there is no wedding or no budget |
| BudgetPage.TotalSpent | src/pages/Budget.tsx:52 | no items spend 0, and the total is non-negative when every actual cost is; with `SpentWithItem` this fixes it as the sum of the actual costs |
| BudgetPage.TotalEstimated | src/pages/Budget.tsx:53 | no items estimate 0, and the total is non-negative when every estimate is; with `EstimatedWithItem` this fixes it as the sum of the estimates |
| BudgetPage.EstimatedWithItem | src/pages/Budget.tsx:53 | an item adds exactly its estimated cost, null counted as 0, to the estimated total wherever it sits in the list |
| BudgetPage.SpentWithItem | src/pages/Budget.tsx:52 | an item adds exactly its actual cost (null as 0) to the spent total, wherever it is on the list |
| BudgetPage.Remaining | src/pages/Budget.tsx:54 | remaining plus spent is the budget; remaining is non-negative iff spending is within the budget |
| BudgetPage.BarValue | src/pages/Budget.tsx:358 | the bar is the percentage capped at 100 |
| BudgetPage.BarFullIffNothingRemains | src/pages/Budget.tsx:54-55 | with a positive budget the bar is full iff nothing remains |
| BudgetPage.AddFundsRequest | src/pages/Budget.tsx:124-130 | an update is sent iff there is a wedding, the field is not empty and the amount is a positive number; the new total is the old one plus the amount |
| BudgetPage.AddFundsRaisesRemaining | src/pages/Budget.tsx:122-134 | adding funds raises the remaining amount by exactly the amount added |
| BudgetPage.SubmitFunds | src/pages/Budget.tsx:122-145 | success closes the dialog, clears the field and refreshes; otherwise the dialog stays as typed |
| BudgetPage.ConfigureBudgetRequest | src/pages/Budget.tsx:101-109 | an update is sent iff there is a wedding and the field is not empty, and it writes the parsed amount |
| BudgetPage.ConfiguredBudgetReadsBack | src/pages/Budget.tsx:51-108 | after configuring, the page's budget is the amount typed, or 0 for a non-number |
| BudgetPage.CreateItemRequest | src/pages/Budget.tsx:69-78 | no insert iff the trimmed name is empty or there is no wedding; the category is null iff empty; an unparsable cost becomes 0 |
| BudgetPage.InsertedItemIsSpent | src/pages/Budget.tsx:52-78 | inserting an item raises the spent total by its actual cost |
| BudgetPage.SubmitItem | src/pages/Budget.tsx:67-89 | success resets the form, closes the dialog and refreshes; otherwise both stay |
| BudgetPage.DeleteItem | src/pages/Budget.tsx:91-92 | the rows left are exactly those with another id |
| BudgetPage.DeleteUniqueItem | src/pages/Budget.tsx:91-92 | deleting an item whose id is unique removes exactly that row and keeps the order of the rest |
| BudgetPage.DeleteItemLowersSpent | src/pages/Budget.tsx:52-92 | deleting such an item lowers the spent total by exactly its actual cost |
| BudgetPage.CategorySpent | src/pages/Budget.tsx:151-153 | a category's total is the sum of the actual costs of the items filed under it |
| BudgetPage.GroupOf | src/pages/Budget.tsx:148-153 | a group holds exactly the items whose category is that category, with their total |
| BudgetPage.GroupKeepsItemOrder | src/pages/Budget.tsx:150 | inside a group the items keep the list's order |
| BudgetPage.ItemsByCategory | src/pages/Budget.tsx:148-154 | every group is a category's group and is non-empty; every category with an item has its group |
| BudgetPage.ItemsByCategoryKeepsOrder | src/pages/Budget.tsx:148-154 | the groups appear in the order of the categories |
| BudgetPage.Uncategorized | src/pages/Budget.tsx:156 | exactly the items with a null or empty category |
| BudgetPage.NoItemShownTwice | src/pages/Budget.tsx:148-156 | with distinct, non-empty category ids no item is in two groups, or in a group and among the uncategorized |
| BudgetOverview.BudgetCard | src/components/wedding/BudgetOverview.tsx:10-69 | the card's estimated and actual totals agree with the budget page; remaining is shown as fine iff spending is within budget; the percentage used is the spent share of the budget, 0 with no budget; the bar is capped at 100 and, with a budget, full iff nothing remains |
| BudgetOverview.LineOf | src/components/wedding/BudgetOverview.tsx:94-98 | a line shows the category's spending and allocation (null as 0); the percentage is the spent share of the allocation, 0 without one and at least 100 iff spending reaches it |
| BudgetOverview.TopCategories | src/components/wedding/BudgetOverview.tsx:93 | at most the first three categories, in order, each with its line |
| BudgetOverview.EmptyCategorySpendsNothing | src/components/wedding/BudgetOverview.tsx:94-96 | a category without items shows 0 spent |
| BudgetOverview.LineAgreesWithGroup | src/components/wedding/BudgetOverview.tsx:94-96 | a card line agrees with the budget page's group total, and shows 0 when the page drops the category |
| GuestsPreview.PreviewCounts | src/components/wedding/GuestsPreview.tsx:11-17 | the four counts plus the guests without status add up to the total, and three of them agree with the guest page |
| GuestsPreview.PlusOnes | src/components/wedding/GuestsPreview.tsx:19 | the guests with a truthy plus-one, whatever their answer; at most the total |
| GuestsPreview.TotalExpected | src/components/wedding/GuestsPreview.tsx:20 | attending plus plus-ones, at most twice the list length |
| GuestsPreview.ShowsPlusOneNote | src/components/wedding/GuestsPreview.tsx:85 | the note shows iff some guest brings a companion |
| GuestsPreview.DeclinedCompanionIsExpected | src/components/wedding/GuestsPreview.tsx:19-20 | a declined guest's companion still counts as expected |
| ProgressOverview.CompletedCount | src/components/wedding/ProgressOverview.tsx:11 | completed plus not completed is the task count |
| ProgressOverview.OverallProgress | src/components/wedding/ProgressOverview.tsx:10-12 | the completed share of the tasks: 0 with no tasks, never negative, and 100 iff every task is completed |
| ProgressOverview.ProgressOf | src/components/wedding/ProgressOverview.tsx:16-19 | a category's total is its task count and its completed count the number of its completed tasks; the percentage is completed over total, 0 with no tasks, and reaches 100 iff every task is completed |
| ProgressOverview.ByCategory | src/components/wedding/ProgressOverview.tsx:15-27 | only categories with tasks have a line, and every category with a task has one |
| ProgressOverview.ByCategoryKeepsOrder | src/components/wedding/ProgressOverview.tsx:15-27 | the lines keep the categories' order |
| ProgressOverview.LineTotalsCountFiledTasks | src/components/wedding/ProgressOverview.tsx:16-27 | with distinct ids the line totals add up to the tasks filed under some category |
| ProgressOverview.LineTotalsAtMostTasks | src/components/wedding/ProgressOverview.tsx:10-27 | the line totals never exceed the task count |
| ProgressOverview.DisplayedLines | src/components/wedding/ProgressOverview.tsx:56 | exactly the first four lines, or all of them when there are fewer |
| TasksPreview.PendingTasks | src/components/wedding/TasksPreview.tsx:17-18 | pending is everything not `completed` (null and in-progress included), and pending plus completed is the task count |
| TasksPreview.Candidates | src/components/wedding/TasksPreview.tsx:19-20 | exactly the pending tasks that have a due date |
| TasksPreview.SortBy | src/components/wedding/TasksPreview.tsx:21 | the sort is a permutation ordered by the key |
| TasksPreview.SortByIsStable | src/components/wedding/TasksPreview.tsx:21 | tasks with equal keys keep their relative order |
| TasksPreview.UpcomingTasks | src/components/wedding/TasksPreview.tsx:19-22 | at most five, as many as there are candidates up to five, drawn from the candidates, all pending and dated, in due-date order |
| TasksPreview.UpcomingAreTheEarliest | src/components/wedding/TasksPreview.tsx:19-22 | any candidate left off means the card is full and is due no sooner than the last one shown |
| TasksPreview.UpcomingKeepsOrderOfEqualDates | src/components/wedding/TasksPreview.tsx:21 | tasks due on the same date keep the list's order |
| TasksPreview.EmptyCardIffNothingDated | src/components/wedding/TasksPreview.tsx:19-22 | the card is empty iff no pending task has a due date |
| Onboarding.Route | src/pages/Onboarding.tsx:26-42 | the spinner iff either provider is loading; otherwise auth iff signed out, the dashboard iff signed in with a wedding, and the wizard iff signed in without one |
| Onboarding.Start | src/pages/Onboarding.tsx:18-24 | step 1 and a blank form |
| Onboarding.RequestOf | src/pages/Onboarding.tsx:58-63 | trimmed names; an empty date or budget is left out; otherwise the date as typed and the parsed amount |
| Onboarding.Submit | src/pages/Onboarding.tsx:44-63 | at step 1 a blank name keeps the step and reports the error, two names move to step 2; neither creates anything; at step 2 the creation request is sent |
| Onboarding.Back | src/pages/Onboarding.tsx:182-188 | back goes to step 1 and keeps what was typed |
| Onboarding.Step | src/pages/Onboarding.tsx:103-188 | the step stays in 1..2 whatever the user does |
| Onboarding.StepKeepsConsistent | src/pages/Onboarding.tsx:47-188 | each user action keeps "step 2 only with two non-blank names" |
| Onboarding.RunKeepsConsistent | src/pages/Onboarding.tsx:18-188 | from any consistent page, any sequence of actions stays consistent |
| Onboarding.Run | src/pages/Onboarding.tsx:47-52 | whatever the user does, the wizard never leaves steps 1 and 2 |
| Onboarding.RequestHasBothNames | src/pages/Onboarding.tsx:47-60 | from the start, a wedding is only ever requested with two non-empty trimmed names |
| Onboarding.Finished | src/pages/Onboarding.tsx:65-72 | the dashboard iff a wedding came back; otherwise the error |
| Onboarding.CreationDecidesNavigation | src/pages/Onboarding.tsx:58-70 | a step-2 submission leads to the dashboard iff a user is signed in and the store accepts the wedding |
| WeddingContext.InitialState | src/contexts/WeddingContext.tsx:36-37 | no wedding, empty lists, loading |
| WeddingContext.Single | src/contexts/WeddingContext.tsx:52 | a row iff exactly one matches |
| WeddingContext.RowsOrEmpty | src/contexts/WeddingContext.tsx:66-70 | a query whose table fails gives an empty list, any other gives its rows |
| WeddingContext.FindWedding | src/contexts/WeddingContext.tsx:48-52 | a wedding iff the query succeeds and the user owns exactly one, which is then that row |
| WeddingContext.Refresh | src/contexts/WeddingContext.tsx:39-76 | no user only stops loading; no wedding clears it and keeps the lists; otherwise each list holds exactly the wedding's rows of a successful query |
| WeddingContext.RefreshIsIdempotent | src/contexts/WeddingContext.tsx:39-76 | reloading against the same tables changes nothing |
| WeddingContext.MissingWeddingKeepsLists | src/contexts/WeddingContext.tsx:71-73 | when no wedding is found the lists shown are kept |
| WeddingContext.WeddingPayload | src/contexts/WeddingContext.tsx:83-89 | the owner is the user; the names are copied; an absent or empty date becomes null; an absent or non-number budget becomes 0 |
| WeddingContext.CategoryInserts | src/contexts/WeddingContext.tsx:99-120 | ten rows for the new wedding, in order, with the translated name, icon and colour of each default, and sort order equal to the index |
| WeddingContext.DefaultNameKeysDistinct | src/contexts/WeddingContext.tsx:99-110 | the ten defaults are distinct categories |
| WeddingContext.DefaultSortOrdersIncrease | src/contexts/WeddingContext.tsx:118 | sort orders strictly increase, so the stored order is the list order |
| WeddingContext.CreateWedding | src/contexts/WeddingContext.tsx:78-124 | no user: nothing sent and null; a failed insert: null and no categories; otherwise the defaults for the new id, a reload, and the new wedding returned |
| WeddingContext.CreatedWeddingReadsBack | src/contexts/WeddingContext.tsx:83-89 | the stored wedding reads back the owner, the names, the date when given and the budget or 0 |
| WeddingContext.CreatedWeddingIsLoaded | src/contexts/WeddingContext.tsx:48-122 | after creation the reload finds the new wedding when it is the user's only one |
| AppLayout.HeaderTitle | src/components/layout/AppLayout.tsx:72 | the couple's names joined by ` & `, or the app name without a wedding |
| AppLayout.HeaderShowsOnboardedNames | src/pages/Onboarding.tsx:58-61 | after onboarding the header shows the two names typed in the form, trimmed, joined by ` & ` |
| AppLayout.ToggleLanguage | src/components/layout/AppLayout.tsx:53-57 | always `en` or `es`; `en` iff the current language is `es` |
| AppLayout.ToggleLanguageInvolution | src/components/layout/AppLayout.tsx:53-57 | on `es` and `en` two toggles restore the language; anything else becomes `es` |
| AppLayout.LanguageBadge | src/components/layout/AppLayout.tsx:109 | `ES` iff the language is `es`, else `EN` |
| AppLayout.MenuLanguageLabel | src/components/layout/AppLayout.tsx:138 | the menu offers English iff the language is `es`, else Spanish |
| AppLayout.LabelsAgreeWithSwitch | src/components/layout/AppLayout.tsx:53-138 | the badge is the current language in capitals and the menu names the language the switch goes to |
| AppLayout.FirstCharsOfWords | src/components/layout/AppLayout.tsx:60 | one initial per non-empty word, and each initial is the first character of some word |
| AppLayout.FirstChars | src/components/layout/AppLayout.tsx:60 | the initials are never longer than the number of words |
| AppLayout.FirstCharsAppend | src/components/layout/AppLayout.tsx:60 | the initials keep the order of the words: those of two word lists joined are the first list's followed by the second's |
| AppLayout.FirstCharsInOrder | src/components/layout/AppLayout.tsx:60 | a word added at the end adds its first character at the end, an empty word nothing |
| AppLayout.UserInitials | src/components/layout/AppLayout.tsx:59-61 | with a name: the capitalised initials of its space-separated words, at most one per word; otherwise the first two characters of the email in capitals, or nothing without an email |
| AppLayout.InitialsOfTwoNames | src/components/layout/AppLayout.tsx:59-60 | "first last" gives the two capitalised first letters |
| AppLayout.IsActive | src/components/layout/AppLayout.tsx:80 | an entry is active iff its path equals the pathname exactly |
| AppLayout.OneActiveEntry | src/components/layout/AppLayout.tsx:43-80 | exactly one entry is highlighted on a menu page and none elsewhere, sub-paths included |
| Records.TrimOrNull | src/pages/Guests.tsx:74-79 | `s.trim() \|\| null`: null iff the text is blank, otherwise the trimmed text |
| Records.TrimOrNullStable | src/pages/Guests.tsx:74-79 | a normalised value normalises to itself |
| Records.OrNull | src/pages/Tasks.tsx:68-70 | `s \|\| null`: null iff empty, otherwise the text |
| Records.LabelOr | src/pages/Tasks.tsx:123-131 | `map[key] \|\| key`: a message iff the key is listed, otherwise the key itself |
| Records.Percent | src/pages/Budget.tsx:55 | 0 without a positive whole; otherwise `p * whole == part * 100`, at least 100 iff the part reaches the whole, and non-negative iff the part is |
| Records.PercentCharacterised | src/pages/Budget.tsx:55 | with a positive whole, the percentage is the only number whose product with the whole is 100 times the part |
| Records.PercentAdds | src/pages/Budget.tsx:55 | shares of one whole add up: the percentage of a sum is the sum of the percentages |
| Records.RsvpCountsPartition | src/integrations/supabase/types.ts:510-517 | the four statuses and "no status" split any guest list |
| Text.Trim | src/pages/Guests.tsx:68 | the result has no white space at either end, and is empty iff the text is all white space |
| Text.TrimIdempotent | src/pages/Guests.tsx:73 | trimming twice is trimming once |
| Text.ParseIntOfDigits | src/pages/Timeline.tsx:104 | `parseInt` of a run of decimal digits is its decimal value |
| Text.ParseInt | src/pages/Timeline.tsx:104 | blank text parses to `NaN`, and any number read contains a decimal digit |
| Text.ParseIntOfIntToString | src/pages/Timeline.tsx:104 | `parseInt(String(n))` is `n` for every integer |
| Text.IntToString | src/components/wedding/GuestImport.tsx:145 | `String(n)` is non-empty, starts with `-` exactly for a negative number, and is otherwise digits |
| Text.Split | src/pages/Timeline.tsx:103 | `split` yields at least one piece and no piece contains the separator |
| Text.ToLower | src/components/wedding/GuestImport.tsx:141 | `toLowerCase` keeps the length and lowers each character on its own |
| Text.ToUpper | src/components/layout/AppLayout.tsx:60 | `toUpperCase` keeps the length and raises each character on its own |
| Text.CaseRoundTrip | src/components/layout/AppLayout.tsx:60 | a character that `toUpperCase` changes is restored by `toLowerCase`, and the other way round |

## Left out

- Spreadsheet decoding and writing (`XLSX.read`, `sheet_to_json`, `writeFile`, column widths) are foreign library calls. Decoding is a parameter that yields the rows or fails. The template's rows are constants.
- Every store call (select, insert, update, delete) is network I/O. Each appears as a parameter: the rows a query returns, the set of failing tables, whether an insert was accepted, or the row it returned. The order clauses of the provider's queries (`sort_order`, `due_date`, `full_name`) are not modelled: the lists come back in the store's order.
- Toasts, dialogs, busy flags (`saving`, `loading`, submit-disabled states), colours, icons and JSX are UI only. Toasts that a flow raises appear as notice values where the flow decides them.
- Translation (`t(...)`) is i18n. Labels are message keys. The default category names are translated by a `translate` parameter. Persisting the language to local storage is I/O.
- Floating point is not modelled. Money is in whole units, percentages are exact rationals, and `toFixed` and `Intl.NumberFormat` are not modelled. `parseFloat` is a parameter returning `Option<int>`, with `None` standing for `NaN`. Spreadsheet number cells are whole numbers.
- Date handling is not modelled. `new Date(...).getTime()` is a `dateValue` parameter and `new Date().toISOString()` a `now` parameter. The date-fns labels (Today, Tomorrow, overdue), the countdown and the calendar page are left out.
- TasksPreview.SortBy: the engine's sort is modelled as a stable insertion sort by an integer key. A comparator returning `NaN` for unparsable dates is not modelled.
- Text.ToLower and Text.ToUpper: only ASCII and Latin-1 letters are mapped (enough for the plus-one tokens and initials). Other Unicode case mappings, such as `ß` to `SS`, are left out.
- Text.ParseInt: `parseInt` without a radix is modelled (leading white space, one sign, a `0x` prefix, the longest digit run). Its only use, in `formatTime`, is stated for digit-only hour fields.
- Label lookups use own keys only. A status equal to an inherited object property name (such as `constructor`) would hit the prototype in the source; this is not modelled.
- The timeline's `fetchEvents` and `deleteEvent` reload or delete a local event list that has no row type in this model. The timeline events table is not part of this model.
- The outcome of the default-category insert is not inspected by `createWedding`; the model records the rows sent and ignores the answer, as the source does.
- The category, task and vendor delete handlers' toasts and refreshes are UI; deletion itself is modelled as a filter on the table.
- Concurrency is not modelled: the parallel fetch in the provider and overlapping dialog actions are treated as sequential.
- `Auth`, `Settings`, `Dashboard`, `Calendar`, `CountdownTimer` and `App` hold no logic beyond the above (routing, identity-provider calls, a settings form with the same trim-or-null rule) and are left out.
- AppLayout.UserInitials: a string is modelled as a sequence of Unicode scalar values, while JavaScript indexes UTF-16 code units, so `n[0]` and `email.slice(0, 2)` on a character outside the Basic Multilingual Plane return half of a surrogate pair in the source but the whole character here.
- Text.IntToString: models `String(n)` for integers of any size by printing every digit; JavaScript numbers print 1e21 and above in exponent form (`1e+21`) and lose precision beyond 2^53, which number cells that large would show.
- TimelinePage.Hour12: a negative hour (possible only for a malformed time such as `-1:00`) is covered only by `JsRem12`'s sign rule, not by a separate range fact.

=== FILE: app_layout.dfy ===
/** The application frame: the header title, the language switch, the
    avatar initials and the navigation highlighting. */
module AppLayout {
  import opened Wrappers
  import opened Text
  import opened Records
  import Seqs
  import WeddingContext
  import Onboarding

  /** The header title: the couple's names, or the app name's message key. */
  function HeaderTitle(wedding: Option<Wedding>): (l: Label)
    ensures wedding.None? ==> l == Message("nav.weddingPlanner")
    ensures wedding.Some? ==> l == Verbatim(wedding.value.partnerName1 + " & " + wedding.value.partnerName2)
  {
    if wedding.None? then Message("nav.weddingPlanner")
    else Verbatim(wedding.value.partnerName1 + " & " + wedding.value.partnerName2)
  }

  /** Once onboarding has created the wedding, the header shows the two
      names as typed in the form, trimmed, joined by ` & `. */
  lemma HeaderShowsOnboardedNames(userId: string, form: Onboarding.Form, parseAmount: string -> Option<int>, id: string)
    ensures HeaderTitle(Some(WeddingContext.StoredRow(id, WeddingContext.WeddingPayload(userId, Onboarding.RequestOf(form, parseAmount)))))
      == Verbatim(Trim(form.partnerName1) + " & " + Trim(form.partnerName2))
  {
    var req := Onboarding.RequestOf(form, parseAmount);
    WeddingContext.CreatedWeddingReadsBack(userId, req, id);
  }

  /** `toggleLanguage`: Spanish becomes English, anything else becomes Spanish. */
  function ToggleLanguage(language: string): (r: string)
    ensures r == "en" || r == "es"
    ensures r == "en" <==> language == "es"
  {
    if language == "es" then "en" else "es"
  }

  /** On the two supported languages the switch undoes itself, and an
      unknown language is switched to Spanish. */
  lemma ToggleLanguageInvolution(language: string)
    ensures language == "es" || language == "en" ==> ToggleLanguage(ToggleLanguage(language)) == language
    ensures language != "es" && language != "en" ==> ToggleLanguage(language) == "es"
  {
  }

  /** The badge on the switch: `ES` or `EN`. */
  function LanguageBadge(language: string): (b: string)
    ensures b == "ES" <==> language == "es"
    ensures b == "ES" || b == "EN"
  {
    if language == "es" then "ES" else "EN"
  }

  /** The mobile menu's switch entry names the language it switches to. */
  function MenuLanguageLabel(language: string): (l: Label)
    ensures l == Message("common.english") <==> language == "es"
    ensures l == Message("common.english") || l == Message("common.spanish")
  {
    if language == "es" then Message("common.english") else Message("common.spanish")
  }

  /** The badge shows the current language and the menu entry the next one. */
  lemma LabelsAgreeWithSwitch(language: string)
    requires language == "es" || language == "en"
    ensures ToUpper(language) == LanguageBadge(language)
    ensures MenuLanguageLabel(language) == Message(if ToggleLanguage(language) == "en" then "common.english" else "common.spanish")
  {
    if language == "es" {
      assert ToUpper("es") == [UpperChar('e'), UpperChar('s')];
    } else {
      assert ToUpper("en") == [UpperChar('e'), UpperChar('n')];
    }
  }

  /** `words.map(n => n[0]).join('')`: the first character of every word,
      an empty word contributing nothing. */
  function FirstChars(words: seq<string>): (r: string)
    ensures |r| <= |words|
    decreases |words|
  {
    if |words| == 0 then ""
    else (if |words[0]| == 0 then "" else [words[0][0]]) + FirstChars(words[1..])
  }

  /** The initials keep the order of the words: those of a concatenation
      are the initials of the first part followed by those of the second. */
  lemma {:induction false} FirstCharsAppend(a: seq<string>, b: seq<string>)
    ensures FirstChars(a + b) == FirstChars(a) + FirstChars(b)
    decreases |a|
  {
    if |a| > 0 {
      assert (a + b)[0] == a[0];
      assert (a + b)[1..] == a[1..] + b;
      FirstCharsAppend(a[1..], b);
    } else {
      assert a + b == b;
    }
  }

  /** The initials in order: word by word, a non-empty word gives its first
      character and an empty word nothing. */
  lemma FirstCharsInOrder(words: seq<string>, w: string)
    ensures FirstChars(words + [w]) == FirstChars(words) + (if |w| == 0 then "" else [w[0]])
  {
    FirstCharsAppend(words, [w]);
    assert FirstChars([w]) == (if |w| == 0 then "" else [w[0]]) + FirstChars([w][1..]);
  }

  /** The number of non-empty words. */
  function NonEmptyWords(words: seq<string>): nat {
    Seqs.Count(words, (w: string) => |w| > 0)
  }

  /** One initial per non-empty word, each the first character of its word. */
  lemma {:induction false} FirstCharsOfWords(words: seq<string>)
    ensures |FirstChars(words)| == NonEmptyWords(words)
    ensures forall c :: c in FirstChars(words) <==> exists w :: w in words && |w| > 0 && w[0] == c
    decreases |words|
  {
    if |words| > 0 {
      FirstCharsOfWords(words[1..]);
      assert forall w :: w in words <==> w == words[0] || w in words[1..];
    }
  }

  /** The avatar text: from the full name when there is one, otherwise the
      first two characters of the email; `None` when neither is known. */
  function UserInitials(fullName: Option<string>, email: Option<string>): (r: Option<string>)
    ensures fullName.Some? && fullName.value != "" ==> (r.Some?
      && r.value == ToUpper(FirstChars(Split(fullName.value, ' ')))
      && |r.value| <= |Split(fullName.value, ' ')|)
    ensures (fullName.None? || fullName.value == "") ==> (r.Some? <==> email.Some?)
    ensures (fullName.None? || fullName.value == "") && email.Some? ==> (r.value == ToUpper(Seqs.Take(email.value, 2))
      && |r.value| == if |email.value| < 2 then |email.value| else 2)
  {
    if fullName.Some? && fullName.value != "" then Some(ToUpper(FirstChars(Split(fullName.value, ' '))))
    else if email.Some? then Some(ToUpper(Seqs.Take(email.value, 2)))
    else None
  }

  /** For two space-free names the initials are their two capitalised first letters. */
  lemma InitialsOfTwoNames(first: string, last: string, email: Option<string>)
    requires |first| > 0 && |last| > 0
    requires forall i :: 0 <= i < |first| ==> first[i] != ' '
    requires forall i :: 0 <= i < |last| ==> last[i] != ' '
    ensures UserInitials(Some(first + " " + last), email) == Some([UpperChar(first[0]), UpperChar(last[0])])
  {
    assert first + " " + last == first + [' '] + last;
    SplitAt(first, ' ', last);
    SplitNoSeparator(last, ' ');
    var words := [first, last];
    assert Split(first + " " + last, ' ') == words;
    assert FirstChars(words) == [first[0]] + FirstChars([last]);
    assert FirstChars([last]) == [last[0]] + FirstChars([]);
    var fc := FirstChars(words);
    assert fc == [first[0], last[0]];
    assert ToUpper(fc) == [UpperChar(first[0]), UpperChar(last[0])];
    assert |first + " " + last| > 0;
  }

  /** The navigation entries, in order. */
  const NavPaths: seq<string> := ["/dashboard", "/tasks", "/budget", "/guests", "/timeline", "/vendors", "/calendar"]

  /** `location.pathname === item.path`: exact equality, no prefix match. */
  function IsActive(path: string, pathname: string): (b: bool)
    ensures b <==> path == pathname
  {
    path == pathname
  }

  /** The entries highlighted for a pathname. */
  function ActiveCount(pathname: string): nat {
    Seqs.Count(NavPaths, (p: string) => IsActive(p, pathname))
  }

  /** Distinct paths: at most one entry equals any given value. */
  lemma {:induction false} DistinctCount(paths: seq<string>, pathname: string)
    requires forall i, j :: 0 <= i < j < |paths| ==> paths[i] != paths[j]
    ensures Seqs.Count(paths, (p: string) => IsActive(p, pathname)) == if pathname in paths then 1 else 0
    decreases |paths|
  {
    if |paths| > 0 {
      DistinctCount(paths[1..], pathname);
      assert pathname in paths <==> paths[0] == pathname || pathname in paths[1..];
      if paths[0] == pathname {
        assert pathname !in paths[1..];
      }
    }
  }

  /** Exactly one entry is highlighted on a page of the menu, none elsewhere
      (a sub-path such as `/tasks/1` highlights nothing). */
  lemma OneActiveEntry(pathname: string)
    ensures ActiveCount(pathname) == if pathname in NavPaths then 1 else 0
  {
    DistinctCount(NavPaths, pathname);
  }
}

=== FILE: budget_overview.dfy ===
/** The dashboard's budget card: the same totals as the budget page, the
    colour of the remaining amount, and the spending of the first three
    categories. */
module BudgetOverview {
  import opened Wrappers
  import opened Records
  import opened BudgetPage
  import Seqs

  /** The figures on the card. */
  datatype Card = Card(
    totalBudget: int,
    totalSpent: int,
    totalEstimated: int,
    remaining: int,
    percentUsed: real,
    bar: real,
    remainingOk: bool)

  /** The card for a wedding and its items; `remainingOk` is the
      `remaining >= 0` colour test. */
  function BudgetCard(wedding: Option<Wedding>, items: seq<BudgetItem>): (c: Card)
    ensures c.totalBudget == TotalBudget(wedding) && c.totalSpent == TotalSpent(items)
    ensures c.totalEstimated == TotalEstimated(items)
    ensures c.remaining == c.totalBudget - c.totalSpent
    ensures c.remainingOk <==> c.totalSpent <= c.totalBudget
    ensures c.percentUsed == Percent(c.totalSpent, c.totalBudget)
    ensures c.totalBudget <= 0 ==> c.percentUsed == 0.0
    ensures c.bar <= 100.0
    ensures c.totalBudget > 0 ==> (c.bar == 100.0 <==> !c.remainingOk || c.remaining == 0)
  {
    var budget := TotalBudget(wedding);
    var spent := TotalSpent(items);
    var remaining := Remaining(wedding, items);
    var percent := Percent(spent, budget);
    Card(budget, spent, TotalEstimated(items), remaining, percent, BarValue(percent), remaining >= 0)
  }

  /** One line of the category preview. */
  datatype CategoryLine = CategoryLine(category: Category, spent: int, allocation: int, percent: real)

  /** The preview line of one category: its spending, `Number(budget_allocated) || 0`,
      and the share of the allocation used. */
  function LineOf(c: Category, items: seq<BudgetItem>): (l: CategoryLine)
    ensures l.category == c && l.spent == CategorySpent(items, c.id)
    ensures l.allocation == MoneyOrZero(c.budgetAllocated)
    ensures l.percent == Percent(l.spent, l.allocation)
    ensures l.allocation <= 0 ==> l.percent == 0.0
    ensures l.allocation > 0 ==> (l.percent >= 100.0 <==> l.spent >= l.allocation)
  {
    var spent := CategorySpent(items, c.id);
    var allocation := MoneyOrZero(c.budgetAllocated);
    CategoryLine(c, spent, allocation, Percent(spent, allocation))
  }

  /** `categories.slice(0, 3).map(...)`: the first three categories, in order. */
  function TopCategories(categories: seq<Category>, items: seq<BudgetItem>): (lines: seq<CategoryLine>)
    ensures |lines| == if |categories| < 3 then |categories| else 3
    ensures forall k :: 0 <= k < |lines| ==> lines[k] == LineOf(categories[k], items)
  {
    Seqs.Map(Seqs.Take(categories, 3), (c: Category) => LineOf(c, items))
  }

  /** A category without items shows nothing spent, and so it is the only
      kind of category the budget page leaves out of its groups. */
  lemma {:induction false} EmptyCategorySpendsNothing(items: seq<BudgetItem>, id: string)
    requires forall x :: x in items ==> x.categoryId != Some(id)
    ensures CategorySpent(items, id) == 0
    decreases |items|
  {
    if |items| > 0 {
      EmptyCategorySpendsNothing(items[1..], id);
    }
  }

  /** The card's line for a category agrees with the budget page's group total. */
  lemma LineAgreesWithGroup(categories: seq<Category>, items: seq<BudgetItem>, k: nat)
    requires k < |categories| && k < 3
    ensures var line := TopCategories(categories, items)[k];
      (forall g :: g in ItemsByCategory(categories, items) && g.category == categories[k] ==> g.total == line.spent)
      && (GroupOf(categories[k], items) !in ItemsByCategory(categories, items) ==> line.spent == 0)
  {
    var c := categories[k];
    if GroupOf(c, items) !in ItemsByCategory(categories, items) {
      assert forall x :: x in items ==> x.categoryId != Some(c.id);
      EmptyCategorySpendsNothing(items, c.id);
    }
  }
}

=== FILE: budget_page.dfy ===
/** The budget page: the budget totals and usage bar, the add-funds and
    configure-budget dialogs, the add-item form, and the grouping of the
    items by category. Money is in whole currency units; what the user types
    in an amount field reaches the model already parsed (`None` is `NaN`). */
module BudgetPage {
  import opened Wrappers
  import opened Text
  import opened Records
  import Seqs

  /** `Number(wedding?.total_budget) || 0`. */
  function TotalBudget(wedding: Option<Wedding>): (b: int)
    ensures wedding.None? || wedding.value.totalBudget.None? ==> b == 0
    ensures wedding.Some? && wedding.value.totalBudget.Some? ==> b == wedding.value.totalBudget.value
  {
    if wedding.None? then 0 else MoneyOrZero(wedding.value.totalBudget)
  }

  /** `Number(item.actual_cost || 0)`. */
  function ActualCost(): BudgetItem -> int {
    (i: BudgetItem) => MoneyOrZero(i.actualCost)
  }

  /** `Number(item.estimated_cost || 0)`. */
  function EstimatedCost(): BudgetItem -> int {
    (i: BudgetItem) => MoneyOrZero(i.estimatedCost)
  }

  /** Costs that are never negative add up to a non-negative total. */
  lemma NonNegativeSum(items: seq<BudgetItem>, cost: BudgetItem -> int)
    ensures (forall i :: i in items ==> cost(i) >= 0) ==> Seqs.Sum(items, cost) >= 0
  {
    if forall i :: i in items ==> cost(i) >= 0 {
      Seqs.SumNonNegative(items, cost);
    }
  }

  /** The amount spent: the actual costs of all items, a missing cost counting 0. */
  function TotalSpent(items: seq<BudgetItem>): (s: int)
    ensures items == [] ==> s == 0
    ensures (forall i :: i in items ==> MoneyOrZero(i.actualCost) >= 0) ==> s >= 0
  {
    NonNegativeSum(items, ActualCost());
    Seqs.Sum(items, ActualCost())
  }

  /** The estimated total, summed the same way. */
  function TotalEstimated(items: seq<BudgetItem>): (s: int)
    ensures items == [] ==> s == 0
    ensures (forall i :: i in items ==> MoneyOrZero(i.estimatedCost) >= 0) ==> s >= 0
  {
    NonNegativeSum(items, EstimatedCost());
    Seqs.Sum(items, EstimatedCost())
  }

  /** A new item adds exactly its actual cost to the amount spent, wherever
      it lands in the list. */
  lemma SpentWithItem(before: seq<BudgetItem>, item: BudgetItem, after: seq<BudgetItem>)
    ensures TotalSpent(before + [item] + after) == TotalSpent(before + after) + MoneyOrZero(item.actualCost)
  {
    Seqs.SumAppend(before + [item], after, ActualCost());
    Seqs.SumAppend(before, [item], ActualCost());
    Seqs.SumAppend(before, after, ActualCost());
  }

  /** A new item adds exactly its estimated cost to the estimated total,
      wherever it lands in the list. */
  lemma EstimatedWithItem(before: seq<BudgetItem>, item: BudgetItem, after: seq<BudgetItem>)
    ensures TotalEstimated(before + [item] + after) == TotalEstimated(before + after) + MoneyOrZero(item.estimatedCost)
  {
    Seqs.SumAppend(before + [item], after, EstimatedCost());
    Seqs.SumAppend(before, [item], EstimatedCost());
    Seqs.SumAppend(before, after, EstimatedCost());
  }

  /** `totalBudget - totalSpent`. */
  function Remaining(wedding: Option<Wedding>, items: seq<BudgetItem>): (r: int)
    ensures r >= 0 <==> TotalSpent(items) <= TotalBudget(wedding)
    ensures r + TotalSpent(items) == TotalBudget(wedding)
  {
    TotalBudget(wedding) - TotalSpent(items)
  }

  /** The usage bar: `Math.min(percentUsed, 100)`. */
  function BarValue(percent: real): (v: real)
    ensures v <= 100.0
    ensures percent <= 100.0 ==> v == percent
    ensures percent >= 100.0 ==> v == 100.0
  {
    if percent < 100.0 then percent else 100.0
  }

  /** With a positive budget the bar is full exactly when nothing remains. */
  lemma BarFullIffNothingRemains(wedding: Option<Wedding>, items: seq<BudgetItem>)
    requires TotalBudget(wedding) > 0
    ensures BarValue(Percent(TotalSpent(items), TotalBudget(wedding))) == 100.0 <==> Remaining(wedding, items) <= 0
  {
  }

  /** The update `handleAddFunds` sends: the new `total_budget`, or nothing
      when there is no wedding, the field is empty, or the amount is `NaN`
      or not positive. `amount` is `parseFloat(fundsToAdd)`. */
  function AddFundsRequest(wedding: Option<Wedding>, fundsText: string, amount: Option<int>): (r: Option<int>)
    ensures r.Some? <==> wedding.Some? && fundsText != "" && amount.Some? && amount.value > 0
    ensures r.Some? ==> r.value == TotalBudget(wedding) + amount.value && r.value > TotalBudget(wedding)
  {
    if wedding.None? || fundsText == "" then None
    else if amount.None? || amount.value <= 0 then None
    else Some(TotalBudget(wedding) + amount.value)
  }

  /** Adding funds raises what remains by exactly the amount added. */
  lemma AddFundsRaisesRemaining(w: Wedding, items: seq<BudgetItem>, fundsText: string, amount: Option<int>)
    requires AddFundsRequest(Some(w), fundsText, amount).Some?
    ensures var updated := w.(totalBudget := AddFundsRequest(Some(w), fundsText, amount));
      Remaining(Some(updated), items) == Remaining(Some(w), items) + amount.value
  {
  }

  /** What a budget dialog leads to: the update sent, the dialog and its
      field afterwards, and whether the data is refreshed. */
  datatype DialogOutcome<U> = DialogOutcome(update: Option<U>, dialogOpen: bool, text: string, refreshed: bool)

  /** Submit the add-funds dialog; `storeAccepts` is the outcome of the update. */
  function SubmitFunds(wedding: Option<Wedding>, fundsText: string, amount: Option<int>, storeAccepts: bool): (o: DialogOutcome<int>)
    ensures o.update == AddFundsRequest(wedding, fundsText, amount)
    ensures o.update.None? || !storeAccepts ==> o.dialogOpen && o.text == fundsText && !o.refreshed
    ensures o.update.Some? && storeAccepts ==> !o.dialogOpen && o.text == "" && o.refreshed
  {
    var req := AddFundsRequest(wedding, fundsText, amount);
    if req.Some? && storeAccepts then DialogOutcome(req, false, "", true)
    else DialogOutcome(req, true, fundsText, false)
  }

  /** The update `handleConfigureBudget` sends: the parsed amount as the new
      `total_budget` (a `NaN` amount is written as null), or nothing when
      there is no wedding or the field is empty. */
  function ConfigureBudgetRequest(wedding: Option<Wedding>, budgetText: string, amount: Option<int>): (r: Option<Option<int>>)
    ensures r.None? <==> wedding.None? || budgetText == ""
    ensures r.Some? ==> r.value == amount
  {
    if wedding.None? || budgetText == "" then None else Some(amount)
  }

  /** After configuring, the page reads back the amount typed, or 0 for `NaN`. */
  lemma ConfiguredBudgetReadsBack(w: Wedding, budgetText: string, amount: Option<int>)
    requires budgetText != ""
    ensures var r := ConfigureBudgetRequest(Some(w), budgetText, amount);
      r.Some? && TotalBudget(Some(w.(totalBudget := r.value))) == amount.GetOr(0)
  {
  }

  /** The add-item dialog's fields, as typed. */
  datatype ItemForm = ItemForm(name: string, categoryId: string, estimatedCost: string, actualCost: string)

  /** The row sent to the `budget_items` table. */
  datatype ItemPayload = ItemPayload(
    weddingId: string,
    name: string,
    categoryId: Option<string>,
    estimatedCost: int,
    actualCost: int)

  /** The insert the form submits, or nothing when the guard stops it;
      `estimated` and `actual` are `parseFloat` of the two cost fields, and
      `parseFloat(x) || 0` turns `NaN` into 0. */
  function CreateItemRequest(form: ItemForm, wedding: Option<Wedding>, estimated: Option<int>, actual: Option<int>): (r: Option<ItemPayload>)
    ensures r.None? <==> AllSpace(form.name) || wedding.None?
    ensures r.Some? ==> (r.value.weddingId == wedding.value.id
      && r.value.name == Trim(form.name) && r.value.name != ""
      && CopiedOrNull(r.value.categoryId, form.categoryId))
    ensures r.Some? ==> (r.value.estimatedCost == (if estimated.Some? then estimated.value else 0)
      && r.value.actualCost == (if actual.Some? then actual.value else 0))
  {
    var name := Trim(form.name);
    if name == "" || wedding.None? then None
    else Some(ItemPayload(wedding.value.id, name, OrNull(form.categoryId), estimated.GetOr(0), actual.GetOr(0)))
  }

  /** The item as the table stores it under the id it is given. */
  function ItemRow(p: ItemPayload, id: string): BudgetItem {
    BudgetItem(id, p.weddingId, p.name, p.categoryId, Some(p.estimatedCost), Some(p.actualCost))
  }

  /** Inserting an item raises the amount spent by its actual cost. */
  lemma InsertedItemIsSpent(items: seq<BudgetItem>, form: ItemForm, w: Wedding, estimated: Option<int>, actual: Option<int>, id: string)
    requires CreateItemRequest(form, Some(w), estimated, actual).Some?
    ensures var p := CreateItemRequest(form, Some(w), estimated, actual).value;
      TotalSpent(items + [ItemRow(p, id)]) == TotalSpent(items) + actual.GetOr(0)
  {
    var p := CreateItemRequest(form, Some(w), estimated, actual).value;
    SpentWithItem(items, ItemRow(p, id), []);
    assert items + [ItemRow(p, id)] + [] == items + [ItemRow(p, id)];
    assert items + [] == items;
  }

  /** What submitting the add-item dialog leads to. */
  datatype ItemSubmit = ItemSubmit(request: Option<ItemPayload>, form: ItemForm, dialogOpen: bool, refreshed: bool)

  function SubmitItem(form: ItemForm, wedding: Option<Wedding>, estimated: Option<int>, actual: Option<int>, storeAccepts: bool): (o: ItemSubmit)
    ensures o.request == CreateItemRequest(form, wedding, estimated, actual)
    ensures o.request.None? || !storeAccepts ==> o.form == form && o.dialogOpen && !o.refreshed
    ensures o.request.Some? && storeAccepts ==> o.form == ItemForm("", "", "", "") && !o.dialogOpen && o.refreshed
  {
    var req := CreateItemRequest(form, wedding, estimated, actual);
    if req.Some? && storeAccepts then ItemSubmit(req, ItemForm("", "", "", ""), false, true)
    else ItemSubmit(req, form, true, false)
  }

  /** The rows `.eq('id', itemId)` does not select. */
  function OtherThan(itemId: string): BudgetItem -> bool {
    (x: BudgetItem) => x.id != itemId
  }

  /** The table after `delete().eq('id', itemId)`. */
  function DeleteItem(items: seq<BudgetItem>, itemId: string): (r: seq<BudgetItem>)
    ensures forall x :: x in r <==> x in items && x.id != itemId
    ensures |r| <= |items|
  {
    Seqs.Filter(items, OtherThan(itemId))
  }

  /** Deleting an item whose id no other row shares removes exactly that row. */
  lemma DeleteUniqueItem(before: seq<BudgetItem>, item: BudgetItem, after: seq<BudgetItem>)
    requires forall x :: x in before ==> x.id != item.id
    requires forall x :: x in after ==> x.id != item.id
    ensures DeleteItem(before + [item] + after, item.id) == before + after
  {
    Seqs.FilterDropOne(before, item, after, OtherThan(item.id));
  }

  /** Deleting an item lowers the amount spent by exactly its actual cost,
      when its id is unique on the list. */
  lemma DeleteItemLowersSpent(before: seq<BudgetItem>, item: BudgetItem, after: seq<BudgetItem>)
    requires forall x :: x in before ==> x.id != item.id
    requires forall x :: x in after ==> x.id != item.id
    ensures TotalSpent(DeleteItem(before + [item] + after, item.id)) == TotalSpent(before + [item] + after) - MoneyOrZero(item.actualCost)
  {
    DeleteUniqueItem(before, item, after);
    SpentWithItem(before, item, after);
  }

  /** `item.category_id === id`: a null category matches no category. */
  function InCategory(id: string): BudgetItem -> bool {
    (i: BudgetItem) => i.categoryId == Some(id)
  }

  /** The amount spent in one category. */
  function CategorySpent(items: seq<BudgetItem>, id: string): (s: int)
    ensures s == Seqs.Sum(items, (i: BudgetItem) => if i.categoryId == Some(id) then MoneyOrZero(i.actualCost) else 0)
  {
    Seqs.SumFilter(items, InCategory(id), ActualCost(),
      (i: BudgetItem) => if i.categoryId == Some(id) then MoneyOrZero(i.actualCost) else 0);
    Seqs.Sum(Seqs.Filter(items, InCategory(id)), ActualCost())
  }

  /** A category with its items and their total. */
  datatype CategoryGroup = CategoryGroup(category: Category, items: seq<BudgetItem>, total: int)

  function GroupOf(c: Category, items: seq<BudgetItem>): (g: CategoryGroup)
    ensures g.category == c
    ensures forall x :: x in g.items <==> x in items && x.categoryId == Some(c.id)
    ensures g.total == CategorySpent(items, c.id)
  {
    CategoryGroup(c, Seqs.Filter(items, InCategory(c.id)), CategorySpent(items, c.id))
  }

  /** Inside a group the items keep their list order. */
  lemma GroupKeepsItemOrder(c: Category, items: seq<BudgetItem>)
    ensures Seqs.IsSubsequence(GroupOf(c, items).items, items)
  {
    Seqs.FilterIsSubsequence(items, InCategory(c.id));
  }

  /** `itemsByCategory`: one group per category, in category order, dropping
      categories that have no item. */
  function ItemsByCategory(categories: seq<Category>, items: seq<BudgetItem>): (groups: seq<CategoryGroup>)
    ensures |groups| <= |categories|
    ensures forall g :: g in groups ==> g.category in categories && g == GroupOf(g.category, items) && |g.items| > 0
    ensures forall c, x :: c in categories && x in items && x.categoryId == Some(c.id) ==> GroupOf(c, items) in groups
    decreases |categories|
  {
    if |categories| == 0 then []
    else
      var g := GroupOf(categories[0], items);
      var rest := ItemsByCategory(categories[1..], items);
      assert forall c :: c in categories ==> c == categories[0] || c in categories[1..];
      if |g.items| > 0 then [g] + rest else rest
  }

  /** The category a group is about. */
  function GroupCategory(): CategoryGroup -> Category {
    (g: CategoryGroup) => g.category
  }

  /** The groups appear in the order of the categories. */
  lemma {:induction false} ItemsByCategoryKeepsOrder(categories: seq<Category>, items: seq<BudgetItem>)
    ensures Seqs.IsSubsequence(Seqs.Map(ItemsByCategory(categories, items), GroupCategory()), categories)
    decreases |categories|
  {
    if |categories| > 0 {
      var c := categories[0];
      var tail := categories[1..];
      ItemsByCategoryKeepsOrder(tail, items);
      var g := GroupOf(c, items);
      var rest := ItemsByCategory(tail, items);
      assert categories == [c] + tail;
      if |g.items| > 0 {
        assert ItemsByCategory(categories, items) == [g] + rest;
        Seqs.MapCons(g, rest, GroupCategory());
        Seqs.SubsequenceBothCons(c, Seqs.Map(rest, GroupCategory()), tail);
      } else {
        assert ItemsByCategory(categories, items) == rest;
        Seqs.SubsequenceCons(Seqs.Map(rest, GroupCategory()), c, tail);
      }
    }
  }

  /** `!item.category_id`: a null or empty category. */
  function NoCategory(): BudgetItem -> bool {
    (i: BudgetItem) => i.categoryId.None? || i.categoryId == Some("")
  }

  /** `uncategorizedItems`. */
  function Uncategorized(items: seq<BudgetItem>): (r: seq<BudgetItem>)
    ensures forall x :: x in r <==> x in items && (x.categoryId.None? || x.categoryId == Some(""))
  {
    Seqs.Filter(items, NoCategory())
  }

  /** With non-empty, distinct category ids, no item is shown twice: not in
      two groups, and not both in a group and among the uncategorized. */
  lemma NoItemShownTwice(categories: seq<Category>, items: seq<BudgetItem>)
    requires forall k :: 0 <= k < |categories| ==> categories[k].id != ""
    requires forall j, k :: 0 <= j < k < |categories| ==> categories[j].id != categories[k].id
    ensures var groups := ItemsByCategory(categories, items);
      forall g, x :: g in groups && x in g.items ==> x !in Uncategorized(items)
    ensures var groups := ItemsByCategory(categories, items);
      forall g1, g2, x :: g1 in groups && g2 in groups && x in g1.items && x in g2.items ==> g1 == g2
  {
    var groups := ItemsByCategory(categories, items);
    forall g1, g2, x | g1 in groups && g2 in groups && x in g1.items && x in g2.items
      ensures g1 == g2
    {
      var j :| 0 <= j < |categories| && categories[j] == g1.category;
      var k :| 0 <= k < |categories| && categories[k] == g2.category;
      assert categories[j].id == categories[k].id;
      assert j == k;
    }
  }
}

=== FILE: guest_import.dfy ===
/** The guest spreadsheet import dialog: header-alias resolution, row
    validation, the preview counts, the batch commit, the dialog's session
    state and the downloadable template.

    Decoding the workbook is abstracted: the decoder either yields the rows
    of the first sheet (`Some(rows)`) or fails (`None`). Each row maps the
    header texts of the cells that hold a value to those values; an empty
    cell is an absent key. The batch insert is abstracted to whether the
    store accepted it. */
module GuestImport {
  import opened Wrappers
  import opened Text
  import Seqs
  import Records

  /** A decoded cell value. Numbers are whole numbers. */
  datatype Cell = Str(s: string) | Num(n: int) | Bool(b: bool)

  type RawRow = map<string, Cell>

  /** JavaScript truthiness of a cell value. */
  predicate Truthy(c: Cell) {
    match c
    case Str(s) => s != ""
    case Num(n) => n != 0
    case Bool(b) => b
  }

  /** `String(value)`. */
  function CellString(c: Cell): string {
    match c
    case Str(s) => s
    case Num(n) => IntToString(n)
    case Bool(b) => if b then "true" else "false"
  }

  // The accepted headers of each logical field, in the order they are tried.
  const NameHeaders: seq<string> := ["Nombre Completo", "Nombre", "Name", "Full Name", "nombre"]
  const EmailHeaders: seq<string> := ["Email", "email", "Correo", "correo"]
  const PhoneHeaders: seq<string> := ["Teléfono", "Telefono", "Phone", "Tel", "telefono"]
  const PlusOneHeaders: seq<string> := ["Tiene Acompañante", "Acompañante", "Plus One", "acompañante"]
  const PlusOneNameHeaders: seq<string> := ["Nombre Acompañante", "Plus One Name", "Nombre del Acompañante"]
  const DietaryHeaders: seq<string> := ["Preferencias Alimentarias", "Dieta", "Dietary", "preferencias"]
  const TableHeaders: seq<string> := ["Mesa", "Table", "mesa"]

  /** The row has a truthy cell under `header`. */
  predicate Hit(row: RawRow, header: string) {
    header in row && Truthy(row[header])
  }

  /** `i` is the first position of `headers` whose cell is truthy. */
  ghost predicate FirstHit(row: RawRow, headers: seq<string>, i: int) {
    0 <= i < |headers| && Hit(row, headers[i]) && forall j :: 0 <= j < i ==> !Hit(row, headers[j])
  }

  /** `row[h1] || row[h2] || ... || ''`: the value under the first header
      whose cell is truthy; the empty string when there is none. */
  function Resolve(row: RawRow, headers: seq<string>): (c: Cell)
    ensures Truthy(c) || c == Str("")
    ensures (forall i :: 0 <= i < |headers| ==> !Hit(row, headers[i])) ==> c == Str("")
    ensures (exists i :: FirstHit(row, headers, i)) ==> exists i :: FirstHit(row, headers, i) && c == row[headers[i]]
    decreases |headers|
  {
    if |headers| == 0 then Str("")
    else if Hit(row, headers[0]) then
      assert FirstHit(row, headers, 0);
      row[headers[0]]
    else
      var c := Resolve(row, headers[1..]);
      assert forall i :: 1 <= i < |headers| ==> headers[1..][i - 1] == headers[i];
      assert forall i :: FirstHit(row, headers, i) ==> i >= 1 && FirstHit(row, headers[1..], i - 1);
      assert forall i :: FirstHit(row, headers[1..], i) ==> FirstHit(row, headers, i + 1);
      c
  }

  /** Validation errors, kept as message identifiers. */
  datatype ImportError = NameRequired | InvalidEmail

  /** One row as shown in the preview. */
  datatype ParsedGuest = ParsedGuest(
    fullName: string,
    email: Option<string>,
    phone: Option<string>,
    plusOne: bool,
    plusOneName: Option<string>,
    dietaryPreferences: Option<string>,
    tableAssignment: Option<string>,
    isValid: bool,
    errors: seq<ImportError>)

  /** A character the class `[^\s@]` matches. */
  predicate EmailChar(c: char) {
    !IsJsSpace(c) && c != '@'
  }

  predicate AllEmailChars(s: string) {
    forall i :: 0 <= i < |s| ==> EmailChar(s[i])
  }

  /** What `/^[^\s@]+@[^\s@]+\.[^\s@]+$/.test(s)` accepts: some split of `s`
      into three non-empty runs of `[^\s@]` joined by `@` and `.`. */
  ghost predicate EmailRegex(s: string) {
    exists i, j :: 0 < i && i + 1 < j && j + 1 < |s| && s[i] == '@' && s[j] == '.'
      && AllEmailChars(s[..i]) && AllEmailChars(s[i + 1..j]) && AllEmailChars(s[j + 1..])
  }

  /** Position of the first `c` in `s`, or `|s|`. */
  function IndexOf(s: string, c: char): (k: nat)
    ensures k <= |s|
    ensures k < |s| ==> s[k] == c
    ensures forall i :: 0 <= i < k ==> s[i] != c
  {
    if |s| == 0 then 0
    else if s[0] == c then 0
    else
      var k := 1 + IndexOf(s[1..], c);
      assert forall i :: 1 <= i < k ==> s[i] == s[1..][i - 1];
      k
  }

  /** A character that occurs is found. */
  lemma IndexOfMember(s: string, c: char)
    requires c in s
    ensures IndexOf(s, c) < |s|
  {
    var k :| 0 <= k < |s| && s[k] == c;
  }

  /** The email check as a direct scan: a non-empty local part before the
      only `@`, and a domain with a `.` strictly inside it. */
  predicate EmailShapeOk(s: string) {
    var at := IndexOf(s, '@');
    var domain := if at < |s| then s[at + 1..] else "";
    0 < at < |s| && AllEmailChars(s[..at]) && AllEmailChars(domain)
    && |domain| >= 3 && '.' in domain[1..|domain| - 1]
  }

  lemma EmailShapeImpliesRegex(s: string)
    requires EmailShapeOk(s)
    ensures EmailRegex(s)
  {
    var at := IndexOf(s, '@');
    var domain := s[at + 1..];
    var inner := domain[1..|domain| - 1];
    IndexOfMember(inner, '.');
    var k := IndexOf(inner, '.');
    var j := at + 2 + k;
    assert s[j] == '.';
    EmailCharsSlice(domain, 0, k + 1);
    EmailCharsSlice(domain, k + 2, |domain|);
    assert s[at + 1..j] == domain[..k + 1];
    assert s[j + 1..] == domain[k + 2..];
    RegexWitness(s, at, j);
  }

  /** Every slice of a run of `[^\s@]` is one. */
  lemma EmailCharsSlice(d: string, a: nat, b: nat)
    requires AllEmailChars(d) && a <= b <= |d|
    ensures AllEmailChars(d[a..b])
  {
    assert forall m :: 0 <= m < b - a ==> d[a..b][m] == d[a + m];
  }

  /** One split the regular expression accepts. */
  lemma RegexWitness(s: string, i: int, j: int)
    requires 0 < i && i + 1 < j && j + 1 < |s| && s[i] == '@' && s[j] == '.'
    requires AllEmailChars(s[..i]) && AllEmailChars(s[i + 1..j]) && AllEmailChars(s[j + 1..])
    ensures EmailRegex(s)
  {
  }

  lemma RegexImpliesEmailShape(s: string, i: int, j: int)
    requires 0 < i && i + 1 < j && j + 1 < |s| && s[i] == '@' && s[j] == '.'
    requires AllEmailChars(s[..i]) && AllEmailChars(s[i + 1..j]) && AllEmailChars(s[j + 1..])
    ensures EmailShapeOk(s)
  {
    assert forall m :: 0 <= m < i ==> s[m] == s[..i][m];
    assert IndexOf(s, '@') == i;
    var domain := s[i + 1..];
    forall m | 0 <= m < |domain|
      ensures EmailChar(domain[m])
    {
      if i + 1 + m < j {
        assert domain[m] == s[i + 1..j][m];
      } else if i + 1 + m > j {
        assert domain[m] == s[j + 1..][m - (j - i)];
      }
    }
    assert domain[1..|domain| - 1][j - i - 2] == '.';
  }

  /** The scan accepts exactly what the regular expression accepts. */
  lemma EmailShapeMatchesRegex(s: string)
    ensures EmailShapeOk(s) <==> EmailRegex(s)
  {
    if EmailShapeOk(s) {
      EmailShapeImpliesRegex(s);
    }
    if EmailRegex(s) {
      var i, j :| 0 < i && i + 1 < j && j + 1 < |s| && s[i] == '@' && s[j] == '.'
        && AllEmailChars(s[..i]) && AllEmailChars(s[i + 1..j]) && AllEmailChars(s[j + 1..]);
      RegexImpliesEmailShape(s, i, j);
    }
  }

  /** A leading white-space character always fails the email pattern. */
  lemma LeadingSpaceFailsEmail(s: string)
    requires |s| > 0 && IsJsSpace(s[0])
    ensures !EmailRegex(s)
  {
    forall i | 0 < i <= |s|
      ensures !AllEmailChars(s[..i])
    {
      assert s[..i][0] == s[0];
    }
  }

  /** The accepted spellings of "yes" for the plus-one column. */
  const PlusOneTokens: seq<string> := ["sí", "si", "yes", "true", "1", "x"]

  /** `['sí', ..., 'x'].includes(String(v).toLowerCase().trim())`. */
  predicate PlusOneFlag(c: Cell) {
    Trim(ToLower(CellString(c))) in PlusOneTokens
  }

  /** `v ? String(v).trim() : undefined`. */
  function OptionalField(c: Cell): (r: Option<string>)
    ensures r.None? <==> !Truthy(c)
    ensures r.Some? ==> r.value == Trim(CellString(c))
  {
    if Truthy(c) then Some(Trim(CellString(c))) else None
  }

  /** The validation errors of a row whose resolved name is text, in the
      order they are checked. */
  function RowErrors(name: string, email: Cell): (errs: seq<ImportError>)
    ensures NameRequired in errs <==> AllSpace(name)
    ensures InvalidEmail in errs <==> Truthy(email) && !EmailRegex(CellString(email))
    ensures |errs| <= 2 && (|errs| == 2 ==> errs == [NameRequired, InvalidEmail])
    ensures |errs| > 0 ==> errs[0] == NameRequired || errs == [InvalidEmail]
  {
    var nameMissing := name == "" || Trim(name) == "";
    var emailBad := Truthy(email) && !EmailShapeOk(CellString(email));
    EmailShapeMatchesRegex(CellString(email));
    (if nameMissing then [NameRequired] else []) + (if emailBad then [InvalidEmail] else [])
  }

  /** Normalise and validate one row. `None` is the case where the resolved
      name is a number or a boolean: `fullName.trim()` then throws and the
      whole file fails to parse. */
  function ParseRow(row: RawRow): (r: Option<ParsedGuest>)
    ensures r.None? <==> !Resolve(row, NameHeaders).Str?
    ensures r.Some? ==> (r.value.isValid <==> |r.value.errors| == 0)
    ensures r.Some? ==> r.value.errors == RowErrors(Resolve(row, NameHeaders).s, Resolve(row, EmailHeaders))
    ensures r.Some? ==> r.value.fullName == Trim(Resolve(row, NameHeaders).s)
    ensures r.Some? ==> (r.value.plusOne <==> PlusOneFlag(Resolve(row, PlusOneHeaders)))
    ensures r.Some? ==> r.value.email == OptionalField(Resolve(row, EmailHeaders))
    ensures r.Some? ==> r.value.phone == OptionalField(Resolve(row, PhoneHeaders))
    ensures r.Some? ==> r.value.plusOneName == OptionalField(Resolve(row, PlusOneNameHeaders))
    ensures r.Some? ==> r.value.dietaryPreferences == OptionalField(Resolve(row, DietaryHeaders))
    ensures r.Some? ==> r.value.tableAssignment == OptionalField(Resolve(row, TableHeaders))
  {
    var name := Resolve(row, NameHeaders);
    if !name.Str? then None
    else
      var errors := RowErrors(name.s, Resolve(row, EmailHeaders));
      Some(ParsedGuest(
        fullName := Trim(name.s),
        email := OptionalField(Resolve(row, EmailHeaders)),
        phone := OptionalField(Resolve(row, PhoneHeaders)),
        plusOne := PlusOneFlag(Resolve(row, PlusOneHeaders)),
        plusOneName := OptionalField(Resolve(row, PlusOneNameHeaders)),
        dietaryPreferences := OptionalField(Resolve(row, DietaryHeaders)),
        tableAssignment := OptionalField(Resolve(row, TableHeaders)),
        isValid := |errors| == 0 && Trim(name.s) != "",
        errors := errors))
  }

  /** The failures of the whole parsing step. */
  datatype ParseFailure = ParseError

  /** Map `ParseRow` over the decoded rows; any throwing row, or a file the
      decoder rejects, fails the whole step with no partial result. */
  function ParseRows(rows: seq<RawRow>): (r: Result<seq<ParsedGuest>, ParseFailure>)
    ensures r.Success? <==> forall i :: 0 <= i < |rows| ==> ParseRow(rows[i]).Some?
    ensures r.Success? ==> |r.value| == |rows| && forall i :: 0 <= i < |rows| ==> ParseRow(rows[i]) == Some(r.value[i])
  {
    match Seqs.MapAll(rows, ParseRow)
    case None => Failure(ParseError)
    case Some(gs) => Success(gs)
  }

  /** `parseExcelFile` after decoding: `decoded` is what the workbook decoder produced. */
  function ParseFile(decoded: Option<seq<RawRow>>): (r: Result<seq<ParsedGuest>, ParseFailure>)
    ensures decoded.None? ==> r.Failure?
    ensures decoded.Some? ==> r == ParseRows(decoded.value)
  {
    match decoded
    case None => Failure(ParseError)
    case Some(rows) => ParseRows(rows)
  }

  /** Every parsed guest's validity flag agrees with its error list, so the
      `fullName.trim() !== ''` conjunct never changes the outcome. */
  lemma ValidIffNoErrors(row: RawRow)
    requires Resolve(row, NameHeaders).Str?
    ensures ParseRow(row).value.isValid == (ParseRow(row).value.errors == [])
    ensures !ParseRow(row).value.isValid ==> ParseRow(row).value.errors != []
  {
  }

  /** A name made only of white space is invalid whatever the other columns hold. */
  lemma BlankNameIsInvalid(row: RawRow)
    requires Resolve(row, NameHeaders).Str? && AllSpace(Resolve(row, NameHeaders).s)
    ensures ParseRow(row).Some? && !ParseRow(row).value.isValid
    ensures NameRequired in ParseRow(row).value.errors
    ensures ParseRow(row).value.fullName == ""
  {
  }

  /** An email with leading white space is reported invalid even though the
      stored value would be trimmed. */
  lemma LeadingSpaceEmailIsInvalid(row: RawRow)
    requires Resolve(row, NameHeaders).Str?
    requires var e := CellString(Resolve(row, EmailHeaders)); |e| > 0 && IsJsSpace(e[0])
    ensures InvalidEmail in ParseRow(row).value.errors
    ensures !ParseRow(row).value.isValid
  {
    LeadingSpaceFailsEmail(CellString(Resolve(row, EmailHeaders)));
  }

  /** A row without any email column never gets the email error. */
  lemma NoEmailNoEmailError(row: RawRow)
    requires Resolve(row, NameHeaders).Str?
    requires forall h :: h in EmailHeaders ==> h !in row
    ensures InvalidEmail !in ParseRow(row).value.errors
    ensures ParseRow(row).value.email.None?
  {
    assert forall i :: 0 <= i < |EmailHeaders| ==> !Hit(row, EmailHeaders[i]);
  }

  predicate Ready(g: ParsedGuest) {
    g.isValid
  }

  predicate Rejected(g: ParsedGuest) {
    !g.isValid
  }

  /** Guests ready to import. */
  function ValidGuests(gs: seq<ParsedGuest>): (v: seq<ParsedGuest>)
    ensures forall g :: g in v <==> g in gs && g.isValid
  {
    Seqs.Filter(gs, Ready)
  }

  /** The number of valid rows shown in the preview header. */
  function ValidCount(gs: seq<ParsedGuest>): (n: nat)
    ensures n == |ValidGuests(gs)|
  {
    Seqs.CountIsFilterLength(gs, Ready);
    Seqs.Count(gs, Ready)
  }

  /** The number of rows the preview flags as invalid. */
  function InvalidCount(gs: seq<ParsedGuest>): (n: nat)
    ensures n <= |gs|
    ensures n == 0 <==> forall g :: g in gs ==> g.isValid
  {
    Seqs.CountZero(gs, Rejected);
    Seqs.Count(gs, Rejected)
  }

  /** Every preview row is counted exactly once. */
  lemma CountsPartition(gs: seq<ParsedGuest>)
    ensures ValidCount(gs) + InvalidCount(gs) == |gs|
  {
    Seqs.CountComplement(gs, Ready, Rejected);
  }

  /** The payload of one guest in the batch insert. */
  datatype GuestInsert = GuestInsert(
    weddingId: string,
    fullName: string,
    email: Option<string>,
    phone: Option<string>,
    plusOne: bool,
    plusOneName: Option<string>,
    dietaryPreferences: Option<string>,
    tableAssignment: Option<string>,
    rsvpStatus: Records.RsvpStatus)

  /** `x || null` on an optional parsed field: absent or empty becomes null. */
  function NullIfEmpty(x: Option<string>): (r: Option<string>)
    ensures r.None? <==> (x.None? || x.value == "")
    ensures r.Some? ==> r == x
  {
    if x.Some? && x.value != "" then x else None
  }

  /** A nullable column filled from an optional parsed field by `x || null`. */
  predicate NulledWhenEmpty(v: Option<string>, x: Option<string>) {
    (v.None? <==> x.None? || x.value == "") && (v.Some? ==> v == x)
  }

  /** One guest of the batch: the parsed fields, empty ones as null, and a
      pending answer. */
  function ToInsert(weddingId: string, g: ParsedGuest): (p: GuestInsert)
    ensures p.weddingId == weddingId && p.rsvpStatus == Records.Pending
    ensures p.fullName == g.fullName && p.plusOne == g.plusOne
    ensures NulledWhenEmpty(p.email, g.email) && NulledWhenEmpty(p.phone, g.phone)
      && NulledWhenEmpty(p.plusOneName, g.plusOneName)
      && NulledWhenEmpty(p.dietaryPreferences, g.dietaryPreferences)
      && NulledWhenEmpty(p.tableAssignment, g.tableAssignment)
  {
    GuestInsert(weddingId, g.fullName, NullIfEmpty(g.email), NullIfEmpty(g.phone), g.plusOne,
      NullIfEmpty(g.plusOneName), NullIfEmpty(g.dietaryPreferences), NullIfEmpty(g.tableAssignment),
      Records.Pending)
  }

  /** Which step of the dialog is shown. */
  datatype Step = Upload | Preview

  /** The dialog's state: the chosen file name, the parsed rows, the two busy
      flags and the step. */
  datatype Session = Session(
    file: Option<string>,
    parsed: seq<ParsedGuest>,
    processing: bool,
    importing: bool,
    step: Step)

  /** User-facing notifications, as message identifiers. */
  datatype Notice = Quiet | ParseErrorToast | InvalidFormatToast | NoValidGuestsToast
    | ImportErrorToast | ImportedToast(count: nat)

  /** `resetState`: no file, no rows, upload step, not busy. */
  function Reset(s: Session): (r: Session)
    ensures r.file.None? && r.parsed == [] && r.step == Upload && !r.processing && !r.importing
    ensures ValidCount(r.parsed) == 0 && InvalidCount(r.parsed) == 0
  {
    Session(None, [], false, false, Upload)
  }

  /** The result of a user action on the dialog: the next state, the
      notification, the batch sent to the store, whether the dialog closes and
      whether `onImportComplete` (the page's reload) is called. */
  datatype Outcome = Outcome(session: Session, notice: Notice, batch: Option<seq<GuestInsert>>, closed: bool,
                             refreshed: bool)

  /** A file was chosen (picker or accepted drop) and decoded into `decoded`:
      on success the rows go to the preview; on failure only the file is
      remembered and the error is reported. */
  function LoadFile(s: Session, name: string, decoded: Option<seq<RawRow>>): (o: Outcome)
    ensures o.batch.None? && !o.closed && !o.refreshed && !o.session.processing && o.session.file == Some(name)
    ensures ParseFile(decoded).Success? ==> o.session.parsed == ParseFile(decoded).value && o.session.step == Preview && o.notice == Quiet
    ensures ParseFile(decoded).Failure? ==> o.session.parsed == s.parsed && o.session.step == s.step && o.notice == ParseErrorToast
  {
    var chosen := s.(file := Some(name));
    match ParseFile(decoded)
    case Success(gs) => Outcome(chosen.(parsed := gs, step := Preview, processing := false), Quiet, None, false, false)
    case Failure(_) => Outcome(chosen.(processing := false), ParseErrorToast, None, false, false)
  }

  /** The drop zone accepts a name ending in `.xlsx` or `.xls`, case-sensitively. */
  predicate AcceptedSpreadsheetName(name: string) {
    EndsWith(name, ".xlsx") || EndsWith(name, ".xls")
  }

  /** `handleDrop`: an accepted file is loaded; anything else only reports the format error. */
  function Drop(s: Session, name: Option<string>, decoded: Option<seq<RawRow>>): (o: Outcome)
    ensures (name.Some? && AcceptedSpreadsheetName(name.value)) ==> o == LoadFile(s, name.value, decoded)
    ensures !(name.Some? && AcceptedSpreadsheetName(name.value)) ==> o == Outcome(s, InvalidFormatToast, None, false, false)
  {
    if name.Some? && AcceptedSpreadsheetName(name.value) then LoadFile(s, name.value, decoded)
    else Outcome(s, InvalidFormatToast, None, false, false)
  }

  /** `handleImport`. With no valid row nothing is sent. Otherwise one batch
      holding exactly the valid rows, in order, goes to the store
      (`storeAccepts` is its answer): success reloads the page's data, closes
      and resets the dialog; failure keeps the preview for a retry. */
  function Import(s: Session, weddingId: string, storeAccepts: bool): (o: Outcome)
    ensures ValidCount(s.parsed) == 0 ==> o == Outcome(s, NoValidGuestsToast, None, false, false)
    ensures ValidCount(s.parsed) > 0 ==> o.batch.Some?
    ensures o.batch.Some? ==> (|o.batch.value| == ValidCount(s.parsed)
      && forall i :: 0 <= i < |o.batch.value| ==> o.batch.value[i] == ToInsert(weddingId, ValidGuests(s.parsed)[i]))
    ensures o.batch.Some? && storeAccepts ==> o.closed && o.session == Reset(s) && o.notice == ImportedToast(ValidCount(s.parsed))
    ensures o.batch.Some? && !storeAccepts ==> (!o.closed && o.session == s.(importing := false)
      && o.notice == ImportErrorToast)
    ensures o.refreshed <==> o.batch.Some? && storeAccepts
  {
    var valid := ValidGuests(s.parsed);
    if |valid| == 0 then Outcome(s, NoValidGuestsToast, None, false, false)
    else
      var batch := Seqs.Map(valid, g => ToInsert(weddingId, g));
      if storeAccepts then Outcome(Reset(s), ImportedToast(|valid|), Some(batch), true, true)
      else Outcome(s.(importing := false), ImportErrorToast, Some(batch), false, false)
  }

  /** The batch holds exactly the valid rows: every valid guest is sent and
      nothing else is, and the batch keeps the preview's order. */
  lemma BatchIsValidRowsInOrder(s: Session, weddingId: string, storeAccepts: bool)
    requires ValidCount(s.parsed) > 0
    ensures var o := Import(s, weddingId, storeAccepts);
      o.batch.Some?
      && (forall g :: g in s.parsed && g.isValid ==> ToInsert(weddingId, g) in o.batch.value)
      && (forall p :: p in o.batch.value ==> exists g :: g in s.parsed && g.isValid && p == ToInsert(weddingId, g))
      && Seqs.IsSubsequence(ValidGuests(s.parsed), s.parsed)
  {
    var o := Import(s, weddingId, storeAccepts);
    var valid := ValidGuests(s.parsed);
    forall g | g in s.parsed && g.isValid
      ensures ToInsert(weddingId, g) in o.batch.value
    {
      var i :| 0 <= i < |valid| && valid[i] == g;
      assert o.batch.value[i] == ToInsert(weddingId, g);
    }
    forall p | p in o.batch.value
      ensures exists g :: g in s.parsed && g.isValid && p == ToInsert(weddingId, g)
    {
      var i :| 0 <= i < |o.batch.value| && o.batch.value[i] == p;
      assert valid[i] in valid;
    }
    Seqs.FilterIsSubsequence(s.parsed, Ready);
  }

  /** `handleClose`: the dialog closes and its state is reset. */
  function Close(s: Session): (o: Outcome)
    ensures o.closed && o.session == Reset(s) && o.batch.None? && !o.refreshed
  {
    Outcome(Reset(s), Quiet, None, true, false)
  }

  /** The template's file name and rows, as written by `downloadTemplate`. */
  const TemplateFileName: string := "plantilla_invitados.xlsx"

  const TemplateRow1: RawRow := map[
    "Nombre Completo" := Str("Juan Pérez"),
    "Email" := Str("juan@ejemplo.com"),
    "Teléfono" := Str("+54 11 1234 5678"),
    "Tiene Acompañante" := Str("Sí"),
    "Nombre Acompañante" := Str("María García"),
    "Preferencias Alimentarias" := Str("Vegetariano"),
    "Mesa" := Str("Mesa 1")]

  const TemplateRow2: RawRow := map[
    "Nombre Completo" := Str("Ana López"),
    "Email" := Str("ana@ejemplo.com"),
    "Teléfono" := Str("+54 11 8765 4321"),
    "Tiene Acompañante" := Str("No"),
    "Nombre Acompañante" := Str(""),
    "Preferencias Alimentarias" := Str(""),
    "Mesa" := Str("")]

  /** Each template column is the first header its field tries. */
  lemma TemplateHeadersAreRecognised()
    ensures TemplateRow1.Keys == TemplateRow2.Keys
    ensures TemplateRow1.Keys == {NameHeaders[0], EmailHeaders[0], PhoneHeaders[0], PlusOneHeaders[0],
      PlusOneNameHeaders[0], DietaryHeaders[0], TableHeaders[0]}
  {
  }

  /** The template's own file name passes the drop check. */
  lemma TemplateNameAccepted()
    ensures AcceptedSpreadsheetName(TemplateFileName)
  {
    assert TemplateFileName[|TemplateFileName| - 5..] == ".xlsx";
  }

  /** A row is valid exactly when its resolved name is not blank and its
      email, when given, matches the pattern. */
  lemma ValidityCharacterised(row: RawRow)
    requires Resolve(row, NameHeaders).Str?
    ensures var email := Resolve(row, EmailHeaders);
      ParseRow(row).value.isValid <==>
        !AllSpace(Resolve(row, NameHeaders).s) && (Truthy(email) ==> EmailRegex(CellString(email)))
  {
    var errs := ParseRow(row).value.errors;
    if errs != [] {
      assert errs[0] in errs;
    }
  }

  lemma TemplateRow1Cells()
    ensures Resolve(TemplateRow1, NameHeaders) == Str("Juan Pérez")
    ensures Resolve(TemplateRow1, EmailHeaders) == Str("juan@ejemplo.com")
    ensures Resolve(TemplateRow1, PlusOneHeaders) == Str("Sí")
    ensures Resolve(TemplateRow1, TableHeaders) == Str("Mesa 1")
  {
    assert FirstHit(TemplateRow1, NameHeaders, 0);
    assert FirstHit(TemplateRow1, EmailHeaders, 0);
    assert FirstHit(TemplateRow1, PlusOneHeaders, 0);
    assert FirstHit(TemplateRow1, TableHeaders, 0);
  }

  lemma TemplateRow1Email()
    ensures EmailRegex("juan@ejemplo.com") && Trim("juan@ejemplo.com") == "juan@ejemplo.com"
  {
    var email := "juan@ejemplo.com";
    assert email[4] == '@' && email[12] == '.';
    assert AllEmailChars(email[..4]) && AllEmailChars(email[5..12]) && AllEmailChars(email[13..]);
    TrimUnchanged(email);
  }

  lemma TemplateRow1Text()
    ensures !AllSpace("Juan Pérez") && Trim("Juan Pérez") == "Juan Pérez" && Trim("Mesa 1") == "Mesa 1"
  {
    assert !IsJsSpace("Juan Pérez"[0]);
    TrimUnchanged("Juan Pérez");
    TrimUnchanged("Mesa 1");
  }

  /** The first template row, run through the normaliser, is a valid guest
      who brings a companion. */
  lemma TemplateRow1RoundTrip()
    ensures ParseRow(TemplateRow1).Some?
    ensures var g := ParseRow(TemplateRow1).value;
      g.isValid && g.errors == [] && g.plusOne && g.fullName == "Juan Pérez"
      && g.email == Some("juan@ejemplo.com") && g.tableAssignment == Some("Mesa 1")
  {
    TemplateRow1Cells();
    TemplateRow1Email();
    TemplateRow1Text();
    PlusOneAccentedSi();
    ValidityCharacterised(TemplateRow1);
  }

  lemma TemplateRow2Cells()
    ensures Resolve(TemplateRow2, NameHeaders) == Str("Ana López")
    ensures Resolve(TemplateRow2, EmailHeaders) == Str("ana@ejemplo.com")
    ensures Resolve(TemplateRow2, PlusOneHeaders) == Str("No")
  {
    assert FirstHit(TemplateRow2, NameHeaders, 0);
    assert FirstHit(TemplateRow2, EmailHeaders, 0);
    assert FirstHit(TemplateRow2, PlusOneHeaders, 0);
  }

  lemma TemplateRow2Blanks()
    ensures Resolve(TemplateRow2, PlusOneNameHeaders) == Str("")
    ensures Resolve(TemplateRow2, DietaryHeaders) == Str("")
    ensures Resolve(TemplateRow2, TableHeaders) == Str("")
  {
    assert forall i :: 0 <= i < |PlusOneNameHeaders| ==> !Hit(TemplateRow2, PlusOneNameHeaders[i]);
    assert forall i :: 0 <= i < |DietaryHeaders| ==> !Hit(TemplateRow2, DietaryHeaders[i]);
    assert forall i :: 0 <= i < |TableHeaders| ==> !Hit(TemplateRow2, TableHeaders[i]);
  }

  lemma TemplateRow2Text()
    ensures EmailRegex("ana@ejemplo.com") && !AllSpace("Ana López") && Trim("Ana López") == "Ana López"
  {
    var email := "ana@ejemplo.com";
    assert email[3] == '@' && email[11] == '.';
    assert AllEmailChars(email[..3]) && AllEmailChars(email[4..11]) && AllEmailChars(email[12..]);
    assert !IsJsSpace("Ana López"[0]);
    TrimUnchanged("Ana López");
  }

  /** The second template row is a valid guest without a companion whose
      blank optional cells are left out. */
  lemma TemplateRow2RoundTrip()
    ensures ParseRow(TemplateRow2).Some?
    ensures var g := ParseRow(TemplateRow2).value;
      g.isValid && g.errors == [] && !g.plusOne && g.fullName == "Ana López"
      && g.plusOneName.None? && g.dietaryPreferences.None? && g.tableAssignment.None?
  {
    TemplateRow2Cells();
    TemplateRow2Blanks();
    TemplateRow2Text();
    PlusOneCapitalNo();
    ValidityCharacterised(TemplateRow2);
  }

  /** A sheet with the single column "Nombre Completo". */
  const NameOnlyRow: RawRow := map["Nombre Completo" := Str("Juan Pérez")]

  lemma NameOnlyCells()
    ensures Resolve(NameOnlyRow, NameHeaders) == Str("Juan Pérez")
    ensures Resolve(NameOnlyRow, EmailHeaders) == Str("")
    ensures Resolve(NameOnlyRow, PlusOneHeaders) == Str("")
  {
    assert FirstHit(NameOnlyRow, NameHeaders, 0);
    assert forall i :: 0 <= i < |EmailHeaders| ==> !Hit(NameOnlyRow, EmailHeaders[i]);
    assert forall i :: 0 <= i < |PlusOneHeaders| ==> !Hit(NameOnlyRow, PlusOneHeaders[i]);
  }

  /** That row yields a valid guest without a companion. */
  lemma NameOnlyRowParses()
    ensures ParseRow(NameOnlyRow).Some?
    ensures var g := ParseRow(NameOnlyRow).value;
      g.isValid && !g.plusOne && g.fullName == "Juan Pérez" && g.email.None?
  {
    NameOnlyCells();
    TemplateRow1Text();
    PlusOneEmpty();
    ValidityCharacterised(NameOnlyRow);
  }

  /** A malformed email is the row's only error. */
  lemma BadEmailRow()
    ensures var row := map["Name" := Str("Ana"), "Email" := Str("not-an-email")];
      ParseRow(row).Some? && !ParseRow(row).value.isValid && ParseRow(row).value.errors == [InvalidEmail]
  {
    var row := map["Name" := Str("Ana"), "Email" := Str("not-an-email")];
    assert FirstHit(row, NameHeaders, 2);
    assert FirstHit(row, EmailHeaders, 0);
    var email := "not-an-email";
    assert forall i :: 0 <= i < |email| ==> email[i] != '@';
    assert !EmailRegex(email);
    assert !AllSpace("Ana") by { assert !IsJsSpace("Ana"[0]); }
    var errs := ParseRow(row).value.errors;
    assert InvalidEmail in errs && NameRequired !in errs;
    assert errs == [InvalidEmail] by {
      assert |errs| != 2;
      if |errs| == 1 {
        assert errs[0] in errs;
      }
    }
  }

  // The spellings of the plus-one column, one fact per spelling.

  lemma PlusOneAccentedSi() ensures PlusOneFlag(Str("Sí")) {
    assert ToLower("Sí") == "sí";
    TrimUnchanged("sí");
  }
  lemma PlusOnePaddedSi() ensures PlusOneFlag(Str("SI ")) {
    assert ToLower("SI ") == "si ";
    assert Trim("si ") == "si";
  }
  lemma PlusOneYes() ensures PlusOneFlag(Str("yes")) {
    assert ToLower("yes") == "yes";
    TrimUnchanged("yes");
  }
  lemma PlusOneUpperTrue() ensures PlusOneFlag(Str("TRUE")) {
    assert ToLower("TRUE") == "true";
    TrimUnchanged("true");
  }
  lemma PlusOneDigit() ensures PlusOneFlag(Str("1")) && PlusOneFlag(Num(1)) {
    assert IntToString(1) == "1";
    assert ToLower("1") == "1";
    TrimUnchanged("1");
  }
  lemma PlusOneCross() ensures PlusOneFlag(Str("x")) {
    assert ToLower("x") == "x";
    TrimUnchanged("x");
  }
  lemma PlusOneBoolean() ensures PlusOneFlag(Bool(true)) {
    assert ToLower("true") == "true";
    TrimUnchanged("true");
  }
  lemma PlusOneCapitalNo() ensures !PlusOneFlag(Str("No")) {
    assert ToLower("No") == "no";
    TrimUnchanged("no");
  }
  lemma PlusOneEmpty() ensures !PlusOneFlag(Str("")) {
    assert ToLower("") == "";
    TrimUnchanged("");
  }
  lemma PlusOneTwo() ensures !PlusOneFlag(Str("2")) {
    assert ToLower("2") == "2";
    TrimUnchanged("2");
  }

  /** The accepted "yes" spellings, in any case and with surrounding spaces;
      anything else, including an absent column, is "no". */
  lemma PlusOneExamples()
    ensures PlusOneFlag(Str("Sí")) && PlusOneFlag(Str("SI ")) && PlusOneFlag(Str("yes"))
    ensures PlusOneFlag(Str("TRUE")) && PlusOneFlag(Str("1")) && PlusOneFlag(Str("x"))
    ensures PlusOneFlag(Num(1)) && PlusOneFlag(Bool(true))
    ensures !PlusOneFlag(Str("No")) && !PlusOneFlag(Str("")) && !PlusOneFlag(Str("2"))
  {
    PlusOneAccentedSi();
    PlusOnePaddedSi();
    PlusOneYes();
    PlusOneUpperTrue();
    PlusOneDigit();
    PlusOneCross();
    PlusOneBoolean();
    PlusOneCapitalNo();
    PlusOneEmpty();
    PlusOneTwo();
  }
}

=== FILE: guests_page.dfy ===
/** The guest list page: the RSVP filter, the header statistics, the
    add-guest form and its insert payload, the RSVP update and the label
    shown on each guest's badge. */
module GuestsPage {
  import opened Wrappers
  import opened Text
  import opened Records
  import Seqs

  /** The filter buttons: everyone, or one RSVP status. */
  datatype GuestFilter = AllGuests | OnlyStatus(status: RsvpStatus)

  /** The filter callback: `filter === 'all' || guest.rsvp_status === filter`. */
  function Keeps(f: GuestFilter): Guest -> bool {
    (g: Guest) => f.AllGuests? || g.rsvpStatus == Some(f.status)
  }

  /** The guests listed under filter `f`. */
  function FilterGuests(guests: seq<Guest>, f: GuestFilter): (r: seq<Guest>)
    ensures f.AllGuests? ==> r == guests
    ensures forall g :: g in r <==> g in guests && (f.AllGuests? || g.rsvpStatus == Some(f.status))
    ensures forall g :: multiset(r)[g] == if Keeps(f)(g) then multiset(guests)[g] else 0
  {
    Seqs.FilterMultiset(guests, Keeps(f));
    if f.AllGuests? then Seqs.FilterAll(guests, Keeps(f)); Seqs.Filter(guests, Keeps(f))
    else Seqs.Filter(guests, Keeps(f))
  }

  /** The filtered list keeps the page's order. */
  lemma FilterGuestsKeepsOrder(guests: seq<Guest>, f: GuestFilter)
    ensures Seqs.IsSubsequence(FilterGuests(guests, f), guests)
  {
    Seqs.FilterIsSubsequence(guests, Keeps(f));
  }

  /** The four numbers above the list. */
  datatype Stats = Stats(total: nat, attending: nat, notAttending: nat, pending: nat)

  function GuestStats(guests: seq<Guest>): (s: Stats)
    ensures s.total == |guests|
    ensures s.attending == |FilterGuests(guests, OnlyStatus(Attending))|
    ensures s.notAttending == |FilterGuests(guests, OnlyStatus(NotAttending))|
    ensures s.pending == |FilterGuests(guests, OnlyStatus(Pending))|
    ensures s.attending + s.notAttending + s.pending <= s.total
  {
    RsvpCountsPartition(guests);
    StatusCountIsFilterLength(guests, Attending);
    StatusCountIsFilterLength(guests, NotAttending);
    StatusCountIsFilterLength(guests, Pending);
    Stats(|guests|,
          Seqs.Count(guests, RsvpIs(Attending)),
          Seqs.Count(guests, RsvpIs(NotAttending)),
          Seqs.Count(guests, RsvpIs(Pending)))
  }

  /** Counting one status is the same as filtering the page by it. */
  lemma StatusCountIsFilterLength(guests: seq<Guest>, status: RsvpStatus)
    ensures Seqs.Count(guests, RsvpIs(status)) == |FilterGuests(guests, OnlyStatus(status))|
  {
    Seqs.CountIsFilterLength(guests, RsvpIs(status));
    Seqs.FilterSamePredicate(guests, Keeps(OnlyStatus(status)), RsvpIs(status));
  }

  /** The three shown counts fall short of the total by exactly the guests
      whose answer is "maybe" or who have no status. */
  lemma StatsShortfall(guests: seq<Guest>)
    ensures var s := GuestStats(guests);
      s.total - (s.attending + s.notAttending + s.pending)
        == Seqs.Count(guests, RsvpIs(Maybe)) + Seqs.Count(guests, NoRsvp())
  {
    RsvpCountsPartition(guests);
  }

  /** The add-guest dialog's fields, as typed. */
  datatype GuestForm = GuestForm(
    fullName: string,
    email: string,
    phone: string,
    plusOne: bool,
    plusOneName: string,
    dietaryPreferences: string,
    tableAssignment: string)

  /** The form as it opens and as it is reset after a successful insert. */
  function BlankGuestForm(): (f: GuestForm)
    ensures AllSpace(f.fullName) && !f.plusOne
  {
    GuestForm("", "", "", false, "", "", "")
  }

  /** The row sent to the `guests` table. */
  datatype GuestPayload = GuestPayload(
    weddingId: string,
    fullName: string,
    email: Option<string>,
    phone: Option<string>,
    plusOne: bool,
    plusOneName: Option<string>,
    dietaryPreferences: Option<string>,
    tableAssignment: Option<string>)

  /** The insert the form submits, or nothing when the guard stops it. */
  function CreateGuestRequest(form: GuestForm, wedding: Option<Wedding>): (r: Option<GuestPayload>)
    ensures r.None? <==> AllSpace(form.fullName) || wedding.None?
    ensures r.Some? ==> (r.value.weddingId == wedding.value.id
      && r.value.fullName == Trim(form.fullName) && r.value.fullName != ""
      && r.value.plusOne == form.plusOne)
    ensures r.Some? ==> (TrimmedOrNull(r.value.email, form.email)
      && TrimmedOrNull(r.value.phone, form.phone)
      && TrimmedOrNull(r.value.plusOneName, form.plusOneName)
      && TrimmedOrNull(r.value.dietaryPreferences, form.dietaryPreferences)
      && TrimmedOrNull(r.value.tableAssignment, form.tableAssignment))
  {
    var name := Trim(form.fullName);
    if name == "" || wedding.None? then None
    else Some(GuestPayload(
      wedding.value.id,
      name,
      TrimOrNull(form.email),
      TrimOrNull(form.phone),
      form.plusOne,
      TrimOrNull(form.plusOneName),
      TrimOrNull(form.dietaryPreferences),
      TrimOrNull(form.tableAssignment)))
  }

  /** The form that would show a stored payload: null fields become blank. */
  function FormOf(p: GuestPayload): GuestForm {
    GuestForm(p.fullName, p.email.GetOr(""), p.phone.GetOr(""), p.plusOne,
              p.plusOneName.GetOr(""), p.dietaryPreferences.GetOr(""), p.tableAssignment.GetOr(""))
  }

  /** Normalisation is idempotent: typing a submitted payload back into the
      form produces the same payload. */
  lemma GuestPayloadRoundTrip(form: GuestForm, w: Wedding)
    requires CreateGuestRequest(form, Some(w)).Some?
    ensures var p := CreateGuestRequest(form, Some(w)).value;
      CreateGuestRequest(FormOf(p), Some(w)) == Some(p)
  {
    var p := CreateGuestRequest(form, Some(w)).value;
    TrimIdempotent(form.fullName);
    TrimOrNullStable(p.email, form.email);
    TrimOrNullStable(p.phone, form.phone);
    TrimOrNullStable(p.plusOneName, form.plusOneName);
    TrimOrNullStable(p.dietaryPreferences, form.dietaryPreferences);
    TrimOrNullStable(p.tableAssignment, form.tableAssignment);
  }

  /** The plus-one name is sent whatever the checkbox says. */
  lemma PlusOneNameSentWithoutPlusOne(form: GuestForm, w: Wedding)
    requires !AllSpace(form.fullName) && !form.plusOne && !AllSpace(form.plusOneName)
    ensures var r := CreateGuestRequest(form, Some(w));
      r.Some? && !r.value.plusOne && r.value.plusOneName == Some(Trim(form.plusOneName))
  {
  }

  /** The toasts the page raises. */
  datatype GuestNotice = NoNotice | FailedAdd | Added | FailedUpdate | FailedDelete | Removed

  /** What submitting the dialog leads to: the request sent (if any), the form
      and dialog state afterwards, the toast, and whether the lists are refreshed. */
  datatype GuestSubmit = GuestSubmit(
    request: Option<GuestPayload>,
    form: GuestForm,
    dialogOpen: bool,
    notice: GuestNotice,
    refreshed: bool)

  /** Submit the add-guest dialog; `storeAccepts` is the outcome of the insert. */
  function SubmitGuest(form: GuestForm, wedding: Option<Wedding>, storeAccepts: bool): (o: GuestSubmit)
    ensures o.request == CreateGuestRequest(form, wedding)
    ensures o.request.None? ==> o == GuestSubmit(None, form, true, NoNotice, false)
    ensures o.request.Some? && storeAccepts ==> (o.form == BlankGuestForm() && !o.dialogOpen
      && o.notice == Added && o.refreshed)
    ensures o.request.Some? && !storeAccepts ==> (o.form == form && o.dialogOpen
      && o.notice == FailedAdd && !o.refreshed)
  {
    var req := CreateGuestRequest(form, wedding);
    if req.None? then GuestSubmit(None, form, true, NoNotice, false)
    else if storeAccepts then GuestSubmit(req, BlankGuestForm(), false, Added, true)
    else GuestSubmit(req, form, true, FailedAdd, false)
  }

  /** The table after `update({ rsvp_status: status }).eq('id', guestId)`. */
  function UpdateRsvp(guests: seq<Guest>, guestId: string, status: RsvpStatus): (r: seq<Guest>)
    ensures |r| == |guests|
    ensures forall i :: 0 <= i < |r| ==>
      r[i].rsvpStatus == (if guests[i].id == guestId then Some(status) else guests[i].rsvpStatus)
    ensures forall i :: 0 <= i < |r| ==> r[i].(rsvpStatus := guests[i].rsvpStatus) == guests[i]
  {
    Seqs.Map(guests, (g: Guest) => if g.id == guestId then g.(rsvpStatus := Some(status)) else g)
  }

  /** Choosing the same answer twice changes nothing the second time. */
  lemma UpdateRsvpIdempotent(guests: seq<Guest>, guestId: string, status: RsvpStatus)
    ensures UpdateRsvp(UpdateRsvp(guests, guestId, status), guestId, status) == UpdateRsvp(guests, guestId, status)
  {
    var once := UpdateRsvp(guests, guestId, status);
    var twice := UpdateRsvp(once, guestId, status);
    forall i | 0 <= i < |twice|
      ensures twice[i] == once[i]
    {
      assert twice[i].(rsvpStatus := once[i].rsvpStatus) == once[i];
    }
  }

  /** After the update the guest is listed under the chosen filter. */
  lemma UpdatedGuestIsListed(guests: seq<Guest>, i: nat, status: RsvpStatus)
    requires i < |guests|
    ensures var r := UpdateRsvp(guests, guests[i].id, status);
      r[i] in FilterGuests(r, OnlyStatus(status))
  {
    var r := UpdateRsvp(guests, guests[i].id, status);
    assert r[i] in r;
  }

  /** The table after `delete().eq('id', guestId)`. */
  function DeleteGuest(guests: seq<Guest>, guestId: string): (r: seq<Guest>)
    ensures forall g :: g in r <==> g in guests && g.id != guestId
    ensures |r| <= |guests|
  {
    Seqs.Filter(guests, (g: Guest) => g.id != guestId)
  }

  /** Deleting an id that is not on the list changes nothing. */
  lemma DeleteMissingGuest(guests: seq<Guest>, guestId: string)
    requires forall g :: g in guests ==> g.id != guestId
    ensures DeleteGuest(guests, guestId) == guests
  {
    Seqs.FilterAll(guests, (g: Guest) => g.id != guestId);
  }

  /** `getFilterLabel(status)`: the filter buttons are labelled with the
      statistics' wording, and `not_attending` reads as "declined"; any
      other value (including `maybe`) is shown as written. */
  function FilterLabel(status: string): (l: Label)
    ensures l.Message? <==> status in ["all", "attending", "pending", "not_attending"]
    ensures status == "all" ==> l == Message("common.all")
    ensures status == "not_attending" ==> l == Message("guests.stats.declined")
    ensures status == "attending" || status == "pending" ==> l == Message("guests.stats." + status)
    ensures l.Verbatim? ==> l.text == status
  {
    if status == "all" then Message("common.all")
    else if status == "not_attending" then Message("guests.stats.declined")
    else LabelOr(["attending", "pending"], "guests.stats.", status)
  }

  /** The keys of the RSVP label map. */
  const RsvpKeys: seq<string> := ["pending", "attending", "not_attending", "maybe"]

  /** `getRsvpLabel(status)`: the translated label, or the raw status. */
  function RsvpLabel(status: string): (l: Label)
    ensures l.Message? <==> status in RsvpKeys
    ensures l.Message? ==> l.key == "guests.rsvp." + status
    ensures l.Verbatim? ==> l.text == status
  {
    LabelOr(RsvpKeys, "guests.rsvp.", status)
  }

  /** The badge of a guest: `getRsvpLabel(guest.rsvp_status || 'pending')`. */
  function BadgeLabel(g: Guest): (l: Label)
    ensures g.rsvpStatus.None? ==> l == Message("guests.rsvp.pending")
    ensures g.rsvpStatus.Some? ==> l == Message("guests.rsvp." + g.rsvpStatus.value.Key())
  {
    RsvpLabel(if g.rsvpStatus.None? then "pending" else g.rsvpStatus.value.Key())
  }

  /** Every stored status has a translated badge, and a guest with no status
      reads as pending. */
  lemma BadgeIsTranslated(g: Guest)
    ensures BadgeLabel(g).Message?
    ensures g.rsvpStatus.None? ==> BadgeLabel(g) == BadgeLabel(g.(rsvpStatus := Some(Pending)))
  {
    if g.rsvpStatus.Some? {
      assert g.rsvpStatus.value.Key() in RsvpKeys;
    }
  }

  /** A status outside the map is shown as written. */
  lemma UnknownStatusShownVerbatim()
    ensures RsvpLabel("declined") == Verbatim("declined")
  {
    assert "declined" != "pending" && "declined" != "attending"
      && "declined" != "not_attending" && "declined" != "maybe";
  }
}

=== FILE: guests_preview.dfy ===
/** The dashboard's guest card: the RSVP counts, the plus-ones and the
    expected attendance. */
module GuestsPreview {
  import opened Wrappers
  import opened Records
  import GuestsPage
  import Seqs

  /** The card's counts; unlike the guest page it also counts `maybe`. */
  datatype PreviewStats = PreviewStats(total: nat, attending: nat, notAttending: nat, pending: nat, maybe: nat)

  function PreviewCounts(guests: seq<Guest>): (s: PreviewStats)
    ensures s.total == |guests|
    ensures s.attending + s.notAttending + s.pending + s.maybe + Seqs.Count(guests, NoRsvp()) == s.total
    ensures var page := GuestsPage.GuestStats(guests);
      s.attending == page.attending && s.notAttending == page.notAttending && s.pending == page.pending
  {
    RsvpCountsPartition(guests);
    PreviewStats(|guests|,
                 Seqs.Count(guests, RsvpIs(Attending)),
                 Seqs.Count(guests, RsvpIs(NotAttending)),
                 Seqs.Count(guests, RsvpIs(Pending)),
                 Seqs.Count(guests, RsvpIs(Maybe)))
  }

  /** `g.plus_one` is truthy. */
  function HasPlusOne(): Guest -> bool {
    (g: Guest) => g.plusOne == Some(true)
  }

  /** `plusOnes`: the guests bringing a companion, whatever their answer. */
  function PlusOnes(guests: seq<Guest>): (n: nat)
    ensures n <= |guests|
    ensures n == |Seqs.Filter(guests, HasPlusOne())|
  {
    Seqs.CountIsFilterLength(guests, HasPlusOne());
    Seqs.Count(guests, HasPlusOne())
  }

  /** `totalExpected = attending + plusOnes`. */
  function TotalExpected(guests: seq<Guest>): (n: nat)
    ensures n == PreviewCounts(guests).attending + PlusOnes(guests)
    ensures n <= 2 * |guests|
  {
    PreviewCounts(guests).attending + PlusOnes(guests)
  }

  /** The "including plus-ones" note is shown exactly when someone brings one. */
  function ShowsPlusOneNote(guests: seq<Guest>): (b: bool)
    ensures b <==> exists g :: g in guests && g.plusOne == Some(true)
  {
    var withOne := Seqs.Filter(guests, HasPlusOne());
    assert |withOne| > 0 ==> withOne[0] in withOne;
    PlusOnes(guests) > 0
  }

  /** A guest who declined still adds their companion to the expected
      attendance: the plus-ones are not restricted to attending guests. */
  lemma DeclinedCompanionIsExpected(g: Guest)
    requires g.rsvpStatus == Some(NotAttending) && g.plusOne == Some(true)
    ensures PreviewCounts([g]).attending == 0 && TotalExpected([g]) == 1
  {
    Seqs.CountFirst([g], RsvpIs(Attending));
    Seqs.CountFirst([g], HasPlusOne());
  }
}

=== FILE: onboarding.dfy ===
/** The two-step onboarding wizard: partner names first, then the optional
    date and budget, then the wedding is created. */
module Onboarding {
  import opened Wrappers
  import opened Text
  import Records
  import WeddingContext

  /** What the page renders before the wizard. */
  datatype Screen = Spinner | RedirectToAuth | RedirectToDashboard | Wizard

  /** The guards at the top of the page, in their order. */
  function Route(authLoading: bool, weddingLoading: bool, signedIn: bool, hasWedding: bool): (s: Screen)
    ensures s == Spinner <==> authLoading || weddingLoading
    ensures s == Wizard <==> !authLoading && !weddingLoading && signedIn && !hasWedding
    ensures s == RedirectToDashboard <==> !authLoading && !weddingLoading && signedIn && hasWedding
    ensures s == RedirectToAuth <==> !authLoading && !weddingLoading && !signedIn
  {
    if authLoading || weddingLoading then Spinner
    else if !signedIn then RedirectToAuth
    else if hasWedding then RedirectToDashboard
    else Wizard
  }

  /** The four text fields of the wizard, as typed. */
  datatype Form = Form(partnerName1: string, partnerName2: string, weddingDate: string, totalBudget: string)

  const BlankForm: Form := Form("", "", "", "")

  /** The page state: the current step (1 or 2) and the form. */
  datatype Page = Page(step: int, form: Form)

  /** The page as it opens. */
  function Start(): (p: Page)
    ensures p.step == 1 && p.form == BlankForm
  {
    Page(1, BlankForm)
  }

  /** What submitting the form does: the next page, whether the
      "enter both names" error is shown, and the creation request sent. */
  datatype Submitted = Submitted(page: Page, namesError: bool, request: Option<WeddingContext.WeddingRequest>)

  /** The request of the second step: trimmed names, `wedding_date || undefined`,
      and the parsed amount when one was typed (`parseAmount` is `parseFloat`,
      `None` standing for a value that is not a number). */
  function RequestOf(form: Form, parseAmount: string -> Option<int>): (r: WeddingContext.WeddingRequest)
    ensures r.partnerName1 == Trim(form.partnerName1) && r.partnerName2 == Trim(form.partnerName2)
    ensures r.weddingDate.None? <==> form.weddingDate == ""
    ensures r.weddingDate.Some? ==> r.weddingDate.value == form.weddingDate
    ensures form.totalBudget == "" ==> r.totalBudget.None?
    ensures form.totalBudget != "" ==> r.totalBudget == parseAmount(form.totalBudget)
  {
    WeddingContext.WeddingRequest(
      Trim(form.partnerName1),
      Trim(form.partnerName2),
      if form.weddingDate == "" then None else Some(form.weddingDate),
      if form.totalBudget == "" then None else parseAmount(form.totalBudget))
  }

  /** `handleSubmit`: the first step checks the names and moves on; the
      second sends the creation request. */
  function Submit(p: Page, parseAmount: string -> Option<int>): (o: Submitted)
    ensures p.step == 1 && (AllSpace(p.form.partnerName1) || AllSpace(p.form.partnerName2))
      ==> o.page == p && o.namesError && o.request.None?
    ensures p.step == 1 && !AllSpace(p.form.partnerName1) && !AllSpace(p.form.partnerName2)
      ==> o.page == p.(step := 2) && !o.namesError && o.request.None?
    ensures p.step != 1 ==> o.page == p && !o.namesError && o.request == Some(RequestOf(p.form, parseAmount))
  {
    if p.step == 1 then
      if Trim(p.form.partnerName1) == "" || Trim(p.form.partnerName2) == "" then Submitted(p, true, None)
      else Submitted(p.(step := 2), false, None)
    else Submitted(p, false, Some(RequestOf(p.form, parseAmount)))
  }

  /** The Back button, shown only on the second step. */
  function Back(p: Page): (r: Page)
    requires p.step == 2
    ensures r.step == 1 && r.form == p.form
  {
    p.(step := 1)
  }

  /** What the user can do on the wizard. The name fields are only shown on
      the first step, the date and budget fields only on the second. */
  datatype Event =
    | TypeNames(name1: string, name2: string)
    | TypeDetails(date: string, budget: string)
    | Press
    | PressBack

  /** One event; input the page does not offer leaves it unchanged. */
  function Step(p: Page, e: Event, parseAmount: string -> Option<int>): (r: Page)
    ensures p.step == 1 || p.step == 2 ==> r.step == 1 || r.step == 2
  {
    match e
    case TypeNames(a, b) => if p.step == 1 then p.(form := p.form.(partnerName1 := a, partnerName2 := b)) else p
    case TypeDetails(d, m) => if p.step == 2 then p.(form := p.form.(weddingDate := d, totalBudget := m)) else p
    case Press => Submit(p, parseAmount).page
    case PressBack => if p.step == 2 then Back(p) else p
  }

  /** The page after a sequence of events. */
  function Run(p: Page, events: seq<Event>, parseAmount: string -> Option<int>): (r: Page)
    ensures p.step == 1 || p.step == 2 ==> r.step == 1 || r.step == 2
    ensures |events| == 0 ==> r == p
    decreases |events|
  {
    if |events| == 0 then p else Run(Step(p, events[0], parseAmount), events[1..], parseAmount)
  }

  /** The wizard is on the second step only with two non-blank names. */
  ghost predicate Consistent(p: Page) {
    (p.step == 1 || p.step == 2)
    && (p.step == 2 ==> !AllSpace(p.form.partnerName1) && !AllSpace(p.form.partnerName2))
  }

  /** Every event keeps the page consistent. */
  lemma StepKeepsConsistent(p: Page, e: Event, parseAmount: string -> Option<int>)
    requires Consistent(p)
    ensures Consistent(Step(p, e, parseAmount))
  {
  }

  /** From the start, whatever the user does, the step stays 1 or 2 and the
      second step is reached only with both names filled in. */
  lemma {:induction false} RunKeepsConsistent(p: Page, events: seq<Event>, parseAmount: string -> Option<int>)
    requires Consistent(p)
    ensures Consistent(Run(p, events, parseAmount))
    decreases |events|
  {
    if |events| > 0 {
      StepKeepsConsistent(p, events[0], parseAmount);
      RunKeepsConsistent(Step(p, events[0], parseAmount), events[1..], parseAmount);
    }
  }

  /** Hence a wedding is only ever requested with two non-empty trimmed names. */
  lemma RequestHasBothNames(events: seq<Event>, parseAmount: string -> Option<int>)
    ensures var o := Submit(Run(Start(), events, parseAmount), parseAmount);
      o.request.Some? ==> o.request.value.partnerName1 != "" && o.request.value.partnerName2 != ""
  {
    RunKeepsConsistent(Start(), events, parseAmount);
  }

  /** What the page does once `createWedding` settles. */
  datatype Finish = GoToDashboard | ShowError

  /** `result` is the wedding the call resolves to, `None` when it resolves
      to null or throws: only a created wedding leaves the page. */
  function Finished(result: Option<Records.Wedding>): (f: Finish)
    ensures f == GoToDashboard <==> result.Some?
  {
    if result.Some? then GoToDashboard else ShowError
  }

  /** A second-step submission that the provider completes leads to the
      dashboard; one without a signed-in user or with a failed insert does not. */
  lemma CreationDecidesNavigation(p: Page, parseAmount: string -> Option<int>, user: Option<string>,
                                  stored: Option<Records.Wedding>, translate: string -> string)
    requires p.step == 2
    ensures var o := WeddingContext.CreateWedding(user, Submit(p, parseAmount).request.value, stored, translate);
      Finished(o.result) == GoToDashboard <==> user.Some? && stored.Some?
  {
  }
}

=== FILE: progress_overview.dfy ===
/** The dashboard's planning-progress card: the overall completion and the
    completion of each category that has tasks. */
module ProgressOverview {
  import opened Wrappers
  import opened Records
  import Seqs

  /** `tasks.filter(t => t.status === 'completed').length`. */
  function CompletedCount(tasks: seq<Task>): (n: nat)
    ensures n <= |tasks|
    ensures n + Seqs.Count(tasks, NotCompleted()) == |tasks|
  {
    CompletedSplit(tasks);
    Seqs.Count(tasks, TaskStatusIs(Completed))
  }

  /** The overall percentage: 0 with no tasks, 100 exactly when all are done. */
  function OverallProgress(tasks: seq<Task>): (p: real)
    ensures p == Percent(CompletedCount(tasks), |tasks|)
    ensures |tasks| == 0 ==> p == 0.0
    ensures |tasks| > 0 ==> (p >= 100.0 <==> CompletedCount(tasks) == |tasks|)
    ensures p >= 0.0
  {
    Percent(CompletedCount(tasks), |tasks|)
  }

  /** `t.category_id === id`. */
  function TaskInCategory(id: string): Task -> bool {
    (t: Task) => t.categoryId == Some(id)
  }

  /** A completed task filed under the category `id`. */
  function CompletedIn(id: string): Task -> bool {
    (t: Task) => t.categoryId == Some(id) && t.status == Some(Completed)
  }

  /** One category's line: its completed and total task counts and percentage. */
  datatype CategoryProgress = CategoryProgress(category: Category, completed: nat, total: nat, progress: real)

  function ProgressOf(c: Category, tasks: seq<Task>): (p: CategoryProgress)
    ensures p.category == c
    ensures p.total == Seqs.Count(tasks, TaskInCategory(c.id))
    ensures p.completed == Seqs.Count(tasks, CompletedIn(c.id))
    ensures p.completed <= p.total
    ensures p.progress == Percent(p.completed, p.total)
    ensures p.total == 0 ==> p.progress == 0.0
    ensures p.total > 0 ==> (p.progress >= 100.0 <==> p.completed == p.total)
  {
    var mine := Seqs.Filter(tasks, TaskInCategory(c.id));
    Seqs.CountIsFilterLength(tasks, TaskInCategory(c.id));
    Seqs.CountOfFilter(tasks, TaskInCategory(c.id), TaskStatusIs(Completed), CompletedIn(c.id));
    CategoryProgress(c, CompletedCount(mine), |mine|, Percent(CompletedCount(mine), |mine|))
  }

  /** `categoryProgress`: one line per category that has tasks, in category order. */
  function ByCategory(categories: seq<Category>, tasks: seq<Task>): (lines: seq<CategoryProgress>)
    ensures |lines| <= |categories|
    ensures forall l :: l in lines ==> l.category in categories && l == ProgressOf(l.category, tasks) && l.total > 0
    ensures forall c, t :: c in categories && t in tasks && t.categoryId == Some(c.id) ==> ProgressOf(c, tasks) in lines
    decreases |categories|
  {
    if |categories| == 0 then []
    else
      var p := ProgressOf(categories[0], tasks);
      var rest := ByCategory(categories[1..], tasks);
      assert forall c :: c in categories ==> c == categories[0] || c in categories[1..];
      forall c, t | c in categories && t in tasks && t.categoryId == Some(c.id)
        ensures ProgressOf(c, tasks).total > 0
      {
        Seqs.CountIsFilterLength(tasks, TaskInCategory(c.id));
        assert t in Seqs.Filter(tasks, TaskInCategory(c.id));
      }
      if p.total > 0 then [p] + rest else rest
  }

  /** The category a line is about. */
  function LineCategory(): CategoryProgress -> Category {
    (l: CategoryProgress) => l.category
  }

  /** The lines keep the order of the categories. */
  lemma {:induction false} ByCategoryKeepsOrder(categories: seq<Category>, tasks: seq<Task>)
    ensures Seqs.IsSubsequence(Seqs.Map(ByCategory(categories, tasks), LineCategory()), categories)
    decreases |categories|
  {
    if |categories| > 0 {
      var c := categories[0];
      var tail := categories[1..];
      ByCategoryKeepsOrder(tail, tasks);
      var p := ProgressOf(c, tasks);
      var rest := ByCategory(tail, tasks);
      assert categories == [c] + tail;
      if p.total > 0 {
        assert ByCategory(categories, tasks) == [p] + rest;
        Seqs.MapCons(p, rest, LineCategory());
        Seqs.SubsequenceBothCons(c, Seqs.Map(rest, LineCategory()), tail);
      } else {
        assert ByCategory(categories, tasks) == rest;
        Seqs.SubsequenceCons(Seqs.Map(rest, LineCategory()), c, tail);
      }
    }
  }

  /** The ids of a list of categories. */
  function Ids(categories: seq<Category>): (ids: seq<string>)
    ensures |ids| == |categories|
    ensures forall k :: 0 <= k < |categories| ==> ids[k] == categories[k].id
  {
    seq(|categories|, k requires 0 <= k < |categories| => categories[k].id)
  }

  /** A task filed under one of `ids`. */
  function InAnyOf(ids: seq<string>): Task -> bool {
    (t: Task) => t.categoryId.Some? && t.categoryId.value in ids
  }

  /** Ids that are pairwise distinct. */
  predicate DistinctIds(categories: seq<Category>) {
    forall j, k :: 0 <= j < k < |categories| ==> categories[j].id != categories[k].id
  }

  /** The sum of the line totals. */
  function TotalOfLines(lines: seq<CategoryProgress>): nat {
    if |lines| == 0 then 0 else lines[0].total + TotalOfLines(lines[1..])
  }

  /** Splitting off the first category: a task is filed under the list
      exactly when it is filed under the first category or under the rest,
      and with distinct ids never under both. */
  lemma FiledUnderCons(categories: seq<Category>)
    requires |categories| > 0 && DistinctIds(categories)
    ensures DistinctIds(categories[1..])
    ensures forall t :: !(TaskInCategory(categories[0].id)(t) && InAnyOf(Ids(categories[1..]))(t))
    ensures forall t :: (InAnyOf(Ids(categories))(t)
      == (TaskInCategory(categories[0].id)(t) || InAnyOf(Ids(categories[1..]))(t)))
  {
    var c := categories[0];
    var tail := categories[1..];
    assert Ids(categories) == [c.id] + Ids(tail);
    forall k | 0 <= k < |tail|
      ensures Ids(tail)[k] != c.id
    {
      assert categories[k + 1] == tail[k];
    }
  }

  /** With distinct category ids, the line totals add up to the number of
      tasks filed under some category. */
  lemma {:induction false} LineTotalsCountFiledTasks(categories: seq<Category>, tasks: seq<Task>)
    requires DistinctIds(categories)
    ensures TotalOfLines(ByCategory(categories, tasks)) == Seqs.Count(tasks, InAnyOf(Ids(categories)))
    decreases |categories|
  {
    if |categories| == 0 {
      Seqs.CountNone(tasks, InAnyOf(Ids(categories)));
    } else {
      var c := categories[0];
      var tail := categories[1..];
      FiledUnderCons(categories);
      LineTotalsCountFiledTasks(tail, tasks);
      Seqs.CountDisjoint(tasks, TaskInCategory(c.id), InAnyOf(Ids(tail)), InAnyOf(Ids(categories)));
      var p := ProgressOf(c, tasks);
      var rest := ByCategory(tail, tasks);
      if p.total > 0 {
        assert ByCategory(categories, tasks) == [p] + rest;
        assert ([p] + rest)[1..] == rest;
      } else {
        assert ByCategory(categories, tasks) == rest;
      }
    }
  }

  /** Tasks outside every category are not shown under any line, so the line
      totals never exceed the task count. */
  lemma LineTotalsAtMostTasks(categories: seq<Category>, tasks: seq<Task>)
    requires DistinctIds(categories)
    ensures TotalOfLines(ByCategory(categories, tasks)) <= |tasks|
  {
    LineTotalsCountFiledTasks(categories, tasks);
  }

  /** `categoryProgress.slice(0, 4)`: at most four lines are drawn. */
  function DisplayedLines(categories: seq<Category>, tasks: seq<Task>): (lines: seq<CategoryProgress>)
    ensures |lines| == if |ByCategory(categories, tasks)| < 4 then |ByCategory(categories, tasks)| else 4
    ensures forall k :: 0 <= k < |lines| ==> lines[k] == ByCategory(categories, tasks)[k]
  {
    Seqs.Take(ByCategory(categories, tasks), 4)
  }
}

=== FILE: records.dfy ===
/** The rows of the hosted database's tables that the pages read and write,
    the enumerations they use, and the form conventions shared by every page. */
module Records {
  import opened Wrappers
  import opened Text
  import Seqs

  /** Enumeration `rsvp_status`. */
  datatype RsvpStatus = Pending | Attending | NotAttending | Maybe {
    function Key(): string {
      match this
      case Pending => "pending"
      case Attending => "attending"
      case NotAttending => "not_attending"
      case Maybe => "maybe"
    }
  }

  /** Enumeration `task_status`. */
  datatype TaskStatus = ToDo | InProgress | Completed {
    function Key(): string {
      match this
      case ToDo => "pending"
      case InProgress => "in_progress"
      case Completed => "completed"
    }
  }

  /** Enumeration `task_priority`. */
  datatype TaskPriority = Low | Medium | High {
    function Key(): string {
      match this
      case Low => "low"
      case Medium => "medium"
      case High => "high"
    }
  }

  /** A row of `weddings`; money is in whole currency units. */
  datatype Wedding = Wedding(
    id: string,
    ownerId: string,
    partnerName1: string,
    partnerName2: string,
    weddingDate: Option<string>,
    totalBudget: Option<int>)

  /** A row of `categories`. */
  datatype Category = Category(
    id: string,
    weddingId: string,
    name: string,
    icon: Option<string>,
    color: Option<string>,
    sortOrder: Option<int>,
    budgetAllocated: Option<int>)

  /** A row of `guests`. */
  datatype Guest = Guest(
    id: string,
    weddingId: string,
    fullName: string,
    email: Option<string>,
    phone: Option<string>,
    plusOne: Option<bool>,
    plusOneName: Option<string>,
    dietaryPreferences: Option<string>,
    tableAssignment: Option<string>,
    rsvpStatus: Option<RsvpStatus>)

  /** A row of `tasks`; `dueDate` is an ISO date string. */
  datatype Task = Task(
    id: string,
    weddingId: string,
    title: string,
    description: Option<string>,
    categoryId: Option<string>,
    priority: Option<TaskPriority>,
    status: Option<TaskStatus>,
    dueDate: Option<string>,
    completedAt: Option<string>)

  /** A row of `budget_items`. */
  datatype BudgetItem = BudgetItem(
    id: string,
    weddingId: string,
    name: string,
    categoryId: Option<string>,
    estimatedCost: Option<int>,
    actualCost: Option<int>)

  /** A row of `vendors`. */
  datatype Vendor = Vendor(
    id: string,
    weddingId: string,
    name: string,
    categoryId: Option<string>,
    contactName: Option<string>,
    email: Option<string>,
    phone: Option<string>,
    website: Option<string>,
    notes: Option<string>,
    contractSigned: Option<bool>)

  /** `guest.rsvp_status === status`, as a predicate value for filtering and counting. */
  function RsvpIs(status: RsvpStatus): Guest -> bool {
    (g: Guest) => g.rsvpStatus == Some(status)
  }

  /** Guests with no RSVP status recorded. */
  function NoRsvp(): Guest -> bool {
    (g: Guest) => g.rsvpStatus.None?
  }

  /** Every guest has exactly one of the four statuses or none: the five
      counts add up to the list length. */
  lemma {:induction false} RsvpCountsPartition(guests: seq<Guest>)
    ensures Seqs.Count(guests, RsvpIs(Attending)) + Seqs.Count(guests, RsvpIs(NotAttending))
      + Seqs.Count(guests, RsvpIs(Pending)) + Seqs.Count(guests, RsvpIs(Maybe))
      + Seqs.Count(guests, NoRsvp()) == |guests|
    decreases |guests|
  {
    if |guests| > 0 {
      RsvpCountsPartition(guests[1..]);
      Seqs.CountFirst(guests, RsvpIs(Attending));
      Seqs.CountFirst(guests, RsvpIs(NotAttending));
      Seqs.CountFirst(guests, RsvpIs(Pending));
      Seqs.CountFirst(guests, RsvpIs(Maybe));
      Seqs.CountFirst(guests, NoRsvp());
      var g := guests[0];
      assert RsvpIs(Attending)(g) == (g.rsvpStatus == Some(Attending));
      assert RsvpIs(NotAttending)(g) == (g.rsvpStatus == Some(NotAttending));
      assert RsvpIs(Pending)(g) == (g.rsvpStatus == Some(Pending));
      assert RsvpIs(Maybe)(g) == (g.rsvpStatus == Some(Maybe));
      assert NoRsvp()(g) == g.rsvpStatus.None?;
      match g.rsvpStatus {
        case None =>
        case Some(st) => assert st == Pending || st == Attending || st == NotAttending || st == Maybe;
      }
    }
  }

  /** `task.status === status`. */
  function TaskStatusIs(status: TaskStatus): Task -> bool {
    (t: Task) => t.status == Some(status)
  }

  /** `task.status !== 'completed'`: a null status counts as not completed. */
  function NotCompleted(): Task -> bool {
    (t: Task) => t.status != Some(Completed)
  }

  /** Tasks are completed or not: the two counts add up to the list length. */
  lemma CompletedSplit(tasks: seq<Task>)
    ensures Seqs.Count(tasks, TaskStatusIs(Completed)) + Seqs.Count(tasks, NotCompleted()) == |tasks|
  {
    Seqs.CountComplement(tasks, TaskStatusIs(Completed), NotCompleted());
  }

  /** `s.trim() || null`: the trimmed text, or null when nothing but white space was typed. */
  function TrimOrNull(s: string): (r: Option<string>)
    ensures r.None? <==> AllSpace(s)
    ensures r.Some? ==> r.value != "" && r.value == Trim(s)
  {
    var t := Trim(s);
    if t == "" then None else Some(t)
  }

  /** A value produced by `TrimOrNull` is already in normal form: shown back
      in a form (null as blank) and normalised again, it comes out unchanged. */
  lemma TrimOrNullStable(v: Option<string>, s: string)
    requires v == TrimOrNull(s)
    ensures TrimOrNull(v.GetOr("")) == v
  {
    if v.Some? {
      TrimIdempotent(s);
    }
  }

  /** `s || null`: the text as typed, or null when it is empty. */
  function OrNull(s: string): (r: Option<string>)
    ensures r.None? <==> s == ""
    ensures r.Some? ==> r.value == s
  {
    if s == "" then None else Some(s)
  }

  /** What a nullable text column receives from a typed field under
      `trim() || null`: null exactly when only white space was typed,
      otherwise the typed text without its surrounding white space. */
  ghost predicate TrimmedOrNull(v: Option<string>, typed: string) {
    (v.None? <==> AllSpace(typed)) && (v.Some? ==> v.value == Trim(typed))
  }

  /** What a nullable column receives from a field sent as typed under
      `x || null`: null exactly when the field is empty, otherwise the field. */
  predicate CopiedOrNull(v: Option<string>, typed: string) {
    (v.None? <==> typed == "") && (v.Some? ==> v.value == typed)
  }

  /** `Number(x || 0)` for a nullable money column. */
  function MoneyOrZero(x: Option<int>): int {
    x.GetOr(0)
  }

  /** A display label: a translation key, or the raw value when the lookup misses. */
  datatype Label = Message(key: string) | Verbatim(text: string)

  /** `({k1: t(ns + k1), ...})[key] || key` over the listed keys. */
  function LabelOr(keys: seq<string>, ns: string, key: string): (l: Label)
    ensures l.Message? <==> key in keys
    ensures l.Message? ==> l.key == ns + key
    ensures l.Verbatim? ==> l.text == key
  {
    if key in keys then Message(ns + key) else Verbatim(key)
  }

  /** `whole > 0 ? (part / whole) * 100 : 0`, the percentage the pages print. */
  function Percent(part: int, whole: int): (p: real)
    ensures whole <= 0 ==> p == 0.0
    ensures whole > 0 ==> (p >= 100.0 <==> part >= whole)
    ensures whole > 0 ==> (p >= 0.0 <==> part >= 0)
    ensures whole > 0 ==> p * (whole as real) == (part as real) * 100.0
  {
    if whole > 0 then
      PercentScale(part, whole);
      (part as real / whole as real) * 100.0
    else 0.0
  }

  /** Scaling by a positive whole keeps the order against 0 and against the whole. */
  lemma PercentScale(part: int, whole: int)
    requires whole > 0
    ensures (part as real / whole as real) * 100.0 >= 100.0 <==> part >= whole
    ensures (part as real / whole as real) * 100.0 >= 0.0 <==> part >= 0
    ensures (part as real / whole as real) * 100.0 * (whole as real) == (part as real) * 100.0
  {
    var q := part as real / whole as real;
    assert q * whole as real == part as real;
    assert q * 100.0 * (whole as real) == (q * whole as real) * 100.0;
    if part >= whole {
      assert q >= 1.0;
    } else {
      assert q < 1.0;
    }
    if part >= 0 {
      assert q >= 0.0;
    } else {
      assert q < 0.0;
    }
  }

  /** With a positive whole the percentage is the one number `p` with
      `p * whole == part * 100`: it scales the part, not merely its thresholds. */
  lemma PercentCharacterised(part: int, whole: int, q: real)
    requires whole > 0
    ensures q == Percent(part, whole) <==> q * (whole as real) == (part as real) * 100.0
  {
    var p := Percent(part, whole);
    if q * (whole as real) == (part as real) * 100.0 {
      assert (q - p) * (whole as real) == 0.0;
    }
  }

  /** Percentages of one whole add up: the parts' shares sum to the share of their sum. */
  lemma PercentAdds(a: int, b: int, whole: int)
    ensures Percent(a + b, whole) == Percent(a, whole) + Percent(b, whole)
  {
    if whole > 0 {
      var w := whole as real;
      calc {
        Percent(a + b, whole) * w;
        (a + b) as real * 100.0;
        a as real * 100.0 + b as real * 100.0;
        Percent(a, whole) * w + Percent(b, whole) * w;
        (Percent(a, whole) + Percent(b, whole)) * w;
      }
      PercentCharacterised(a + b, whole, Percent(a, whole) + Percent(b, whole));
    }
  }
}

=== FILE: seqs.dfy ===
/** Generic list operations the components use: `Array.prototype.filter`,
    counting by a predicate, and summing by a projection. */
module Seqs {
  import opened Wrappers

  /** `r` occurs in `s` in the same order, possibly with gaps. */
  ghost predicate IsSubsequence<T>(r: seq<T>, s: seq<T>)
    decreases |s|
  {
    if |r| == 0 then true
    else if |s| == 0 then false
    else (r[0] == s[0] && IsSubsequence(r[1..], s[1..])) || IsSubsequence(r, s[1..])
  }

  /** A subsequence stays one when the longer list gains a first element. */
  lemma SubsequenceCons<T>(r: seq<T>, x: T, s: seq<T>)
    requires IsSubsequence(r, s)
    ensures IsSubsequence(r, [x] + s)
  {
    assert ([x] + s)[1..] == s;
  }

  /** Both lists gaining the same first element keeps a subsequence. */
  lemma SubsequenceBothCons<T>(x: T, r: seq<T>, s: seq<T>)
    requires IsSubsequence(r, s)
    ensures IsSubsequence([x] + r, [x] + s)
  {
    assert ([x] + r)[1..] == r;
    assert ([x] + s)[1..] == s;
  }

  /** `s.filter(p)`: the elements satisfying `p`, in their original order. */
  function Filter<T(!new)>(s: seq<T>, p: T -> bool): (r: seq<T>)
    ensures |r| <= |s|
    ensures forall x :: x in r <==> x in s && p(x)
  {
    if |s| == 0 then []
    else
      assert s == [s[0]] + s[1..];
      var rest := Filter(s[1..], p);
      if p(s[0]) then [s[0]] + rest else rest
  }

  /** The filter keeps each selected element with its original multiplicity. */
  lemma {:induction false} FilterMultiset<T(!new)>(s: seq<T>, p: T -> bool)
    ensures forall x :: multiset(Filter(s, p))[x] == if p(x) then multiset(s)[x] else 0
    decreases |s|
  {
    if |s| > 0 {
      FilterMultiset(s[1..], p);
      assert s == [s[0]] + s[1..];
      var rest := Filter(s[1..], p);
      if p(s[0]) {
        assert Filter(s, p) == [s[0]] + rest;
      } else {
        assert Filter(s, p) == rest;
      }
    }
  }

  /** Filtering a list with a known first element. */
  lemma FilterCons<T(!new)>(x: T, s: seq<T>, p: T -> bool)
    ensures Filter([x] + s, p) == (if p(x) then [x] else []) + Filter(s, p)
  {
    var r := [x] + s;
    assert r[0] == x && r[1..] == s;
  }

  /** Filtering a non-empty list: its first element, then the rest. */
  lemma FilterHead<T(!new)>(s: seq<T>, p: T -> bool)
    requires |s| > 0
    ensures Filter(s, p) == (if p(s[0]) then [s[0]] else []) + Filter(s[1..], p)
  {
  }

  lemma {:induction false} FilterIsSubsequence<T(!new)>(s: seq<T>, p: T -> bool)
    ensures IsSubsequence(Filter(s, p), s)
    decreases |s|
  {
    if |s| > 0 {
      FilterIsSubsequence(s[1..], p);
      var rest := Filter(s[1..], p);
      if p(s[0]) {
        assert Filter(s, p) == [s[0]] + rest;
        assert ([s[0]] + rest)[1..] == rest;
      } else {
        if |rest| > 0 {
          assert Filter(s, p) == rest;
        }
      }
    }
  }

  /** Filtering distributes over concatenation, so the filter keeps the order
      of its input across any split point. */
  lemma {:induction false} FilterAppend<T(!new)>(a: seq<T>, b: seq<T>, p: T -> bool)
    ensures Filter(a + b, p) == Filter(a, p) + Filter(b, p)
    decreases |a|
  {
    if |a| > 0 {
      assert (a + b)[1..] == a[1..] + b;
      FilterAppend(a[1..], b, p);
    } else {
      assert a + b == b;
    }
  }

  /** Filtering a list with one element spliced in. */
  lemma FilterSplice<T(!new)>(a: seq<T>, x: T, b: seq<T>, p: T -> bool)
    ensures Filter(a + [x] + b, p) == Filter(a, p) + (if p(x) then [x] else []) + Filter(b, p)
  {
    FilterAppend(a + [x], b, p);
    FilterAppend(a, [x], p);
    assert [x] + [] == [x];
    FilterCons(x, [], p);
  }

  /** A filter that keeps nothing returns the empty list. */
  lemma FilterNone<T(!new)>(s: seq<T>, p: T -> bool)
    requires forall x :: x in s ==> !p(x)
    ensures Filter(s, p) == []
  {
  }

  /** A filter that keeps everything returns its input. */
  lemma {:induction false} FilterAll<T(!new)>(s: seq<T>, p: T -> bool)
    requires forall x :: x in s ==> p(x)
    ensures Filter(s, p) == s
    decreases |s|
  {
    if |s| > 0 {
      FilterAll(s[1..], p);
      assert [s[0]] + s[1..] == s;
    }
  }

  /** Filtering out exactly one element of a list. */
  lemma FilterDropOne<T(!new)>(a: seq<T>, x: T, b: seq<T>, p: T -> bool)
    requires forall y :: y in a ==> p(y)
    requires forall y :: y in b ==> p(y)
    requires !p(x)
    ensures Filter(a + [x] + b, p) == a + b
  {
    assert a + [x] + b == a + ([x] + b);
    FilterAppend(a, [x] + b, p);
    FilterCons(x, b, p);
    FilterAll(a, p);
    FilterAll(b, p);
  }

  /** Two predicates that agree everywhere select the same elements. */
  lemma {:induction false} FilterSamePredicate<T(!new)>(s: seq<T>, p: T -> bool, q: T -> bool)
    requires forall x :: p(x) == q(x)
    ensures Filter(s, p) == Filter(s, q)
    decreases |s|
  {
    if |s| > 0 {
      FilterSamePredicate(s[1..], p, q);
    }
  }

  /** `s.filter(p).length`. */
  function Count<T>(s: seq<T>, p: T -> bool): (n: nat)
    ensures n <= |s|
  {
    if |s| == 0 then 0 else (if p(s[0]) then 1 else 0) + Count(s[1..], p)
  }

  /** The count is the length of the filtered list. */
  lemma {:induction false} CountIsFilterLength<T(!new)>(s: seq<T>, p: T -> bool)
    ensures Count(s, p) == |Filter(s, p)|
    decreases |s|
  {
    if |s| > 0 {
      CountIsFilterLength(s[1..], p);
    }
  }

  /** Counting the first element, then the rest. */
  lemma CountFirst<T>(s: seq<T>, p: T -> bool)
    requires |s| > 0
    ensures Count(s, p) == (if p(s[0]) then 1 else 0) + Count(s[1..], p)
  {
  }

  /** Every element either satisfies `p` or does not: the two counts add up to the length. */
  lemma {:induction false} CountComplement<T>(s: seq<T>, p: T -> bool, q: T -> bool)
    requires forall x :: q(x) == !p(x)
    ensures Count(s, p) + Count(s, q) == |s|
    decreases |s|
  {
    if |s| > 0 {
      CountComplement(s[1..], p, q);
    }
  }

  /** A predicate nothing satisfies counts nothing. */
  lemma {:induction false} CountNone<T>(s: seq<T>, p: T -> bool)
    requires forall x :: !p(x)
    ensures Count(s, p) == 0
    decreases |s|
  {
    if |s| > 0 {
      CountNone(s[1..], p);
    }
  }

  /** The count of a disjunction of two exclusive predicates is the sum of their counts. */
  lemma {:induction false} CountDisjoint<T>(s: seq<T>, p: T -> bool, q: T -> bool, pq: T -> bool)
    requires forall x :: !(p(x) && q(x))
    requires forall x :: pq(x) == (p(x) || q(x))
    ensures Count(s, p) + Count(s, q) == Count(s, pq)
    decreases |s|
  {
    if |s| > 0 {
      CountDisjoint(s[1..], p, q, pq);
    }
  }

  /** The count is zero exactly when no element satisfies `p`. */
  lemma {:induction false} CountZero<T>(s: seq<T>, p: T -> bool)
    ensures Count(s, p) == 0 <==> forall x :: x in s ==> !p(x)
    decreases |s|
  {
    if |s| > 0 {
      CountZero(s[1..], p);
      assert forall x :: x in s <==> x == s[0] || x in s[1..];
    }
  }

  /** Counting `q` among the elements that satisfy `p` counts the elements
      satisfying both. */
  lemma {:induction false} CountOfFilter<T(!new)>(s: seq<T>, p: T -> bool, q: T -> bool, pq: T -> bool)
    requires forall x :: pq(x) == (p(x) && q(x))
    ensures Count(Filter(s, p), q) == Count(s, pq)
    decreases |s|
  {
    if |s| > 0 {
      CountOfFilter(s[1..], p, q, pq);
      FilterHead(s, p);
    }
  }

  /** A weaker predicate counts at least as many elements. */
  lemma {:induction false} CountMonotone<T>(s: seq<T>, p: T -> bool, q: T -> bool)
    requires forall x :: p(x) ==> q(x)
    ensures Count(s, p) <= Count(s, q)
    decreases |s|
  {
    if |s| > 0 {
      CountMonotone(s[1..], p, q);
    }
  }

  /** `s.reduce((sum, x) => sum + f(x), 0)`. */
  function Sum<T>(s: seq<T>, f: T -> int): int
  {
    if |s| == 0 then 0 else f(s[0]) + Sum(s[1..], f)
  }

  lemma {:induction false} SumAppend<T>(a: seq<T>, b: seq<T>, f: T -> int)
    ensures Sum(a + b, f) == Sum(a, f) + Sum(b, f)
    decreases |a|
  {
    if |a| > 0 {
      assert (a + b)[1..] == a[1..] + b;
      SumAppend(a[1..], b, f);
    } else {
      assert a + b == b;
    }
  }

  /** A sum of non-negative terms is non-negative. */
  lemma {:induction false} SumNonNegative<T>(s: seq<T>, f: T -> int)
    requires forall x :: x in s ==> f(x) >= 0
    ensures Sum(s, f) >= 0
    decreases |s|
  {
    if |s| > 0 {
      SumNonNegative(s[1..], f);
    }
  }

  /** Summing only the elements `p` selects is the same as summing `f` zeroed outside `p`. */
  lemma {:induction false} SumFilter<T(!new)>(s: seq<T>, p: T -> bool, f: T -> int, g: T -> int)
    requires forall x :: g(x) == if p(x) then f(x) else 0
    ensures Sum(Filter(s, p), f) == Sum(s, g)
    decreases |s|
  {
    if |s| > 0 {
      SumFilter(s[1..], p, f, g);
      if p(s[0]) {
        assert Filter(s, p)[1..] == Filter(s[1..], p);
      }
    }
  }

  /** `s.map(f)`. */
  function Map<T, U>(s: seq<T>, f: T -> U): (r: seq<U>)
    ensures |r| == |s|
    ensures forall i :: 0 <= i < |s| ==> r[i] == f(s[i])
  {
    seq(|s|, i requires 0 <= i < |s| => f(s[i]))
  }

  /** Mapping a list with a first element maps that element first. */
  lemma MapCons<T, U>(x: T, s: seq<T>, f: T -> U)
    ensures Map([x] + s, f) == [f(x)] + Map(s, f)
  {
  }

  /** Apply `f` to every element, failing as a whole when any application
      fails (a `map` whose callback may throw). */
  function MapAll<T, U>(s: seq<T>, f: T -> Option<U>): (r: Option<seq<U>>)
    ensures r.Some? <==> forall i :: 0 <= i < |s| ==> f(s[i]).Some?
    ensures r.Some? ==> |r.value| == |s| && forall i :: 0 <= i < |s| ==> f(s[i]) == Some(r.value[i])
    decreases |s|
  {
    if |s| == 0 then Some([])
    else
      var head := f(s[0]);
      var rest := MapAll(s[1..], f);
      assert forall i :: 1 <= i < |s| ==> s[1..][i - 1] == s[i];
      if head.None? || rest.None? then None
      else Some([head.value] + rest.value)
  }

  /** `s.slice(0, k)` for `k >= 0`: the first `k` elements, or all of them. */
  function Take<T>(s: seq<T>, k: nat): (r: seq<T>)
    ensures |r| == if k < |s| then k else |s|
    ensures forall i :: 0 <= i < |r| ==> r[i] == s[i]
  {
    if k < |s| then s[..k] else s
  }

  /** What `Take` keeps and what it leaves, together, are the whole list. */
  lemma TakeAndRest<T>(s: seq<T>, k: nat)
    ensures Take(s, k) + s[|Take(s, k)|..] == s
    ensures multiset(Take(s, k)) + multiset(s[|Take(s, k)|..]) == multiset(s)
  {
    var r := Take(s, k);
    assert r + s[|r|..] == s;
    calc {
      multiset(s);
      multiset(r + s[|r|..]);
      multiset(r) + multiset(s[|r|..]);
    }
  }
}

=== FILE: tasks_page.dfy ===
/** The task list page: the status filter, the add-task form and its insert
    payload, the completed/pending checkbox and the status and priority labels. */
module TasksPage {
  import opened Wrappers
  import opened Text
  import opened Records
  import Seqs

  /** The filter buttons: every task, or one status. */
  datatype TaskFilter = AllTasks | OnlyTaskStatus(status: TaskStatus)

  /** The filter callback: `filter === 'all' || task.status === filter`. */
  function TaskKeeps(f: TaskFilter): Task -> bool {
    (t: Task) => f.AllTasks? || t.status == Some(f.status)
  }

  /** The tasks listed under filter `f`. */
  function FilterTasks(tasks: seq<Task>, f: TaskFilter): (r: seq<Task>)
    ensures f.AllTasks? ==> r == tasks
    ensures forall t :: t in r <==> t in tasks && (f.AllTasks? || t.status == Some(f.status))
    ensures forall t :: multiset(r)[t] == if TaskKeeps(f)(t) then multiset(tasks)[t] else 0
  {
    Seqs.FilterMultiset(tasks, TaskKeeps(f));
    if f.AllTasks? then Seqs.FilterAll(tasks, TaskKeeps(f)); Seqs.Filter(tasks, TaskKeeps(f))
    else Seqs.Filter(tasks, TaskKeeps(f))
  }

  /** The filtered list keeps the page's order. */
  lemma FilterTasksKeepsOrder(tasks: seq<Task>, f: TaskFilter)
    ensures Seqs.IsSubsequence(FilterTasks(tasks, f), tasks)
  {
    Seqs.FilterIsSubsequence(tasks, TaskKeeps(f));
  }

  /** The header line "`completed` of `total` completed". */
  datatype Progress = Progress(completed: nat, total: nat)

  function HeaderProgress(tasks: seq<Task>): (p: Progress)
    ensures p.total == |tasks|
    ensures p.completed == |FilterTasks(tasks, OnlyTaskStatus(Completed))|
    ensures p.completed <= p.total
  {
    Seqs.CountIsFilterLength(tasks, TaskStatusIs(Completed));
    Seqs.FilterSamePredicate(tasks, TaskKeeps(OnlyTaskStatus(Completed)), TaskStatusIs(Completed));
    Progress(Seqs.Count(tasks, TaskStatusIs(Completed)), |tasks|)
  }

  /** The add-task dialog's fields; the category and due date come from a
      picker and a date input, so they are not trimmed. */
  datatype TaskForm = TaskForm(
    title: string,
    description: string,
    categoryId: string,
    priority: TaskPriority,
    dueDate: string)

  /** The form as it opens and as it is reset after a successful insert. */
  function BlankTaskForm(): (f: TaskForm)
    ensures AllSpace(f.title) && f.priority == Medium
  {
    TaskForm("", "", "", Medium, "")
  }

  /** The row sent to the `tasks` table. */
  datatype TaskPayload = TaskPayload(
    weddingId: string,
    title: string,
    description: Option<string>,
    categoryId: Option<string>,
    priority: TaskPriority,
    dueDate: Option<string>)

  /** The insert the form submits, or nothing when the guard stops it. */
  function CreateTaskRequest(form: TaskForm, wedding: Option<Wedding>): (r: Option<TaskPayload>)
    ensures r.None? <==> AllSpace(form.title) || wedding.None?
    ensures r.Some? ==> (r.value.weddingId == wedding.value.id
      && r.value.title == Trim(form.title) && r.value.title != ""
      && r.value.priority == form.priority)
    ensures r.Some? ==> (TrimmedOrNull(r.value.description, form.description)
      && CopiedOrNull(r.value.categoryId, form.categoryId)
      && CopiedOrNull(r.value.dueDate, form.dueDate))
  {
    var title := Trim(form.title);
    if title == "" || wedding.None? then None
    else Some(TaskPayload(
      wedding.value.id,
      title,
      TrimOrNull(form.description),
      OrNull(form.categoryId),
      form.priority,
      OrNull(form.dueDate)))
  }

  /** A task created from a freshly opened form has medium priority. */
  lemma DefaultPriorityIsMedium(title: string, w: Wedding)
    requires !AllSpace(title)
    ensures var r := CreateTaskRequest(BlankTaskForm().(title := title), Some(w));
      r.Some? && r.value.priority == Medium
  {
  }

  /** The form that would show a stored payload: null fields become blank. */
  function TaskFormOf(p: TaskPayload): TaskForm {
    TaskForm(p.title, p.description.GetOr(""), p.categoryId.GetOr(""), p.priority, p.dueDate.GetOr(""))
  }

  /** Normalisation is idempotent: typing a submitted payload back into the
      form produces the same payload. */
  lemma TaskPayloadRoundTrip(form: TaskForm, w: Wedding)
    requires CreateTaskRequest(form, Some(w)).Some?
    ensures var p := CreateTaskRequest(form, Some(w)).value;
      CreateTaskRequest(TaskFormOf(p), Some(w)) == Some(p)
  {
    var p := CreateTaskRequest(form, Some(w)).value;
    TrimIdempotent(form.title);
    TrimOrNullStable(p.description, form.description);
  }

  /** The toasts the page raises. */
  datatype TaskNotice = NoNotice | FailedCreate | Created | FailedUpdate

  /** What submitting the dialog leads to. */
  datatype TaskSubmit = TaskSubmit(
    request: Option<TaskPayload>,
    form: TaskForm,
    dialogOpen: bool,
    notice: TaskNotice,
    refreshed: bool)

  /** Submit the add-task dialog; `storeAccepts` is the outcome of the insert. */
  function SubmitTask(form: TaskForm, wedding: Option<Wedding>, storeAccepts: bool): (o: TaskSubmit)
    ensures o.request == CreateTaskRequest(form, wedding)
    ensures o.request.None? ==> o == TaskSubmit(None, form, true, NoNotice, false)
    ensures o.request.Some? && storeAccepts ==> (o.form == BlankTaskForm() && !o.dialogOpen
      && o.notice == Created && o.refreshed)
    ensures o.request.Some? && !storeAccepts ==> (o.form == form && o.dialogOpen
      && o.notice == FailedCreate && !o.refreshed)
  {
    var req := CreateTaskRequest(form, wedding);
    if req.None? then TaskSubmit(None, form, true, NoNotice, false)
    else if storeAccepts then TaskSubmit(req, BlankTaskForm(), false, Created, true)
    else TaskSubmit(req, form, true, FailedCreate, false)
  }

  /** The status the checkbox writes: `completed` becomes `pending`, anything
      else becomes `completed`. */
  function NextStatus(current: TaskStatus): (n: TaskStatus)
    ensures n == Completed <==> current != Completed
    ensures n == ToDo <==> current == Completed
  {
    if current == Completed then ToDo else Completed
  }

  /** The status passed for a row: `task.status || 'pending'`. */
  function CurrentStatus(t: Task): (s: TaskStatus)
    ensures t.status.Some? ==> s == t.status.value
    ensures t.status.None? ==> s == ToDo
  {
    t.status.GetOr(ToDo)
  }

  /** A task without a status toggles exactly like a pending one. */
  lemma NullStatusTogglesAsPending(t: Task)
    requires t.status.None?
    ensures NextStatus(CurrentStatus(t)) == NextStatus(ToDo) == Completed
  {
  }

  /** Ticking twice returns pending and completed tasks to where they were,
      but sends an in-progress task to pending. */
  lemma ToggleTwice(s: TaskStatus)
    ensures s != InProgress ==> NextStatus(NextStatus(s)) == s
    ensures NextStatus(NextStatus(InProgress)) == ToDo
  {
  }

  /** The update written by the checkbox: the new status and its completion time. */
  datatype TaskUpdate = TaskUpdate(status: TaskStatus, completedAt: Option<string>)

  /** `{ status: newStatus, completed_at: newStatus === 'completed' ? now : null }`,
      with the clock reading `now` a parameter. */
  function ToggleUpdate(current: TaskStatus, now: string): (u: TaskUpdate)
    ensures u.status == NextStatus(current)
    ensures u.completedAt.Some? <==> u.status == Completed
    ensures u.completedAt.Some? ==> u.completedAt.value == now
  {
    var next := NextStatus(current);
    TaskUpdate(next, if next == Completed then Some(now) else None)
  }

  /** The table after `update(u).eq('id', taskId)`. */
  function ApplyTaskUpdate(tasks: seq<Task>, taskId: string, u: TaskUpdate): (r: seq<Task>)
    ensures |r| == |tasks|
    ensures forall i :: 0 <= i < |r| && tasks[i].id == taskId ==>
      r[i].status == Some(u.status) && r[i].completedAt == u.completedAt
    ensures forall i :: 0 <= i < |r| && tasks[i].id != taskId ==> r[i] == tasks[i]
    ensures forall i :: 0 <= i < |r| ==>
      r[i].(status := tasks[i].status, completedAt := tasks[i].completedAt) == tasks[i]
  {
    Seqs.Map(tasks, (t: Task) => if t.id == taskId then t.(status := Some(u.status), completedAt := u.completedAt) else t)
  }

  /** After the checkbox, a task is completed exactly when it carries a
      completion time. */
  lemma ToggledTaskCompletedIffTimestamped(tasks: seq<Task>, i: nat, now: string)
    requires i < |tasks|
    ensures var r := ApplyTaskUpdate(tasks, tasks[i].id, ToggleUpdate(CurrentStatus(tasks[i]), now));
      (r[i].status == Some(Completed) <==> r[i].completedAt.Some?)
      && (r[i].status == Some(Completed) <==> tasks[i].status != Some(Completed))
  {
  }

  /** The table after `delete().eq('id', taskId)`. */
  function DeleteTask(tasks: seq<Task>, taskId: string): (r: seq<Task>)
    ensures forall t :: t in r <==> t in tasks && t.id != taskId
    ensures |r| <= |tasks|
  {
    Seqs.Filter(tasks, (t: Task) => t.id != taskId)
  }

  /** Deleting an id that is not on the list changes nothing. */
  lemma DeleteMissingTask(tasks: seq<Task>, taskId: string)
    requires forall t :: t in tasks ==> t.id != taskId
    ensures DeleteTask(tasks, taskId) == tasks
  {
    Seqs.FilterAll(tasks, (t: Task) => t.id != taskId);
  }

  /** `getStatusLabel` keys, including the `all` filter. */
  const StatusKeys: seq<string> := ["all", "pending", "in_progress", "completed"]

  /** `getPriorityLabel` keys. */
  const PriorityKeys: seq<string> := ["low", "medium", "high"]

  function StatusLabel(status: string): (l: Label)
    ensures l.Message? <==> status in StatusKeys
    ensures l.Message? ==> l.key == "tasks.status." + status
    ensures l.Verbatim? ==> l.text == status
  {
    LabelOr(StatusKeys, "tasks.status.", status)
  }

  function PriorityLabel(priority: string): (l: Label)
    ensures l.Message? <==> priority in PriorityKeys
    ensures l.Message? ==> l.key == "tasks.priorityLevel." + priority
    ensures l.Verbatim? ==> l.text == priority
  {
    LabelOr(PriorityKeys, "tasks.priorityLevel.", priority)
  }

  /** Every stored status and priority has a translated label. */
  lemma StoredValuesAreTranslated(s: TaskStatus, p: TaskPriority)
    ensures StatusLabel(s.Key()) == Message("tasks.status." + s.Key())
    ensures PriorityLabel(p.Key()) == Message("tasks.priorityLevel." + p.Key())
  {
    assert s.Key() in StatusKeys;
    assert p.Key() in PriorityKeys;
  }
}

=== FILE: tasks_preview.dfy ===
/** The dashboard's task card: the completed count and the five pending
    tasks due soonest. */
module TasksPreview {
  import opened Wrappers
  import opened Records
  import Seqs
  import ProgressOverview

  /** `tasks.filter(t => t.status !== 'completed')`. */
  function PendingTasks(tasks: seq<Task>): (r: seq<Task>)
    ensures |r| + ProgressOverview.CompletedCount(tasks) == |tasks|
    ensures forall t :: t in r <==> t in tasks && t.status != Some(Completed)
  {
    Seqs.CountIsFilterLength(tasks, NotCompleted());
    Seqs.Filter(tasks, NotCompleted())
  }

  /** `t.due_date` is truthy: present and not the empty string. */
  function HasDueDate(): Task -> bool {
    (t: Task) => t.dueDate.Some? && t.dueDate.value != ""
  }

  /** The tasks eligible for the card: pending and dated, in list order. */
  function Candidates(tasks: seq<Task>): (r: seq<Task>)
    ensures forall t :: t in r <==> t in tasks && t.status != Some(Completed) && HasDueDate()(t)
  {
    Seqs.Filter(PendingTasks(tasks), HasDueDate())
  }

  /** Ascending by `key`. */
  predicate SortedBy<T>(s: seq<T>, key: T -> int) {
    forall i, j :: 0 <= i < j < |s| ==> key(s[i]) <= key(s[j])
  }

  /** Where `x` goes: in front of the first element whose key is not smaller
      than its own, or at the end. */
  function InsertionPoint<T>(x: T, s: seq<T>, key: T -> int): (i: nat)
    ensures i <= |s|
    ensures forall k :: 0 <= k < i ==> key(s[k]) < key(x)
    ensures i < |s| ==> key(x) <= key(s[i])
    decreases |s|
  {
    if |s| == 0 || key(x) <= key(s[0]) then 0
    else
      var i := 1 + InsertionPoint(x, s[1..], key);
      assert forall k :: 1 <= k < i ==> s[k] == s[1..][k - 1];
      i
  }

  /** One step of the insertion sort. */
  function Insert<T>(x: T, s: seq<T>, key: T -> int): (r: seq<T>)
    ensures |r| == |s| + 1
    ensures multiset(r) == multiset{x} + multiset(s)
  {
    var i := InsertionPoint(x, s, key);
    assert s == s[..i] + s[i..];
    s[..i] + [x] + s[i..]
  }

  /** Inserting into a sorted list keeps it sorted. */
  lemma InsertSorted<T>(x: T, s: seq<T>, key: T -> int)
    requires SortedBy(s, key)
    ensures SortedBy(Insert(x, s, key), key)
  {
    var i := InsertionPoint(x, s, key);
    var r := Insert(x, s, key);
    assert r == s[..i] + [x] + s[i..];
    forall a, b | 0 <= a < b < |r|
      ensures key(r[a]) <= key(r[b])
    {
      var ka := if a < i then key(s[a]) else if a == i then key(x) else key(s[a - 1]);
      var kb := if b < i then key(s[b]) else if b == i then key(x) else key(s[b - 1]);
      assert key(r[a]) == ka && key(r[b]) == kb;
      if a < i && b > i {
        assert key(s[a]) <= key(s[i]);
      }
    }
  }

  /** The array after `.sort((a, b) => key(a) - key(b))`: an insertion sort,
      which like the engine's sort keeps equal keys in their original order. */
  function SortBy<T>(s: seq<T>, key: T -> int): (r: seq<T>)
    ensures |r| == |s|
    ensures multiset(r) == multiset(s)
    ensures SortedBy(r, key)
    decreases |s|
  {
    if |s| == 0 then []
    else
      assert s == [s[0]] + s[1..];
      InsertSorted(s[0], SortBy(s[1..], key), key);
      Insert(s[0], SortBy(s[1..], key), key)
  }

  /** The elements whose key is `v`. */
  function KeyIs<T>(key: T -> int, v: int): T -> bool {
    (y: T) => key(y) == v
  }

  /** Inserting `x` passes only over smaller keys, so among the elements with
      one key `x` lands in front. */
  lemma InsertAmongEqualKeys<T(!new)>(x: T, s: seq<T>, key: T -> int, v: int)
    ensures Seqs.Filter(Insert(x, s, key), KeyIs(key, v))
      == (if key(x) == v then [x] else []) + Seqs.Filter(s, KeyIs(key, v))
  {
    var p := KeyIs(key, v);
    var i := InsertionPoint(x, s, key);
    var before, after := s[..i], s[i..];
    assert Insert(x, s, key) == before + [x] + after;
    Seqs.FilterSplice(before, x, after, p);
    assert s == before + after;
    Seqs.FilterAppend(before, after, p);
    if key(x) == v {
      assert forall y :: y in before ==> !p(y);
      Seqs.FilterNone(before, p);
    }
    SwapEmpty(Seqs.Filter(before, p), if p(x) then [x] else [], Seqs.Filter(after, p));
  }

  /** Two pieces of which one is empty may change places. */
  lemma SwapEmpty<T>(a: seq<T>, m: seq<T>, b: seq<T>)
    requires a == [] || m == []
    ensures a + m + b == m + (a + b)
  {
  }

  /** The sort is stable: the elements sharing a key keep their relative order. */
  lemma {:induction false} SortByIsStable<T(!new)>(s: seq<T>, key: T -> int, v: int)
    ensures Seqs.Filter(SortBy(s, key), KeyIs(key, v)) == Seqs.Filter(s, KeyIs(key, v))
    decreases |s|
  {
    if |s| > 0 {
      SortByIsStable(s[1..], key, v);
      InsertAmongEqualKeys(s[0], SortBy(s[1..], key), key, v);
      Seqs.FilterHead(s, KeyIs(key, v));
    }
  }

  /** `new Date(t.due_date!).getTime()`, with the date parser a parameter. */
  function DueKey(dateValue: string -> int): Task -> int {
    (t: Task) => dateValue(t.dueDate.GetOr(""))
  }

  /** A prefix of a sorted list is sorted and drawn from the list. */
  lemma TakeOfSorted<T>(s: seq<T>, key: T -> int, k: nat)
    requires SortedBy(s, key)
    ensures SortedBy(Seqs.Take(s, k), key)
    ensures multiset(Seqs.Take(s, k)) <= multiset(s)
  {
    Seqs.TakeAndRest(s, k);
  }

  /** What a prefix of a sorted list leaves out is no smaller than its last element. */
  lemma LeftOutOfSorted<T>(s: seq<T>, key: T -> int, k: nat, y: T)
    requires SortedBy(s, key) && k > 0
    requires y in multiset(s) - multiset(Seqs.Take(s, k))
    ensures |Seqs.Take(s, k)| == k && k < |s|
    ensures key(y) >= key(s[k - 1])
  {
    Seqs.TakeAndRest(s, k);
    var r := Seqs.Take(s, k);
    if k >= |s| {
      assert false;
    }
    var tail := s[k..];
    assert y in multiset(tail);
    var j :| 0 <= j < |tail| && tail[j] == y;
    assert s[k + j] == y;
  }

  /** `upcomingTasks`: the candidates sorted by due date, then `.slice(0, 5)`. */
  function UpcomingTasks(tasks: seq<Task>, dateValue: string -> int): (r: seq<Task>)
    ensures |r| == if |Candidates(tasks)| < 5 then |Candidates(tasks)| else 5
    ensures multiset(r) <= multiset(Candidates(tasks))
    ensures forall t :: t in r ==> t in tasks && t.status != Some(Completed) && HasDueDate()(t)
    ensures SortedBy(r, DueKey(dateValue))
  {
    var candidates := Candidates(tasks);
    var sorted := SortBy(candidates, DueKey(dateValue));
    TakeOfSorted(sorted, DueKey(dateValue), 5);
    var r := Seqs.Take(sorted, 5);
    forall t | t in r
      ensures t in candidates
    {
      assert t in multiset(r);
      assert t in multiset(candidates);
    }
    r
  }

  /** The card shows the earliest tasks: any candidate left off is due no
      sooner than the last one shown, and the card is full. */
  lemma UpcomingAreTheEarliest(tasks: seq<Task>, dateValue: string -> int, t: Task)
    requires t in multiset(Candidates(tasks)) - multiset(UpcomingTasks(tasks, dateValue))
    ensures |UpcomingTasks(tasks, dateValue)| == 5
    ensures DueKey(dateValue)(t) >= DueKey(dateValue)(UpcomingTasks(tasks, dateValue)[4])
  {
    var sorted := SortBy(Candidates(tasks), DueKey(dateValue));
    LeftOutOfSorted(sorted, DueKey(dateValue), 5, t);
  }

  /** Among the tasks due on the same date the card keeps the list order. */
  lemma UpcomingKeepsOrderOfEqualDates(tasks: seq<Task>, dateValue: string -> int, v: int)
    ensures Seqs.Filter(SortBy(Candidates(tasks), DueKey(dateValue)), KeyIs(DueKey(dateValue), v))
      == Seqs.Filter(Candidates(tasks), KeyIs(DueKey(dateValue), v))
  {
    SortByIsStable(Candidates(tasks), DueKey(dateValue), v);
  }

  /** The card's empty state ("no pending tasks") shows exactly when no
      pending task has a due date. */
  lemma EmptyCardIffNothingDated(tasks: seq<Task>, dateValue: string -> int)
    ensures |UpcomingTasks(tasks, dateValue)| == 0
      <==> forall t :: t in tasks && t.status != Some(Completed) ==> !HasDueDate()(t)
  {
    if |Candidates(tasks)| > 0 {
      assert Candidates(tasks)[0] in Candidates(tasks);
    }
  }
}

=== FILE: text.dfy ===
/** The JavaScript string operations the components rely on, over strings of
    Unicode scalar values: `trim`, the `\s` class, `toLowerCase`/`toUpperCase`
    (on the Latin-1 range), `endsWith`, `split` on one character, `String(n)`
    for integers and `parseInt` without a radix. */
module Text {
  import opened Wrappers

  /** The characters `String.prototype.trim` strips and the regular-expression
      class `\s` matches: ECMAScript WhiteSpace and LineTerminator. */
  predicate IsJsSpace(c: char) {
    var n := c as int;
    n == 0x09 || n == 0x0A || n == 0x0B || n == 0x0C || n == 0x0D || n == 0x20
    || n == 0xA0 || n == 0x1680 || (0x2000 <= n <= 0x200A) || n == 0x2028
    || n == 0x2029 || n == 0x202F || n == 0x205F || n == 0x3000 || n == 0xFEFF
  }

  ghost predicate AllSpace(s: string) {
    forall k :: 0 <= k < |s| ==> IsJsSpace(s[k])
  }

  /** Index of the first non-space character, or `|s|`. */
  function TrimStartIndex(s: string): (i: nat)
    ensures i <= |s|
    ensures forall k :: 0 <= k < i ==> IsJsSpace(s[k])
    ensures i < |s| ==> !IsJsSpace(s[i])
  {
    if |s| == 0 || !IsJsSpace(s[0]) then 0
    else
      var i := 1 + TrimStartIndex(s[1..]);
      assert forall k :: 1 <= k < i ==> s[k] == s[1..][k - 1];
      i
  }

  /** One past the last non-space character at or after `lo`, or `lo`. */
  function TrimEndIndex(s: string, lo: nat): (j: nat)
    requires lo <= |s|
    ensures lo <= j <= |s|
    ensures forall k :: j <= k < |s| ==> IsJsSpace(s[k])
    ensures j > lo ==> !IsJsSpace(s[j - 1])
    decreases |s| - lo
  {
    if |s| == lo || !IsJsSpace(s[|s| - 1]) then |s|
    else TrimEndIndex(s[..|s| - 1], lo)
  }

  /** `s.trim()`. */
  function Trim(s: string): (r: string)
    ensures |r| <= |s|
    ensures |r| > 0 ==> !IsJsSpace(r[0]) && !IsJsSpace(r[|r| - 1])
    ensures r == "" <==> AllSpace(s)
  {
    var i := TrimStartIndex(s);
    var j := TrimEndIndex(s, i);
    var r := s[i..j];
    assert AllSpace(s[..i]) && AllSpace(s[j..]);
    assert r == "" ==> AllSpace(s) by {
      if r == "" {
        assert forall k :: 0 <= k < |s| ==> IsJsSpace(s[k]);
      }
    }
    r
  }

  /** The trim is the middle of `s` once a white-space prefix and a
      white-space suffix are cut off. */
  lemma TrimIsInfix(s: string)
    ensures var r := Trim(s);
      exists i :: 0 <= i <= |s| - |r| && r == s[i..i + |r|] && AllSpace(s[..i]) && AllSpace(s[i + |r|..])
  {
    var i := TrimStartIndex(s);
    var j := TrimEndIndex(s, i);
    assert Trim(s) == s[i..j];
    assert AllSpace(s[..i]) && AllSpace(s[j..]);
  }

  /** A string with no white space at either end is its own trim. */
  lemma TrimUnchanged(s: string)
    requires |s| > 0 ==> !IsJsSpace(s[0]) && !IsJsSpace(s[|s| - 1])
    ensures Trim(s) == s
  {
    assert TrimStartIndex(s) == 0;
  }

  /** Trimming twice is trimming once. */
  lemma TrimIdempotent(s: string)
    ensures Trim(Trim(s)) == Trim(s)
  {
    TrimUnchanged(Trim(s));
  }

  /** `toLowerCase` on one character: ASCII and Latin-1 capitals map to their
      small letters; every other character is left as it is. */
  function LowerChar(c: char): (d: char)
  {
    var n := c as int;
    if 'A' <= c <= 'Z' || (0xC0 <= n <= 0xDE && n != 0xD7) then (n + 32) as char else c
  }

  /** `toUpperCase` on one character, the inverse of `LowerChar` on the same range. */
  function UpperChar(c: char): (d: char)
  {
    var n := c as int;
    if 'a' <= c <= 'z' || (0xE0 <= n <= 0xFE && n != 0xF7) then (n - 32) as char else c
  }

  lemma CaseRoundTrip(c: char)
    ensures UpperChar(c) != c ==> LowerChar(UpperChar(c)) == c
    ensures LowerChar(c) != c ==> UpperChar(LowerChar(c)) == c
  {
  }

  function ToLower(s: string): (r: string)
    ensures |r| == |s|
    ensures forall i :: 0 <= i < |s| ==> r[i] == LowerChar(s[i])
  {
    seq(|s|, i requires 0 <= i < |s| => LowerChar(s[i]))
  }

  function ToUpper(s: string): (r: string)
    ensures |r| == |s|
    ensures forall i :: 0 <= i < |s| ==> r[i] == UpperChar(s[i])
  {
    seq(|s|, i requires 0 <= i < |s| => UpperChar(s[i]))
  }

  /** `s.endsWith(suffix)`, case-sensitive. */
  predicate EndsWith(s: string, suffix: string) {
    |suffix| <= |s| && s[|s| - |suffix|..] == suffix
  }

  /** `s.split(sep)` for a one-character separator: the pieces between
      separators, always at least one piece. */
  function Split(s: string, sep: char): (parts: seq<string>)
    ensures |parts| >= 1
    ensures forall k, i :: 0 <= k < |parts| && 0 <= i < |parts[k]| ==> parts[k][i] != sep
    decreases |s|
  {
    if |s| == 0 then [""]
    else
      var rest := Split(s[1..], sep);
      if s[0] == sep then [""] + rest
      else [[s[0]] + rest[0]] + rest[1..]
  }

  /** `parts.join(sep)`. */
  function Join(parts: seq<string>, sep: char): string
    decreases |parts|
  {
    if |parts| == 0 then ""
    else if |parts| == 1 then parts[0]
    else parts[0] + [sep] + Join(parts[1..], sep)
  }

  /** Splitting and joining with the same separator gives back the string. */
  lemma {:induction false} SplitJoin(s: string, sep: char)
    ensures Join(Split(s, sep), sep) == s
    decreases |s|
  {
    if |s| > 0 {
      SplitJoin(s[1..], sep);
      var rest := Split(s[1..], sep);
      if s[0] == sep {
        assert Split(s, sep)[1..] == rest;
        assert s == [sep] + s[1..];
      } else {
        var parts := Split(s, sep);
        assert parts[1..] == rest[1..];
        if |rest| == 1 {
          assert s == [s[0]] + s[1..];
        } else {
          assert Join(rest, sep) == rest[0] + [sep] + Join(rest[1..], sep);
          assert s == [s[0]] + s[1..];
        }
      }
    }
  }

  /** A separator-free string is one piece. */
  lemma {:induction false} SplitNoSeparator(s: string, sep: char)
    requires forall i :: 0 <= i < |s| ==> s[i] != sep
    ensures Split(s, sep) == [s]
    decreases |s|
  {
    if |s| > 0 {
      SplitNoSeparator(s[1..], sep);
      assert [s[0]] + s[1..] == s;
    }
  }

  /** Splitting `a + [sep] + b` where `a` holds no separator puts `a` first. */
  lemma {:induction false} SplitAt(a: string, sep: char, b: string)
    requires forall i :: 0 <= i < |a| ==> a[i] != sep
    ensures Split(a + [sep] + b, sep) == [a] + Split(b, sep)
    decreases |a|
  {
    if |a| == 0 {
      assert a + [sep] + b == [sep] + b;
      assert ([sep] + b)[1..] == b;
    } else {
      assert (a + [sep] + b)[1..] == a[1..] + [sep] + b;
      SplitAt(a[1..], sep, b);
      assert [a[0]] + a[1..] == a;
    }
  }

  predicate IsDigit(c: char) {
    '0' <= c <= '9'
  }

  function DigitChar(d: nat): (c: char)
    requires d < 10
    ensures IsDigit(c)
  {
    ('0' as int + d) as char
  }

  function DigitValue(c: char): (d: nat)
    requires IsDigit(c)
    ensures d < 10
  {
    c as int - '0' as int
  }

  /** `String(n)` for a natural number: decimal, no leading zeros. */
  function NatToString(n: nat): (s: string)
    ensures |s| >= 1
    ensures forall i :: 0 <= i < |s| ==> IsDigit(s[i])
    ensures |s| > 1 ==> s[0] != '0'
  {
    if n < 10 then [DigitChar(n)] else NatToString(n / 10) + [DigitChar(n % 10)]
  }

  /** `String(n)` for an integer. */
  function IntToString(n: int): (s: string)
    ensures |s| >= 1
    ensures s[0] == '-' <==> n < 0
    ensures forall i :: 1 <= i < |s| ==> IsDigit(s[i])
  {
    if n < 0 then "-" + NatToString(-n) else NatToString(n)
  }

  /** The decimal value of a digit string. */
  function DecimalValue(s: string): nat
    requires forall i :: 0 <= i < |s| ==> IsDigit(s[i])
  {
    if |s| == 0 then 0 else 10 * DecimalValue(s[..|s| - 1]) + DigitValue(s[|s| - 1])
  }

  /** The value of a hexadecimal digit, or none. */
  function HexValue(c: char): Option<nat> {
    if IsDigit(c) then Some(DigitValue(c))
    else if 'a' <= c <= 'f' then Some(c as int - 'a' as int + 10)
    else if 'A' <= c <= 'F' then Some(c as int - 'A' as int + 10)
    else None
  }

  /** Length of the longest prefix of `s` made of digits in `radix` (10 or 16). */
  function DigitRun(s: string, radix: nat): (k: nat)
    ensures k <= |s|
  {
    if |s| == 0 then 0
    else if (radix == 16 && HexValue(s[0]).Some?) || (radix != 16 && IsDigit(s[0])) then 1 + DigitRun(s[1..], radix)
    else 0
  }

  /** The value of the digit run `s` read in `radix`. */
  function RunValue(s: string, radix: nat): nat {
    if |s| == 0 then 0
    else
      var last := s[|s| - 1];
      var d := if radix == 16 then HexValue(last).GetOr(0) else if IsDigit(last) then DigitValue(last) else 0;
      (if radix == 16 then 16 else 10) * RunValue(s[..|s| - 1], radix) + d
  }

  /** `parseInt(s)` without a radix: leading white space is skipped, one sign
      is read, a `0x`/`0X` prefix switches to base 16, and the longest run of
      digits that follows is the value. `None` stands for `NaN` (no digits). */
  function ParseInt(s: string): (r: Option<int>)
    ensures AllSpace(s) ==> r.None?
    ensures r.Some? ==> exists i :: 0 <= i < |s| && IsDigit(s[i])
  {
    var t := s[TrimStartIndex(s)..];
    var negative := |t| > 0 && t[0] == '-';
    var u := if |t| > 0 && (t[0] == '-' || t[0] == '+') then t[1..] else t;
    var hex := |u| >= 2 && u[0] == '0' && (u[1] == 'x' || u[1] == 'X');
    var body := if hex then u[2..] else u;
    var radix := if hex then 16 else 10;
    var k := DigitRun(body, radix);
    if k == 0 then None
    else
      var v: int := RunValue(body[..k], radix);
      Some(if negative then -v else v)
  }

  lemma {:induction false} DigitRunAll(s: string)
    requires forall i :: 0 <= i < |s| ==> IsDigit(s[i])
    ensures DigitRun(s, 10) == |s|
    decreases |s|
  {
    if |s| > 0 {
      DigitRunAll(s[1..]);
    }
  }

  lemma {:induction false} RunValueDecimal(s: string)
    requires forall i :: 0 <= i < |s| ==> IsDigit(s[i])
    ensures RunValue(s, 10) == DecimalValue(s)
    decreases |s|
  {
    if |s| > 0 {
      RunValueDecimal(s[..|s| - 1]);
    }
  }

  lemma {:induction false} DecimalOfNatToString(n: nat)
    ensures DecimalValue(NatToString(n)) == n
    decreases n
  {
    if n >= 10 {
      DecimalOfNatToString(n / 10);
      var s := NatToString(n);
      assert s[..|s| - 1] == NatToString(n / 10);
    }
  }

  /** `parseInt(String(n)) == n`: the decimal rendering reads back. */
  lemma ParseIntOfIntToString(n: int)
    ensures ParseInt(IntToString(n)) == Some(n)
  {
    var m := if n < 0 then -n else n;
    var d := NatToString(m);
    var s := IntToString(n);
    assert TrimStartIndex(s) == 0;
    assert s[0..] == s;
    if n < 0 {
      assert s[1..] == d;
    }
    DigitRunAll(d);
    RunValueDecimal(d);
    DecimalOfNatToString(m);
    assert d[..|d|] == d;
    if |d| >= 2 {
      assert d[0] != '0';
    }
  }

  /** A string that starts with a digit and has no hexadecimal prefix is
      read as the decimal digit run at its head. */
  lemma ParseIntUnsigned(s: string)
    requires |s| > 0 && IsDigit(s[0])
    requires |s| >= 2 ==> s[0] != '0' || (s[1] != 'x' && s[1] != 'X')
    ensures DigitRun(s, 10) > 0
    ensures ParseInt(s) == Some(RunValue(s[..DigitRun(s, 10)], 10))
  {
    assert !IsJsSpace(s[0]);
    assert TrimStartIndex(s) == 0;
    assert s[0..] == s;
  }

  /** `parseInt` of a digit string is its decimal value. */
  lemma ParseIntOfDigits(s: string)
    requires |s| > 0 && forall i :: 0 <= i < |s| ==> IsDigit(s[i])
    requires |s| >= 2 ==> s[1] != 'x' && s[1] != 'X'
    ensures ParseInt(s) == Some(DecimalValue(s))
  {
    ParseIntUnsigned(s);
    DigitRunAll(s);
    RunValueDecimal(s);
    ReadWholeRun(s, DigitRun(s, 10));
  }

  /** Reading a run that spans the whole string reads the string. */
  lemma ReadWholeRun(s: string, k: nat)
    requires k == |s|
    ensures RunValue(s[..k], 10) == RunValue(s, 10)
  {
    assert s[..k] == s;
  }
}

=== FILE: timeline_page.dfy ===
/** The wedding-day timeline page: the 24-hour to 12-hour clock formatter
    and the add-event form with its insert payload. */
module TimelinePage {
  import opened Wrappers
  import opened Text
  import opened Records

  /** JavaScript's `a % 12`: the remainder takes the sign of `a` (it
      truncates toward zero, unlike Dafny's `%`). */
  function JsRem12(a: int): (r: int)
    ensures a >= 0 ==> 0 <= r < 12 && r == a % 12
    ensures a < 0 ==> -12 < r <= 0 && (a - r) % 12 == 0
  {
    if a >= 0 then a % 12 else -((-a) % 12)
  }

  /** `hour % 12 || 12`, where `None` is `NaN` (so the result is 12). */
  function Hour12(hour: Option<int>): (h: int)
    ensures hour.None? ==> h == 12
    ensures hour.Some? && hour.value >= 0 ==> 1 <= h <= 12 && (hour.value - h) % 12 == 0
  {
    if hour.None? then 12
    else
      var m := JsRem12(hour.value);
      if m == 0 then 12 else m
  }

  /** `hour >= 12 ? 'PM' : 'AM'`; `NaN >= 12` is false. */
  function Suffix(hour: Option<int>): (s: string)
    ensures s == "PM" <==> hour.Some? && hour.value >= 12
    ensures s == "AM" || s == "PM"
  {
    if hour.Some? && hour.value >= 12 then "PM" else "AM"
  }

  /** The text `formatTime` builds from the parsed hour and the minutes field. */
  function Render(hour: Option<int>, minutes: string): string {
    IntToString(Hour12(hour)) + ":" + minutes + " " + Suffix(hour)
  }

  /** `formatTime(time)`: the hour field read with `parseInt`, the minutes
      field copied as it is (the text `undefined` when there is none), and
      every later field dropped. */
  function FormatTime(time: string): (r: string)
    ensures var hour := ParseInt(Split(time, ':')[0]);
      |r| >= 3 && r[|r| - 3..] == (if hour.Some? && hour.value >= 12 then " PM" else " AM")
  {
    var parts := Split(time, ':');
    var hour := ParseInt(parts[0]);
    var minutes := if |parts| > 1 then parts[1] else "undefined";
    RenderEndsWithSuffix(hour, minutes);
    Render(hour, minutes)
  }

  /** The rendered text ends in a space and the suffix. */
  lemma RenderEndsWithSuffix(hour: Option<int>, minutes: string)
    ensures var r := Render(hour, minutes);
      |r| >= 3 && r[|r| - 3..] == " " + Suffix(hour)
  {
    var head := IntToString(Hour12(hour)) + ":" + minutes;
    assert Render(hour, minutes) == head + (" " + Suffix(hour));
  }

  /** The clock a reader expects: hour `h` of the day as 1..12 and AM/PM. */
  function ClockHour(h: nat): (c: nat)
    requires h < 24
    ensures 1 <= c <= 12
  {
    if h % 12 == 0 then 12 else h % 12
  }

  /** The 12-hour reading determines the hour of the day. */
  lemma ClockHourInverse(h: nat)
    requires h < 24
    ensures h == ClockHour(h) % 12 + (if h >= 12 then 12 else 0)
  {
  }

  /** The time of day `hh:mm`, optionally followed by `:secs`. */
  function ClockTime(hh: string, mm: string, secs: Option<string>): string {
    hh + ":" + mm + (if secs.Some? then ":" + secs.value else "")
  }

  /** Splitting a time of day on `:` yields the hour field then the minutes field. */
  lemma {:induction false} ClockTimeFields(hh: string, mm: string, secs: Option<string>)
    requires forall i :: 0 <= i < |hh| ==> hh[i] != ':'
    requires forall i :: 0 <= i < |mm| ==> mm[i] != ':'
    ensures var parts := Split(ClockTime(hh, mm, secs), ':');
      |parts| > 1 && parts[0] == hh && parts[1] == mm
  {
    var time := ClockTime(hh, mm, secs);
    if secs.Some? {
      assert time == hh + [':'] + (mm + [':'] + secs.value);
      SplitAt(hh, ':', mm + [':'] + secs.value);
      SplitAt(mm, ':', secs.value);
    } else {
      assert time == hh + [':'] + mm;
      SplitAt(hh, ':', mm);
      SplitNoSeparator(mm, ':');
    }
  }

  /** On a parsed hour of the day the rendering agrees with `ClockHour`. */
  lemma RenderOfClock(h: nat, mm: string)
    requires h < 24
    ensures Render(Some(h), mm) == IntToString(ClockHour(h)) + ":" + mm + " " + (if h >= 12 then "PM" else "AM")
  {
  }

  /** On a well-formed time of day the formatter agrees with `ClockHour`:
      for an hour field of digits `hh` worth `h` and a minutes field `mm`,
      with or without a seconds field. */
  lemma FormatTimeOfClock(hh: string, mm: string, secs: Option<string>)
    requires |hh| > 0 && forall i :: 0 <= i < |hh| ==> IsDigit(hh[i])
    requires DecimalValue(hh) < 24
    requires forall i :: 0 <= i < |mm| ==> mm[i] != ':'
    ensures var h := DecimalValue(hh);
      FormatTime(ClockTime(hh, mm, secs)) == IntToString(ClockHour(h)) + ":" + mm + " " + (if h >= 12 then "PM" else "AM")
  {
    ClockTimeFields(hh, mm, secs);
    ParseIntOfDigits(hh);
    RenderOfClock(DecimalValue(hh), mm);
  }

  lemma MidnightFields()
    ensures DecimalValue("00") == 0 && ClockTime("00", "30", None) == "00:30"
  {
    assert "00"[..1] == "0";
  }

  lemma NoonFields()
    ensures DecimalValue("12") == 12 && ClockTime("12", "00", Some("00")) == "12:00:00"
  {
    assert "12"[..1] == "1";
  }

  lemma AfternoonFields()
    ensures DecimalValue("13") == 13 && ClockTime("13", "05", None) == "13:05"
  {
    assert "13"[..1] == "1";
  }

  lemma TwelveText()
    ensures IntToString(12) + ":" + "30" + " " + "AM" == "12:30 AM"
    ensures IntToString(12) + ":" + "00" + " " + "PM" == "12:00 PM"
  {
    assert IntToString(12) == "12";
  }

  /** Midnight reads as twelve in the morning. */
  lemma MidnightExample()
    ensures FormatTime("00:30") == "12:30 AM"
  {
    MidnightFields();
    FormatTimeOfClock("00", "30", None);
    TwelveText();
  }

  /** Noon reads as twelve in the afternoon, and the seconds are dropped. */
  lemma NoonExample()
    ensures FormatTime("12:00:00") == "12:00 PM"
  {
    NoonFields();
    FormatTimeOfClock("12", "00", Some("00"));
    TwelveText();
  }

  lemma OneText()
    ensures IntToString(1) + ":" + "05" + " " + "PM" == "1:05 PM"
  {
    assert IntToString(1) == "1";
  }

  /** An afternoon hour drops to 1..11. */
  lemma AfternoonExample()
    ensures FormatTime("13:05") == "1:05 PM"
  {
    AfternoonFields();
    FormatTimeOfClock("13", "05", None);
    OneText();
  }

  /** A time with no colon keeps the hour and prints `undefined` for the minutes. */
  lemma NoMinutesExample()
    ensures FormatTime("9") == "9:undefined AM"
  {
    SplitNoSeparator("9", ':');
    NineParses();
    NineText();
  }

  lemma NineParses()
    ensures ParseInt("9") == Some(9)
  {
    ParseIntOfDigits("9");
    assert "9"[..0] == "";
  }

  lemma NineText()
    ensures Render(Some(9), "undefined") == "9:undefined AM"
  {
    assert IntToString(9) == "9";
  }

  /** The add-event dialog's fields, as typed; the times come from time inputs. */
  datatype EventForm = EventForm(
    title: string,
    description: string,
    startTime: string,
    endTime: string,
    location: string,
    assignedTo: string)

  /** The form as it opens and as it is reset after a successful insert. */
  function BlankEventForm(): (f: EventForm)
    ensures AllSpace(f.title) && f.startTime == ""
  {
    EventForm("", "", "", "", "", "")
  }

  /** The row sent to the `timeline_events` table. */
  datatype EventPayload = EventPayload(
    weddingId: string,
    title: string,
    description: Option<string>,
    startTime: string,
    endTime: Option<string>,
    location: Option<string>,
    assignedTo: Option<string>)

  /** The insert the form submits, or nothing when the guard stops it. */
  function CreateEventRequest(form: EventForm, wedding: Option<Wedding>): (r: Option<EventPayload>)
    ensures r.None? <==> AllSpace(form.title) || form.startTime == "" || wedding.None?
    ensures r.Some? ==> (r.value.weddingId == wedding.value.id
      && r.value.title == Trim(form.title) && r.value.title != ""
      && r.value.startTime == form.startTime && r.value.startTime != "")
    ensures r.Some? ==> (TrimmedOrNull(r.value.description, form.description)
      && CopiedOrNull(r.value.endTime, form.endTime)
      && TrimmedOrNull(r.value.location, form.location)
      && TrimmedOrNull(r.value.assignedTo, form.assignedTo))
  {
    var title := Trim(form.title);
    if title == "" || form.startTime == "" || wedding.None? then None
    else Some(EventPayload(
      wedding.value.id,
      title,
      TrimOrNull(form.description),
      form.startTime,
      OrNull(form.endTime),
      TrimOrNull(form.location),
      TrimOrNull(form.assignedTo)))
  }

  /** The form that would show a stored payload: null fields become blank. */
  function EventFormOf(p: EventPayload): EventForm {
    EventForm(p.title, p.description.GetOr(""), p.startTime, p.endTime.GetOr(""),
              p.location.GetOr(""), p.assignedTo.GetOr(""))
  }

  /** Normalisation is idempotent: typing a submitted payload back into the
      form produces the same payload. */
  lemma EventPayloadRoundTrip(form: EventForm, w: Wedding)
    requires CreateEventRequest(form, Some(w)).Some?
    ensures var p := CreateEventRequest(form, Some(w)).value;
      CreateEventRequest(EventFormOf(p), Some(w)) == Some(p)
  {
    var p := CreateEventRequest(form, Some(w)).value;
    TrimIdempotent(form.title);
    TrimOrNullStable(p.description, form.description);
    TrimOrNullStable(p.location, form.location);
    TrimOrNullStable(p.assignedTo, form.assignedTo);
  }

  /** What submitting the dialog leads to; `refetched` is the reload of the
      event list. */
  datatype EventSubmit = EventSubmit(request: Option<EventPayload>, form: EventForm, dialogOpen: bool, refetched: bool)

  /** Submit the add-event dialog; `storeAccepts` is the outcome of the insert. */
  function SubmitEvent(form: EventForm, wedding: Option<Wedding>, storeAccepts: bool): (o: EventSubmit)
    ensures o.request == CreateEventRequest(form, wedding)
    ensures o.request.None? || !storeAccepts ==> o.form == form && o.dialogOpen && !o.refetched
    ensures o.request.Some? && storeAccepts ==> o.form == BlankEventForm() && !o.dialogOpen && o.refetched
  {
    var req := CreateEventRequest(form, wedding);
    if req.Some? && storeAccepts then EventSubmit(req, BlankEventForm(), false, true)
    else EventSubmit(req, form, true, false)
  }
}

=== FILE: vendors_page.dfy ===
/** The vendor list page: the add-vendor form with its insert payload and
    the contract-signed toggle. */
module VendorsPage {
  import opened Wrappers
  import opened Text
  import opened Records
  import Seqs

  /** The add-vendor dialog's fields, as typed; the category comes from a picker. */
  datatype VendorForm = VendorForm(
    name: string,
    categoryId: string,
    contactName: string,
    email: string,
    phone: string,
    website: string,
    notes: string,
    contractSigned: bool)

  /** The form as it opens and as it is reset after a successful insert. */
  function BlankVendorForm(): (f: VendorForm)
    ensures AllSpace(f.name) && !f.contractSigned
  {
    VendorForm("", "", "", "", "", "", "", false)
  }

  /** The row sent to the `vendors` table. */
  datatype VendorPayload = VendorPayload(
    weddingId: string,
    name: string,
    categoryId: Option<string>,
    contactName: Option<string>,
    email: Option<string>,
    phone: Option<string>,
    website: Option<string>,
    notes: Option<string>,
    contractSigned: bool)

  /** The insert the form submits, or nothing when the guard stops it. */
  function CreateVendorRequest(form: VendorForm, wedding: Option<Wedding>): (r: Option<VendorPayload>)
    ensures r.None? <==> AllSpace(form.name) || wedding.None?
    ensures r.Some? ==> (r.value.weddingId == wedding.value.id
      && r.value.name == Trim(form.name) && r.value.name != ""
      && r.value.contractSigned == form.contractSigned)
    ensures r.Some? ==> (CopiedOrNull(r.value.categoryId, form.categoryId)
      && TrimmedOrNull(r.value.contactName, form.contactName)
      && TrimmedOrNull(r.value.email, form.email)
      && TrimmedOrNull(r.value.phone, form.phone)
      && TrimmedOrNull(r.value.website, form.website)
      && TrimmedOrNull(r.value.notes, form.notes))
  {
    var name := Trim(form.name);
    if name == "" || wedding.None? then None
    else Some(VendorPayload(
      wedding.value.id,
      name,
      OrNull(form.categoryId),
      TrimOrNull(form.contactName),
      TrimOrNull(form.email),
      TrimOrNull(form.phone),
      TrimOrNull(form.website),
      TrimOrNull(form.notes),
      form.contractSigned))
  }

  /** The form that would show a stored payload: null fields become blank. */
  function VendorFormOf(p: VendorPayload): VendorForm {
    VendorForm(p.name, p.categoryId.GetOr(""), p.contactName.GetOr(""), p.email.GetOr(""),
               p.phone.GetOr(""), p.website.GetOr(""), p.notes.GetOr(""), p.contractSigned)
  }

  /** Normalisation is idempotent: typing a submitted payload back into the
      form produces the same payload. */
  lemma VendorPayloadRoundTrip(form: VendorForm, w: Wedding)
    requires CreateVendorRequest(form, Some(w)).Some?
    ensures var p := CreateVendorRequest(form, Some(w)).value;
      CreateVendorRequest(VendorFormOf(p), Some(w)) == Some(p)
  {
    var p := CreateVendorRequest(form, Some(w)).value;
    TrimIdempotent(form.name);
    TrimOrNullStable(p.contactName, form.contactName);
    TrimOrNullStable(p.email, form.email);
    TrimOrNullStable(p.phone, form.phone);
    TrimOrNullStable(p.website, form.website);
    TrimOrNullStable(p.notes, form.notes);
  }

  /** What submitting the dialog leads to. */
  datatype VendorSubmit = VendorSubmit(request: Option<VendorPayload>, form: VendorForm, dialogOpen: bool, refreshed: bool)

  /** Submit the add-vendor dialog; `storeAccepts` is the outcome of the insert. */
  function SubmitVendor(form: VendorForm, wedding: Option<Wedding>, storeAccepts: bool): (o: VendorSubmit)
    ensures o.request == CreateVendorRequest(form, wedding)
    ensures o.request.None? || !storeAccepts ==> o.form == form && o.dialogOpen && !o.refreshed
    ensures o.request.Some? && storeAccepts ==> o.form == BlankVendorForm() && !o.dialogOpen && o.refreshed
  {
    var req := CreateVendorRequest(form, wedding);
    if req.Some? && storeAccepts then VendorSubmit(req, BlankVendorForm(), false, true)
    else VendorSubmit(req, form, true, false)
  }

  /** The value the contract button writes: `!(vendor.contract_signed || false)`. */
  function ToggledContract(v: Vendor): (b: bool)
    ensures b <==> v.contractSigned != Some(true)
  {
    !v.contractSigned.GetOr(false)
  }

  /** The table after `update({ contract_signed: value }).eq('id', vendorId)`. */
  function SetContract(vendors: seq<Vendor>, vendorId: string, value: bool): (r: seq<Vendor>)
    ensures |r| == |vendors|
    ensures forall i :: 0 <= i < |r| ==>
      r[i].contractSigned == (if vendors[i].id == vendorId then Some(value) else vendors[i].contractSigned)
    ensures forall i :: 0 <= i < |r| ==> r[i].(contractSigned := vendors[i].contractSigned) == vendors[i]
  {
    Seqs.Map(vendors, (v: Vendor) => if v.id == vendorId then v.(contractSigned := Some(value)) else v)
  }

  /** Pressing the button twice restores a recorded value; a null one ends up false. */
  lemma ToggleContractTwice(vendors: seq<Vendor>, i: nat)
    requires i < |vendors|
    ensures var v := vendors[i];
      var once := SetContract(vendors, v.id, ToggledContract(v));
      var twice := SetContract(once, v.id, ToggledContract(once[i]));
      twice[i].contractSigned == Some(v.contractSigned.GetOr(false))
  {
  }

  /** The table after `delete().eq('id', vendorId)`. */
  function DeleteVendor(vendors: seq<Vendor>, vendorId: string): (r: seq<Vendor>)
    ensures forall v :: v in r <==> v in vendors && v.id != vendorId
    ensures |r| <= |vendors|
  {
    Seqs.Filter(vendors, (v: Vendor) => v.id != vendorId)
  }

  /** Deleting an id that is not on the list changes nothing. */
  lemma DeleteMissingVendor(vendors: seq<Vendor>, vendorId: string)
    requires forall v :: v in vendors ==> v.id != vendorId
    ensures DeleteVendor(vendors, vendorId) == vendors
  {
    Seqs.FilterAll(vendors, (v: Vendor) => v.id != vendorId);
  }
}

=== FILE: wedding_context.dfy ===
/** The wedding provider: loading a user's wedding with its related rows,
    and creating a wedding together with its default categories. */
module WeddingContext {
  import opened Wrappers
  import opened Records
  import Seqs

  /** What the provider holds. */
  datatype State = State(
    wedding: Option<Wedding>,
    categories: seq<Category>,
    tasks: seq<Task>,
    guests: seq<Guest>,
    budgetItems: seq<BudgetItem>,
    vendors: seq<Vendor>,
    loading: bool)

  /** The provider before its first load. */
  function InitialState(): (s: State)
    ensures s.wedding.None? && s.loading
    ensures s.categories == [] && s.tasks == [] && s.guests == [] && s.budgetItems == [] && s.vendors == []
  {
    State(None, [], [], [], [], [], true)
  }

  /** The tables the provider reads. */
  datatype Store = Store(
    weddings: seq<Wedding>,
    categories: seq<Category>,
    tasks: seq<Task>,
    guests: seq<Guest>,
    budgetItems: seq<BudgetItem>,
    vendors: seq<Vendor>)

  /** The tables; a query against a table in the failing set returns null data. */
  datatype Table = Weddings | Categories | Tasks | Guests | BudgetItems | Vendors

  /** `.single()`: the row when exactly one matches, otherwise null data. */
  function Single<T>(rows: seq<T>): (r: Option<T>)
    ensures r.Some? <==> |rows| == 1
    ensures r.Some? ==> r.value in rows
  {
    if |rows| == 1 then Some(rows[0]) else None
  }

  /** `res.data || []`: the rows, or nothing when the query failed. */
  function RowsOrEmpty<T>(table: Table, failing: set<Table>, rows: seq<T>): (r: seq<T>)
    ensures table in failing ==> r == []
    ensures table !in failing ==> r == rows
  {
    if table in failing then [] else rows
  }

  /** `.eq('owner_id', user.id)`. */
  function OwnedBy(userId: string): Wedding -> bool {
    (w: Wedding) => w.ownerId == userId
  }

  /** The wedding the refresh finds for a user. */
  function FindWedding(store: Store, failing: set<Table>, userId: string): (w: Option<Wedding>)
    ensures w.Some? <==> Weddings !in failing && |Seqs.Filter(store.weddings, OwnedBy(userId))| == 1
    ensures w.Some? ==> w.value in store.weddings && w.value.ownerId == userId
  {
    if Weddings in failing then None else Single(Seqs.Filter(store.weddings, OwnedBy(userId)))
  }

  function CategoryOf(id: string): Category -> bool { (c: Category) => c.weddingId == id }
  function TaskOf(id: string): Task -> bool { (t: Task) => t.weddingId == id }
  function GuestOf(id: string): Guest -> bool { (g: Guest) => g.weddingId == id }
  function ItemOf(id: string): BudgetItem -> bool { (i: BudgetItem) => i.weddingId == id }
  function VendorOf(id: string): Vendor -> bool { (v: Vendor) => v.weddingId == id }

  /** `fetchWeddingData`: with no user only the loading flag drops; with no
      wedding found the wedding is cleared and the lists are kept; otherwise
      every list is replaced by the wedding's rows. */
  function Refresh(s: State, user: Option<string>, store: Store, failing: set<Table>): (r: State)
    ensures !r.loading
    ensures user.None? ==> r == s.(loading := false)
    ensures user.Some? ==> r.wedding == FindWedding(store, failing, user.value)
    ensures user.Some? && r.wedding.None? ==> r == s.(wedding := None, loading := false)
    ensures user.Some? && r.wedding.Some? ==> (
      var id := r.wedding.value.id;
      (forall c :: c in r.categories <==> Categories !in failing && c in store.categories && c.weddingId == id)
      && (forall t :: t in r.tasks <==> Tasks !in failing && t in store.tasks && t.weddingId == id)
      && (forall g :: g in r.guests <==> Guests !in failing && g in store.guests && g.weddingId == id)
      && (forall i :: i in r.budgetItems <==> BudgetItems !in failing && i in store.budgetItems && i.weddingId == id)
      && (forall v :: v in r.vendors <==> Vendors !in failing && v in store.vendors && v.weddingId == id))
  {
    if user.None? then s.(loading := false)
    else
      var found := FindWedding(store, failing, user.value);
      if found.None? then s.(wedding := None, loading := false)
      else
        var id := found.value.id;
        State(
          found,
          RowsOrEmpty(Categories, failing, Seqs.Filter(store.categories, CategoryOf(id))),
          RowsOrEmpty(Tasks, failing, Seqs.Filter(store.tasks, TaskOf(id))),
          RowsOrEmpty(Guests, failing, Seqs.Filter(store.guests, GuestOf(id))),
          RowsOrEmpty(BudgetItems, failing, Seqs.Filter(store.budgetItems, ItemOf(id))),
          RowsOrEmpty(Vendors, failing, Seqs.Filter(store.vendors, VendorOf(id))),
          false)
  }

  /** Refreshing again against the same tables changes nothing. */
  lemma RefreshIsIdempotent(s: State, user: Option<string>, store: Store, failing: set<Table>)
    ensures Refresh(Refresh(s, user, store, failing), user, store, failing) == Refresh(s, user, store, failing)
  {
  }

  /** When the refresh finds nothing, what was shown stays until the next
      successful load, but no wedding is. */
  lemma MissingWeddingKeepsLists(s: State, userId: string, store: Store, failing: set<Table>)
    requires FindWedding(store, failing, userId).None?
    ensures var r := Refresh(s, Some(userId), store, failing);
      r.wedding.None? && r.categories == s.categories && r.tasks == s.tasks
      && r.guests == s.guests && r.budgetItems == s.budgetItems && r.vendors == s.vendors
  {
  }

  /** What `createWedding` receives: names, an optional date, an optional amount. */
  datatype WeddingRequest = WeddingRequest(
    partnerName1: string,
    partnerName2: string,
    weddingDate: Option<string>,
    totalBudget: Option<int>)

  /** The row sent to `weddings`. */
  datatype WeddingInsert = WeddingInsert(
    ownerId: string,
    partnerName1: string,
    partnerName2: string,
    weddingDate: Option<string>,
    totalBudget: int)

  /** The insert for a request: `wedding_date || null`, `total_budget || 0`. */
  function WeddingPayload(userId: string, req: WeddingRequest): (p: WeddingInsert)
    ensures p.ownerId == userId
    ensures p.partnerName1 == req.partnerName1 && p.partnerName2 == req.partnerName2
    ensures p.weddingDate.None? <==> req.weddingDate.None? || req.weddingDate == Some("")
    ensures p.weddingDate.Some? ==> p.weddingDate == req.weddingDate
    ensures p.totalBudget == MoneyOrZero(req.totalBudget)
  {
    var date := if req.weddingDate.None? then None else OrNull(req.weddingDate.value);
    WeddingInsert(userId, req.partnerName1, req.partnerName2, date, MoneyOrZero(req.totalBudget))
  }

  /** One default category: the message key of its name, its icon and its colour. */
  datatype DefaultCategory = DefaultCategory(nameKey: string, icon: string, color: string)

  /** The ten categories every new wedding starts with, in order. */
  const DefaultCategories: seq<DefaultCategory> := [
    DefaultCategory("categories.venue", "building-2", "rose"),
    DefaultCategory("categories.catering", "utensils", "sage"),
    DefaultCategory("categories.photography", "camera", "gold"),
    DefaultCategory("categories.music", "music", "rose"),
    DefaultCategory("categories.flowersDecor", "flower-2", "sage"),
    DefaultCategory("categories.attire", "shirt", "champagne"),
    DefaultCategory("categories.rings", "gem", "gold"),
    DefaultCategory("categories.invitations", "mail", "rose"),
    DefaultCategory("categories.transportation", "car", "sage"),
    DefaultCategory("categories.honeymoon", "plane", "gold")
  ]

  /** A row sent to `categories`. */
  datatype CategoryInsert = CategoryInsert(weddingId: string, name: string, icon: string, color: string, sortOrder: int)

  /** `defaultCategories.map((cat, index) => ...)`, names translated by `translate`. */
  function CategoryInserts(weddingId: string, translate: string -> string): (r: seq<CategoryInsert>)
    ensures |r| == |DefaultCategories| == 10
    ensures forall i :: 0 <= i < |r| ==> r[i].weddingId == weddingId && r[i].sortOrder == i
    ensures forall i :: 0 <= i < |r| ==> (r[i].name == translate(DefaultCategories[i].nameKey)
      && r[i].icon == DefaultCategories[i].icon && r[i].color == DefaultCategories[i].color)
  {
    seq(|DefaultCategories|, i requires 0 <= i < |DefaultCategories| =>
      var d := DefaultCategories[i];
      CategoryInsert(weddingId, translate(d.nameKey), d.icon, d.color, i))
  }

  /** The default categories have distinct name keys. */
  lemma DefaultNameKeysDistinct()
    ensures forall i, j :: 0 <= i < j < |DefaultCategories| ==> DefaultCategories[i].nameKey != DefaultCategories[j].nameKey
  {
  }

  /** The inserted categories come back in list order when sorted by `sort_order`,
      and no two share a position. */
  lemma DefaultSortOrdersIncrease(weddingId: string, translate: string -> string)
    ensures var r := CategoryInserts(weddingId, translate);
      forall i, j :: 0 <= i < j < |r| ==> r[i].sortOrder < r[j].sortOrder
  {
  }

  /** What `createWedding` does: the inserts it sends, what it returns, and
      whether it reloads. */
  datatype CreateOutcome = CreateOutcome(
    weddingInsert: Option<WeddingInsert>,
    categoryInserts: seq<CategoryInsert>,
    result: Option<Wedding>,
    refreshed: bool)

  /** `createWedding(data)`; `stored` is the row the store returns for the
      insert, `None` when it reports an error. The outcome of the category
      insert is not inspected. */
  function CreateWedding(user: Option<string>, req: WeddingRequest, stored: Option<Wedding>,
                         translate: string -> string): (o: CreateOutcome)
    ensures user.None? ==> o.weddingInsert.None? && o.categoryInserts == [] && o.result.None? && !o.refreshed
    ensures user.Some? ==> o.weddingInsert == Some(WeddingPayload(user.value, req))
    ensures stored.None? ==> o.categoryInserts == [] && o.result.None? && !o.refreshed
    ensures o.result.Some? <==> user.Some? && stored.Some?
    ensures o.result.Some? ==> (o.result == stored && o.refreshed
      && o.categoryInserts == CategoryInserts(stored.value.id, translate))
  {
    if user.None? then CreateOutcome(None, [], None, false)
    else
      var payload := WeddingPayload(user.value, req);
      if stored.None? then CreateOutcome(Some(payload), [], None, false)
      else CreateOutcome(Some(payload), CategoryInserts(stored.value.id, translate), stored, true)
  }

  /** The row the store keeps for a payload, under a fresh id. */
  function StoredRow(id: string, p: WeddingInsert): Wedding {
    Wedding(id, p.ownerId, p.partnerName1, p.partnerName2, p.weddingDate, Some(p.totalBudget))
  }

  /** A created wedding reads back its request: the same owner and names, the
      date when one was given, and the amount or 0. */
  lemma CreatedWeddingReadsBack(userId: string, req: WeddingRequest, id: string)
    ensures var w := StoredRow(id, WeddingPayload(userId, req));
      w.ownerId == userId && w.partnerName1 == req.partnerName1 && w.partnerName2 == req.partnerName2
      && MoneyOrZero(w.totalBudget) == MoneyOrZero(req.totalBudget)
      && (req.weddingDate.Some? && req.weddingDate.value != "" ==> w.weddingDate == req.weddingDate)
  {
  }

  /** After a creation the reload finds the new wedding when it is the user's
      only one, and lists the default categories once the store holds them. */
  lemma CreatedWeddingIsLoaded(s: State, userId: string, req: WeddingRequest, id: string,
                               translate: string -> string, store: Store, failing: set<Table>)
    requires Seqs.Filter(store.weddings, OwnedBy(userId)) == [StoredRow(id, WeddingPayload(userId, req))]
    requires Weddings !in failing
    ensures Refresh(s, Some(userId), store, failing).wedding == Some(StoredRow(id, WeddingPayload(userId, req)))
  {
  }
}

=== FILE: wrappers.dfy ===
/** Option and Result types for values the source leaves `undefined`/`null`
    and for operations that may fail as a whole. */
module Wrappers {

  /** `None` stands for JavaScript `undefined` or a database `null`. */
  datatype Option<+T> = None | Some(value: T) {

    /** The value, or `default` when there is none (the source's `?? default`). */
    function GetOr(default: T): T {
      match this
      case Some(v) => v
      case None => default
    }
  }

  /** The outcome of an operation that either produces a value or fails as a whole. */
  datatype Result<+R, +E> = Success(value: R) | Failure(error: E)
}
